=== FILE: README.md ===
# SEAPATH installer core in Dafny

This project models the decision logic of the SEAPATH installer. The installer is a set of
Calamares modules: C++ view modules and Python job modules. Each module becomes one Dafny
module, built from immutable datatypes and pure functions, with a few short methods where
the source loops.

- `ChoicePage`: the partitioning choice engine. It covers the proceed gate and its
  edge-triggered update, the reset on a device change, and the Erase/Replace preview
  rebuild from the partition list decoded out of the selected image. It also covers the
  Alongside splitter bounds, the resize on leave, and the page's pure helpers.
- `NetworkConfig` and `NetworkPage`: the static network form.
  - The IPv4, gateway and mask patterns are stated as exact string languages.
  - The setters and their global-storage writes are modelled, as are the cached readiness
    flag and the label tri-state.
- `InterfaceList`: the filter over `nmcli` output.
- `ImageSelectionPage` and `ImageSelectionConfig`:
  - the image list and its metadata file names;
  - the single-selection rule and the flavour;
  - the restart-mode table;
  - failure change detection;
  - the notification title choice.
- `SshKeyPage` and `SshKeyJob`: key labels and the selection, and the job that appends
  the keys to `authorized_keys` over an abstract file map.
- `UefiBoot`: parsing of `efibootmgr` entries, the arguments of the created entries, the
  BootOrder rewrite, and the command sequence of the job.
- `NetworkCfg`: the systemd-networkd file that is written, and where it goes.
- `Mount`: partition indexing from `lsblk`, overlay option strings, and the mount sequence
  for each flavour.
- `RawImage`: the `bmaptool` command, progress parsing from its output, and the mapping of
  the result.

Shared pieces:
- `Wrappers` holds `Option` and `Result`.
- `Text` holds split, join, trim, lower-casing and decimal numerals. Its white space is the
  six ASCII characters that Qt and Python agree on, and its case folding is ASCII only.
- `Store` holds the global-storage value type.

External programs are not run. Their standard output, exit status and any failure become
parameters of the model, and so do file systems and temporary directory names.

## Model

| member | source | states |
|---|---|---|
| ChoicePage.CalculateNextEnabled | src/modules/partition/gui/ChoicePage.cpp:1340-1376 | The gate is closed for NoChoice. For Replace or Alongside it is closed without a valid selection, and also on EFI with zero ESPs; with both present it is open. Erase and Manual are always open. |
| ChoicePage.UpdateNextEnabled | src/modules/partition/gui/ChoicePage.cpp:1378-1388 | The stored flag becomes the computed gate and nothing else changes. A signal carrying the new value is emitted iff the value changed. |
| ChoicePage.UpdateNextEnabledIsQuiet | src/modules/partition/gui/ChoicePage.cpp:1378-1388 | A second update emits nothing and leaves the state alone. |
| ChoicePage.ThenUpdate | src/modules/partition/gui/ChoicePage.cpp:1378-1388 | After an update the gate is in sync, at most one signal is added, and only the flag changes. |
| ChoicePage.ApplyActionChoice | src/modules/partition/gui/ChoicePage.cpp:434-540 | The choice is kept. The selection survives only for Replace. The gate ends in sync. |
| ChoicePage.OnActionChanged | src/modules/partition/gui/ChoicePage.cpp:412-422 | The choice and the last device index are kept, and the gate ends in sync. |
| ChoicePage.OnChoiceToggled | src/modules/partition/gui/ChoicePage.cpp:296-321 | Checking a button sets its choice. Unchecking with no other button checked sets NoChoice and closes the gate. Unchecking while another button is checked changes nothing. |
| ChoicePage.ContinueApplyDeviceChoice | src/modules/partition/gui/ChoicePage.cpp:392-410 | A new combo index records the index and resets the choice to the initial one. The same index keeps the choice. The selection is always cleared, and the gate ends in sync. |
| ChoicePage.OnPartitionSelected | src/modules/partition/gui/ChoicePage.cpp:697-710 | The selection validity is recorded. The gate is recomputed only for a valid selection under Replace or Alongside. |
| ChoicePage.GateStaysInSync | src/modules/partition/gui/ChoicePage.cpp:392-410 | A device change and a button check both leave the gate in sync, and a repeated update after a device change is quiet. |
| ChoicePage.DeviceChangeBlocksPickingChoices | src/modules/partition/gui/ChoicePage.cpp:392-410 | After a device change, Replace and Alongside cannot proceed until a partition is picked. |
| ChoicePage.PreviewSelectionMode | src/modules/partition/gui/ChoicePage.cpp:1150-1163 | Single selection is used iff the choice picks a partition, that is Replace or Alongside. |
| ChoicePage.SelectionModeMatchesGate | src/modules/partition/gui/ChoicePage.cpp:1150-1163 | Without a selection mode the gate ignores the selection. With single selection the gate is closed when there is no selection. |
| ChoicePage.Offered | src/modules/partition/gui/ChoicePage.cpp:219-240 | The combo offers exactly the configured swap choices, filtered from the fixed listing order. |
| ChoicePage.OfferedKeepsOrder | src/modules/partition/gui/ChoicePage.cpp:219-240 | The offered swap choices are strictly in listing order. |
| ChoicePage.IndexOf | src/modules/partition/gui/ChoicePage.cpp:219-240 | The index is the first position holding the item, or -1 iff the item is absent. |
| ChoicePage.CreateCombo | src/modules/partition/gui/ChoicePage.cpp:219-240 | The combo items are exactly the configured choices, in listing order. The default is current when it is offered; otherwise the first item is current, or none when the combo is empty. |
| ChoicePage.DescribePartitionTypes | src/modules/partition/gui/ChoicePage.cpp:1225-1246 | An empty type list is described as "any". One type is named alone, two are joined with " or ", and more are joined with ", ". |
| ChoicePage.DescriptionNamesEveryType | src/modules/partition/gui/ChoicePage.cpp:1225-1246 | Every listed partition type appears in the description. |
| ChoicePage.EntriesForDevice | src/modules/partition/gui/ChoicePage.cpp:1320-1332 | The result is exactly the os-prober entries whose path starts with the device node. |
| ChoicePage.EntriesForDeviceConcat | src/modules/partition/gui/ChoicePage.cpp:1320-1332 | The filter distributes over concatenation, so the order of the entries is kept. |
| ChoicePage.FirstFree | src/modules/partition/gui/ChoicePage.cpp:819-833 | The result is the first free-space child, or none iff no child is free. |
| ChoicePage.PreviewPartition | src/modules/partition/gui/ChoicePage.cpp:1035-1072 | A decoded entry becomes a new primary ext4 partition spanning [first LBA, last LBA]. It is formatted and mounted at the entry's name. |
| ChoicePage.NonFreeOf | src/modules/partition/gui/ChoicePage.cpp:1015-1023 | The collected children are exactly the non-free ones. |
| ChoicePage.Without | src/modules/partition/gui/ChoicePage.cpp:1027-1032 | Removal keeps exactly the children that are not in the removed list. |
| ChoicePage.WithoutAll | src/modules/partition/gui/ChoicePage.cpp:1015-1032 | Removing every child leaves nothing. |
| ChoicePage.RemoveForPreview | src/modules/partition/gui/ChoicePage.cpp:1013-1033 | Clearing the preview of non-free children, once unallocated space is dropped, leaves no partition. |
| ChoicePage.PreviewPartitions | src/modules/partition/gui/ChoicePage.cpp:1035-1075 | There is one preview partition per decoded entry, in list order. |
| ChoicePage.RebuildErasePreview | src/modules/partition/gui/ChoicePage.cpp:1004-1075 | The device keeps its node, sector size and on-disk layout. Its children become exactly the preview partitions of the list, in order. |
| ChoicePage.RebuildDependsOnlyOnList | src/modules/partition/gui/ChoicePage.cpp:1004-1075 | The rebuilt layout depends only on the stored list, rebuilding twice equals rebuilding once, and no existing partition survives. |
| ChoicePage.Truncate | src/modules/partition/gui/ChoicePage.cpp:570-573 | The conversion rounds toward zero. |
| ChoicePage.QRound64 | src/modules/partition/gui/ChoicePage.cpp:567-569 | The result is the nearest integer, with ties rounded away from zero: a non-negative argument lies in [n - 0.5, n + 0.5), a negative one in (n - 0.5, n + 0.5]. |
| ChoicePage.AlongsideSplitBounds | src/modules/partition/gui/ChoicePage.cpp:567-575 | The minimum is the used size times 1.1, rounded to the nearest byte, with a tie going away from zero (-5 < 10·min - 11·used <= 5 for non-negative usage). The maximum leaves the required storage plus 2.1 GiB, in whole bytes. The preferred size is half the capacity. |
| ChoicePage.AlongsideExample | src/modules/partition/gui/ChoicePage.cpp:567-575 | With 10 GiB used of 100 GiB and 2 GiB required, the bounds are 11 GiB, 100 GiB minus 4402341478 bytes, and 50 GiB. |
| ChoicePage.FindByPath | src/modules/partition/gui/ChoicePage.cpp:665-695 | The result is the first child with the path, or none iff no child has it. |
| ChoicePage.AlongsideResize | src/modules/partition/gui/ChoicePage.cpp:665-695 | The resize targets the first device holding the path. It keeps the first sector and ends splitSize div logicalSize sectors later. There is none iff no device holds the path. |
| ChoicePage.ApplyResize | src/modules/partition/gui/ChoicePage.cpp:665-695 | Only the chosen partition changes, and only its last sector. |
| ChoicePage.OnLeave | src/modules/partition/gui/ChoicePage.cpp:598-663 | A resize happens only for Alongside with both splitter sizes at least 0. The ESP is set only on EFI with Replace or Alongside, and a bootloader path only off EFI. |
| ChoicePage.LeaveResizesAtMostOnePartition | src/modules/partition/gui/ChoicePage.cpp:603-610 | On leave, at most one partition of one device changes. It is the first device holding the selected path, and the first sector is kept. |
| NetworkConfig.OctetRxIsByte | src/modules/network/Config.cpp:30 | An octet group matches iff it is 1 to 3 digits with value at most 255. Leading zeros are allowed. |
| NetworkConfig.DottedQuadLength | src/modules/network/Config.cpp:30-31 | Every dotted quad the pattern accepts is at least 7 characters long. |
| NetworkConfig.Ipv4RxLength | src/modules/network/Config.cpp:30-31 | Every accepted address is at least 7 characters long, so the length test never rejects a well-formed one. |
| NetworkConfig.FormattedAddressAccepted | src/modules/network/Config.cpp:30 | Four byte values printed with dots are accepted. |
| NetworkConfig.AcceptedAddressIsFourBytes | src/modules/network/Config.cpp:30 | An accepted address splits into four digit groups of byte value. |
| NetworkConfig.MaskDigitsIsPrefixLength | src/modules/network/Config.cpp:33 | The mask digits match iff they are the canonical numeral of a value at most 32. |
| NetworkConfig.MaskRxIsPrefixLength | src/modules/network/Config.cpp:33 | Accepted masks are canonical numerals of 0..32, and every such numeral is accepted. |
| NetworkConfig.AddressStatus | src/modules/network/Config.cpp:106-119 | The status is empty iff the text matches the pattern. Otherwise the length message comes first, then the format message. |
| NetworkConfig.IpAddressStatus | src/modules/network/Config.cpp:106-119 | The IP status is empty iff the address matches. A short address gets the too-short message. |
| NetworkConfig.GatewayStatus | src/modules/network/Config.cpp:175-188 | The gateway status is empty iff the gateway matches. A short gateway gets the too-short message. |
| NetworkConfig.MaskStatus | src/modules/network/Config.cpp:144-152 | The mask status is empty iff the mask pattern matches; otherwise it is the out-of-range message. |
| NetworkConfig.DefaultMaskValid | src/modules/network/Config.cpp:34 | The default mask "24" validates. |
| NetworkConfig.IsReady | src/modules/network/Config.cpp:199-210 | With DHCP the form is ready iff the interface is non-empty. Without DHCP the IP and the gateway must also match. |
| NetworkConfig.MaskNeverGatesReadiness | src/modules/network/Config.cpp:199-210 | The mask never affects readiness. |
| NetworkConfig.CheckReady | src/modules/network/Config.cpp:218-226 | The cached flag becomes the computed readiness, and readyChanged is emitted iff it moved. |
| NetworkConfig.Settle | src/modules/network/Config.cpp:218-226 | Running the connected checkReady after a setter's signals keeps those signals first and leaves the flag in sync. |
| NetworkConfig.StoreText | src/modules/network/Config.cpp:71-79 | Empty text removes the key and other text inserts it. Every other key is untouched. |
| NetworkConfig.SetNetworkInterface | src/modules/network/Config.cpp:64-83 | An unchanged value is a no-op. Otherwise the field and the store are updated and nothing else changes. |
| NetworkConfig.SetIpAddress | src/modules/network/Config.cpp:86-103 | An unchanged value is a no-op. Otherwise the field and the store are updated and nothing else changes. |
| NetworkConfig.SetGateway | src/modules/network/Config.cpp:155-172 | An unchanged value is a no-op. Otherwise the field and the store are updated and nothing else changes. |
| NetworkConfig.SetMask | src/modules/network/Config.cpp:122-141 | An unchanged value is a no-op. An empty mask stores and publishes "24". Readiness never moves. |
| NetworkConfig.SetUseDhcpAsWritten | src/modules/network/Config.cpp:191-196 | As written: the field and the store are updated, but no signal is emitted and the cached readiness is left alone. |
| NetworkConfig.SetUseDhcpAsWrittenLeavesReadyStale | src/modules/network/Config.cpp:191-196 | With an interface set, switching DHCP on makes the form ready, yet the cached flag stays false. |
| NetworkConfig.SetUseDhcp | src/modules/network/Config.cpp:36-48 | Corrected: the change signal runs the connected checkReady, so the cached flag stays in sync. |
| NetworkConfig.Apply | src/modules/network/NetworkPage.cpp:88-105 | Each edit reaches its setter, and the DHCP toggle reaches the setter as written. Every edit keeps the store mirroring the fields and leaves other keys alone. Every edit except the toggle keeps the cached readiness in sync. The toggle leaves the cached flag as it was and emits nothing. |
| NetworkConfig.ApplyAll | src/modules/network/Config.cpp:36-48 | As written, any sequence of edits keeps the store mirroring the fields. The cached readiness stays in sync when no edit touches the DHCP box. |
| NetworkConfig.InterfaceThenDhcpEndsStale | src/modules/network/Config.cpp:191-196 | As written, typing "eth0" and then ticking DHCP leaves a form that is ready while the cached flag says it is not. |
| NetworkConfig.EditPreservesInvariants | src/modules/network/Config.cpp:36-48 | Corrected: with the DHCP setter announcing its change, every edit keeps the store mirroring the fields and the cached readiness in sync. |
| NetworkConfig.EditsKeepInvariants | src/modules/network/Config.cpp:36-48 | Corrected: any sequence of edits keeps the store mirroring the fields and the cached readiness equal to the computed one, so every readiness change has been announced. |
| NetworkConfig.AsWrittenAgreesWithoutDhcpToggle | src/modules/network/Config.cpp:64-196 | The program as written and the corrected one give the same result for every sequence of edits that never touches the DHCP box. |
| NetworkConfig.InitialStateSatisfiesInvariants | src/modules/network/Config.cpp:36-48 | The initial form with an empty store satisfies both invariants. |
| NetworkConfig.FinalizeGlobalStorage | src/modules/network/Config.cpp:259-268 | "24" is inserted only when no mask key exists, and every other entry is kept. |
| NetworkConfig.FinalizeIdempotent | src/modules/network/Config.cpp:259-268 | Finalizing twice equals finalizing once, and the stored mask is valid whenever the field's mask is. |
| NetworkPage.LabelStatus | src/modules/network/NetworkPage.cpp:57-77 | A non-empty status shows the error. An empty status clears the label for an empty value and shows ok otherwise. |
| NetworkPage.InterfaceLabel | src/modules/network/NetworkPage.cpp:136-139 | The interface label never shows an error. It shows ok iff the name is non-empty. |
| NetworkPage.AddressLabelMatchesPattern | src/modules/network/NetworkPage.cpp:142-157 | The address label shows ok iff the address matches, is never cleared, and shows too-short for an empty address. |
| NetworkPage.ClearedMaskShowsOk | src/modules/network/NetworkPage.cpp:142-157 | Clearing the mask field shows ok, because "24" is stored. |
| NetworkPage.OnUseDhcpChanged | src/modules/network/NetworkPage.cpp:160-170 | Any state other than Unchecked enables DHCP. The static fields are editable iff DHCP is off, and the flag is stored. The setter as written emits nothing, so the cached readiness is left as it was and no other field changes. |
| NetworkPage.DhcpReadinessIgnoresStaticFields | src/modules/network/Config.cpp:198-210 | With DHCP on, the computed readiness is "an interface is named", whatever the static fields hold. |
| NetworkPage.TickingDhcpLeavesNextDisabled | src/modules/network/NetworkViewStep.cpp:29 | With "eth0" named and no address, ticking DHCP makes the computed readiness true, yet readyChanged is not emitted and the cached flag stays false. The view step forwards only readyChanged to nextStatusChanged (line 29), and only checkReady emits it (Config.cpp:218-226), so the Next button is never told to enable. |
| NetworkPage.OnUseDhcpChangedCorrected | src/modules/network/NetworkPage.cpp:160-170 | Corrected: the same handler with the setter announcing its change. The cached readiness follows the fields, and with DHCP on it is "an interface is named". |
| InterfaceList.EthernetNames | src/modules/network/NetworkInterfaceList.cpp:40-50 | There are at most as many names as lines. |
| InterfaceList.EthernetNamesConcat | src/modules/network/NetworkInterfaceList.cpp:40-50 | Names follow line order: the filter distributes over concatenation. |
| InterfaceList.EthernetNamesMembership | src/modules/network/NetworkInterfaceList.cpp:44-49 | A name is listed iff some line has exactly three ':' fields, the second is "ethernet", and the first is the name. |
| InterfaceList.RecordRoundTrip | src/modules/network/NetworkInterfaceList.cpp:44-49 | A record written as device:kind:state contributes the device iff kind is "ethernet". |
| InterfaceList.PopulateInterfaceList | src/modules/network/NetworkInterfaceList.cpp:32-58 | A non-zero exit code gives an empty list. Otherwise the list is the Ethernet names of the output lines. |
| ImageSelectionPage.AbsolutePath | src/modules/imageselection/ImageSelectionPage.cpp:162 | The stored path lies under the image directory. |
| ImageSelectionPage.ImageSuffixLength | src/modules/imageselection/ImageSelectionPage.cpp:133 | The suffix is one of .wic.gz, .raw.gz or .iso, or none iff the name has no such suffix. |
| ImageSelectionPage.MetadataFileName | src/modules/imageselection/ImageSelectionPage.cpp:140 | A name whose case keeps the expression from matching is looked up as itself. A matched name's metadata file ends in ".json". |
| ImageSelectionPage.ImageNameParts | src/modules/imageselection/ImageSelectionPage.cpp:140-151 | For every stem and every listed suffix, stem + suffix has stem as its stripped name and stem + ".json" as its metadata file, and the ".json" rewrite leaves it alone. |
| ImageSelectionPage.GzRewriteKeepsImageNames | src/modules/imageselection/ImageSelectionPage.cpp:141 | The ".json" to ".gz" rewrite never changes a scanned image name. |
| ImageSelectionPage.Find | src/modules/imageselection/ImageSelectionPage.cpp:146 | A file is found iff the directory lists it. |
| ImageSelectionPage.ItemFor | src/modules/imageselection/ImageSelectionPage.cpp:137-195 | A new item is unchecked. Without metadata it gets the fallback row; unreadable metadata gives no row; the path is dir/name. |
| ImageSelectionPage.ImageWithoutMetadata | src/modules/imageselection/ImageSelectionPage.cpp:146-163 | For every suffix, an image without metadata gets a row with the stripped name, version "-", the no-description text and its own path. |
| ImageSelectionPage.ImageWithMetadata | src/modules/imageselection/ImageSelectionPage.cpp:165-194 | When the metadata file opens, the row shows the document's name, version and description where present. Otherwise it falls back to the file name, "-" and the empty text, and the path is the image's own. A metadata file that does not open drops the image. |
| ImageSelectionPage.ImageFiles | src/modules/imageselection/ImageSelectionPage.cpp:133 | The listing holds exactly the directory's names that pass the filters (no dot-file, and a listed suffix in any case): every listed name is a directory entry's name and passes them, and every directory name that passes them is listed. |
| ImageSelectionPage.ImageFilesFiltered | src/modules/imageselection/ImageSelectionPage.cpp:133-141 | Every scanned file passes the filters, so the ".json" rewrite leaves its name alone. |
| ImageSelectionPage.Rows | src/modules/imageselection/ImageSelectionPage.cpp:135-198 | At most one row per scanned file, and every row is unchecked. |
| ImageSelectionPage.RowsMembership | src/modules/imageselection/ImageSelectionPage.cpp:129-199 | A row is listed iff some scanned file yields it. |
| ImageSelectionPage.ScanAvailableImages | src/modules/imageselection/ImageSelectionPage.cpp:129-199 | The loop produces the rows of the listed files in order, all unchecked. Dot-files are not listed. |
| ImageSelectionPage.HasSelection | src/modules/imageselection/ImageSelectionPage.cpp:120-126 | True iff some item is checked. |
| ImageSelectionPage.CheckedNames | src/modules/imageselection/ImageSelectionPage.cpp:77-90 | The list of checked names is empty iff nothing is selected. |
| ImageSelectionPage.SingleCheckedRow | src/modules/imageselection/ImageSelectionPage.cpp:77-90 | With exactly one checked row, the selected names and paths are that row's. |
| ImageSelectionPage.Flavor | src/modules/imageselection/ImageSelectionPage.cpp:103-110 | The flavour is "debian" iff the lower-cased name contains "debian", and "yocto" otherwise. |
| ImageSelectionPage.OnItemChanged | src/modules/imageselection/ImageSelectionPage.cpp:60-117 | Checking a row unchecks the others. Other columns change nothing. The store is written only with a non-empty selection. |
| ImageSelectionPage.CheckingSelectsOneImage | src/modules/imageselection/ImageSelectionPage.cpp:66-75 | After checking a row it is the only one checked, and at most one row stays checked after any change. |
| ImageSelectionConfig.FindMode | src/modules/imageselection/Config.cpp:22-35 | A name maps to a mode iff its lower-cased form is in the table. |
| ImageSelectionConfig.NameOf | src/modules/imageselection/Config.cpp:22-35 | A mode has a name iff the table lists it, and the name is a table entry for it. |
| ImageSelectionConfig.NameOfIsPrimary | src/modules/imageselection/Config.cpp:22-35 | The name found for a mode is its first table entry. |
| ImageSelectionConfig.FindPrimaryName | src/modules/imageselection/Config.cpp:22-35 | Looking up a mode's primary name gives back the mode. |
| ImageSelectionConfig.RestartModeRoundTrip | src/modules/imageselection/Config.cpp:22-35 | Every mode has a name, and that name maps back to the mode. |
| ImageSelectionConfig.RestartModeAliases | src/modules/imageselection/Config.cpp:26-33 | "unchecked" and "user-unchecked" give the same mode, and so do "checked" and "user-checked". Lookup ignores case. |
| ImageSelectionConfig.OnInstallationFailedAsWritten | src/modules/imageselection/Config.cpp:44-62 | As written: both values are stored and failureChanged fires iff either differs. A details change emits the message. |
| ImageSelectionConfig.DetailsSignalCarriesMessage | src/modules/imageselection/Config.cpp:54-57 | A details-only change emits failureDetailsChanged carrying the message text. |
| ImageSelectionConfig.OnInstallationFailed | src/modules/imageselection/Config.cpp:44-62 | Corrected: each change signal fires iff its value changed and carries that value. |
| ImageSelectionConfig.RepeatedFailureIsQuiet | src/modules/imageselection/Config.cpp:46-47 | An identical repeated call emits nothing. |
| ImageSelectionConfig.PageFailureText | src/modules/imageselection/ImageSelectionPage.cpp:209-213 | The page shows the message, or the details when the message is empty. |
| ImageSelectionConfig.DoNotify | src/modules/imageselection/Config.cpp:66-120 | A notification is sent iff sendAnyway holds and the service is valid. The title follows setup/installation and complete/failed, and the body names the product. |
| SshKeyPage.ReadLine | src/modules/sshkeyselection/SshKeySelectionPage.cpp:98-99 | The first line is a prefix of the content, with no earlier line break, ending at the first break. |
| SshKeyPage.KeyLabel | src/modules/sshkeyselection/SshKeySelectionPage.cpp:98-103 | The label is the file name or a non-empty space-free token. |
| SshKeyPage.CommentIsLabel | src/modules/sshkeyselection/SshKeySelectionPage.cpp:98-103 | For a public key line "kind key comment", with any run of spaces after the kind, the label is the comment. |
| SshKeyPage.LabelOfLine | src/modules/sshkeyselection/SshKeySelectionPage.cpp:98-103 | With at least three tokens on the trimmed first line, the label is the third token. |
| SshKeyPage.SpacesCollapse | src/modules/sshkeyselection/SshKeySelectionPage.cpp:101 | A run of spaces separates tokens like one space. |
| SshKeyPage.ScanAvailableKeys | src/modules/sshkeyselection/SshKeySelectionPage.cpp:82-116 | Listed keys are unchecked and lie under the key directory. |
| SshKeyPage.ScanListsReadableKeys | src/modules/sshkeyselection/SshKeySelectionPage.cpp:82-116 | A key file is listed iff it is not a dot-file, its name ends in ".pub" in any case, and it opens. |
| SshKeyPage.HasSelection | src/modules/sshkeyselection/SshKeySelectionPage.cpp:73-79 | True iff some key is checked. |
| SshKeyPage.CheckedPaths | src/modules/sshkeyselection/SshKeySelectionPage.cpp:55-63 | The selected paths are exactly those of the checked items, and there are none iff nothing is checked. |
| SshKeyPage.OnItemChanged | src/modules/sshkeyselection/SshKeySelectionPage.cpp:46-70 | On the check column, the key list is always stored, even when empty, and selectionChanged carries whether any key is selected. Other keys are kept. |
| SshKeyJob.Append | src/modules/sshkeyselection/SshKeySelectionJob.cpp:45-57 | Appending extends one file and leaves every other file alone. |
| SshKeyJob.CopyKeys | src/modules/sshkeyselection/SshKeySelectionJob.cpp:33-68 | The copy never changes which files accept appending or fail on write. With no key it succeeds and changes nothing. |
| SshKeyJob.CopyKeysSucceeds | src/modules/sshkeyselection/SshKeySelectionJob.cpp:33-68 | The copy succeeds iff every key is readable and the destination is writable. The destination then gains the keys' bytes in list order, and no other file changes. |
| SshKeyJob.FirstUnreadableKeyIsReported | src/modules/sshkeyselection/SshKeySelectionJob.cpp:36-43 | The first unreadable key is the one reported. |
| SshKeyJob.CopySelectedKeys | src/modules/sshkeyselection/SshKeySelectionJob.cpp:33-68 | The loop computes the same file map and result as the recursive definition. |
| SshKeyJob.AbsoluteFilePath | src/modules/sshkeyselection/SshKeySelectionJob.cpp:24-30 | The path ends with "/" + name. For an absolute directory it lies under the directory, and is exactly dir/name when the directory has no trailing slash. For an empty directory it lies under the working directory. |
| SshKeyJob.Destination | src/modules/sshkeyselection/SshKeySelectionJob.cpp:24-45 | The destination ends with /admin/.ssh/authorized_keys. For an absolute home mount point it lies under that mount point, and is exactly home + "/admin/.ssh/authorized_keys" without a trailing slash. An empty mount point resolves under the working directory. |
| SshKeyJob.Skips | src/modules/sshkeyselection/SshKeySelectionJob.cpp:28 | The job skips only when skipIfNoRoot is set, always skips for "/" then, and for an absolute mount point skips iff that directory has no entries or is the root. |
| SshKeyJob.SelectedKeysAsWritten | src/modules/sshkeyselection/SshKeySelectionJob.cpp:25 | As written: the keys come from the stored value's string form split on ','. Empty parts are dropped. |
| SshKeyJob.SelectedKeys | src/modules/sshkeyselection/SshKeySelectionJob.cpp:25 | Corrected: the keys are the stored list, without empty entries. |
| SshKeyJob.TwoSelectedKeysAreDropped | src/modules/sshkeyselection/SshKeySelectionPage.cpp:68 | With two selected keys the job as written reads none; the corrected job reads both. |
| SshKeyJob.PageSelectionReachesJob | src/modules/sshkeyselection/SshKeySelectionPage.cpp:55-68 | The corrected job receives exactly the paths the page checked. |
| SshKeyJob.ExecAsWritten | src/modules/sshkeyselection/SshKeySelectionJob.cpp:19-74 | The job skips and returns ok iff skipIfNoRoot holds and the home mount point is empty or the root. Otherwise it copies the keys read as written. |
| SshKeyJob.Exec | src/modules/sshkeyselection/SshKeySelectionJob.cpp:19-74 | The same, copying the corrected key list. |
| SshKeyJob.TwoKeysInstallNothing | src/modules/sshkeyselection/SshKeySelectionJob.cpp:19-74 | With two selected keys, the job as written succeeds without installing a key; the corrected job appends both. |
| UefiBoot.SlotLabel | src/modules/uefiboot/main.py:60 | The label starts with "SEAPATH slot ". |
| UefiBoot.FirstLineWith | src/modules/uefiboot/main.py:59-63 | The result is the first line containing the label, or none iff no line contains it. |
| UefiBoot.BootEntryOfLines | src/modules/uefiboot/main.py:51-65 | With no matching line the entry is "". An entry never holds '*', since every '*' is removed. |
| UefiBoot.GetBootEntry | src/modules/uefiboot/main.py:51-65 | When no line of the listing names the slot the entry is "", and an entry never holds '*'. |
| UefiBoot.EntryNumberOfField | src/modules/uefiboot/main.py:61-62 | Removing "Boot" and "*" from "BootNNNN*" gives NNNN. |
| UefiBoot.SlotEntryIsFound | src/modules/uefiboot/main.py:51-65 | The entry number of the first line naming the slot is returned. |
| UefiBoot.CreateArgs | src/modules/uefiboot/main.py:78-98 | The created entry uses the target disk, partition slot+1, the label "SEAPATH slot {slot}", and the fixed loader. |
| UefiBoot.CreatedEntryIsFound | src/modules/uefiboot/main.py:51-98 | An entry created for a slot is found again by the slot lookup. |
| UefiBoot.BootOrderValue | src/modules/uefiboot/main.py:112-119 | Only the first line starting with "BootOrder:" counts. Its second white-space field, stripped, is the value; with fewer than two fields there is none, and with no such line there is none. |
| UefiBoot.StrippedEntries | src/modules/uefiboot/main.py:124 | The kept entries are non-blank stripped fields of the list. |
| UefiBoot.OrderEntries | src/modules/uefiboot/main.py:124 | The parsed entries are non-empty, stripped, and free of commas. |
| UefiBoot.Remaining | src/modules/uefiboot/main.py:125 | Exactly the entries other than the active and passive ones remain, in order. |
| UefiBoot.RemainingConcat | src/modules/uefiboot/main.py:125 | The filter distributes over concatenation, so relative order is kept. |
| UefiBoot.ReorderedList | src/modules/uefiboot/main.py:126-131 | The active entry comes first when non-empty; otherwise the passive entry does. |
| UefiBoot.ReorderIsPermutation | src/modules/uefiboot/main.py:124-133 | When both slots appear once in the old order, the new order is a permutation of it. |
| UefiBoot.ReorderIsIdempotent | src/modules/uefiboot/main.py:101-145 | Reordering an order the job itself wrote gives the same order. |
| UefiBoot.Then | src/modules/uefiboot/main.py:68-98 | After a raise nothing runs. A checked command that fails raises. |
| UefiBoot.ThenRead | src/modules/uefiboot/main.py:51-57 | A listing that cannot be read raises. |
| UefiBoot.NewOrderArgument | src/modules/uefiboot/main.py:101-133 | The order starts with the active slot's entry when that entry exists. Without a BootOrder line it is just the non-empty ones of the active and passive entries, joined with ','. |
| UefiBoot.Run | src/modules/uefiboot/main.py:168-180 | A run that does not raise has read all four listings, and neither creation command failed. |
| UefiBoot.RunSequence | src/modules/uefiboot/main.py:168-180 | With nothing failing, the job deletes both slots, creates slots 0 and 1, then sets the order and BootNext, in that sequence. |
| UefiBoot.CreateFailureStopsReorder | src/modules/uefiboot/main.py:168-180 | A failing create stops the job before any reorder. |
| UefiBoot.FailedListingStopsDeletion | src/modules/uefiboot/main.py:168-173 | A failing first listing stops the job after the efivars mount step. |
| NetworkCfg.CompleteIpv4Address | src/modules/networkcfg/main.py:64-68 | The result is exactly the address, one '/', then the mask. |
| NetworkCfg.CompletedAddressSplits | src/modules/networkcfg/main.py:64-68 | Splitting on '/' gives back the address and the mask. |
| NetworkCfg.StaticFileLines | src/modules/networkcfg/main.py:96-99 | The static file reads as the lines [Match], Name=I, "", [Network], Address=A, Gateway=G. |
| NetworkCfg.DhcpFileLines | src/modules/networkcfg/main.py:101-102 | The DHCP file reads as the lines [Match], Name=I, "", [Network], DHCP=ipv4. |
| NetworkCfg.Formatted | src/modules/networkcfg/main.py:97-98 | A missing value is formatted as "None" and a string as itself. |
| NetworkCfg.PathJoin | src/modules/networkcfg/main.py:145 | The joined path ends with its second part. |
| NetworkCfg.EtcMountPoint | src/modules/networkcfg/main.py:117-121 | The debian flavour uses rootMountPoint + "/etc"; the others use etcMountPoint. |
| NetworkCfg.StaticPart | src/modules/networkcfg/main.py:134-143 | With DHCP the address and the gateway are "". |
| NetworkCfg.ConfigErrorCondition | src/modules/networkcfg/main.py:117-132 | The configuration error is returned iff the flavour is not debian and no etcMountPoint is stored. |
| NetworkCfg.RunWith | src/modules/networkcfg/main.py:113-156 | The configuration error is returned iff the mount point resolves to nothing, and it carries the fixed title and message. A failed lookup crashes. A file is written only to a writable path ending in 01-installer.network. |
| NetworkCfg.RunAsWritten | src/modules/networkcfg/main.py:145-147 | As written: whenever the job does not crash, it gives what the corrected job gives. |
| NetworkCfg.Run | src/modules/networkcfg/main.py:145-149 | Corrected: the job crashes only where the job as written also crashes. |
| NetworkCfg.MissingDirectoryCrashes | src/modules/networkcfg/main.py:145-147 | As written: when the network directory is missing, the job raises instead of creating it. |
| NetworkCfg.ExistingDirectoryAgrees | src/modules/networkcfg/main.py:145-147 | When the directory exists, the job as written and the corrected job agree. |
| NetworkCfg.DhcpIgnoresStaticValues | src/modules/networkcfg/main.py:134-143 | With DHCP the stored address, mask and gateway do not affect the result. |
| NetworkCfg.DebianWritesUnderRoot | src/modules/networkcfg/main.py:117-119 | Under debian the file is written below the root mount point. |
| NetworkCfg.ReadyFormIsWritten | src/modules/networkcfg/main.py:113-156 | A ready static form, once finalized, is written to etc/systemd/network/01-installer.network with address/mask and gateway. |
| Mount.MountOverlay | src/modules/mount/main.py:51-83 | After a raise nothing runs. Otherwise, when both directories can be made, the actions are exactly: make upperdir, make workdir, mount the overlay. The step raises iff a directory or the mount fails. |
| Mount.MountPartitions | src/modules/mount/main.py:154-171 | After a raise nothing runs. Otherwise the earlier actions are kept and the next one mounts rootfs on /mnt/rootfs0. |
| Mount.Run | src/modules/mount/main.py:138-171 | The first action makes /mnt/rootfs0. A run that does not raise had a string selectedDisk. |
| Mount.Perform | src/modules/mount/main.py:45-49 | After a raise nothing runs. A failing step raises. |
| Mount.ListedNames | src/modules/mount/main.py:109 | The stripped output gives at least one name, with no line breaks. |
| Mount.DevicePaths | src/modules/mount/main.py:109 | Every name is prefixed with "/dev/", in order. |
| Mount.ListingRoundTrip | src/modules/mount/main.py:109 | An lsblk listing of names, one per line, reads back as those names. |
| Mount.PickPartitions | src/modules/mount/main.py:131-135 | Debian takes entry 2 with no persistent partition. The other flavours take entries 3 and 6. There is no pick iff the list is too short. |
| Mount.GetPartitions | src/modules/mount/main.py:86-135 | No partitions are returned iff the job raised, and earlier actions are kept. |
| Mount.PartitionsOfListing | src/modules/mount/main.py:102-109 | Rootfs and persistent are /dev/ plus names 3 and 6 of the listing. |
| Mount.DebianPartitionsOfListing | src/modules/mount/main.py:115-131 | Debian enables LVM, lists paths again, and takes rootfs from entry 2. |
| Mount.ShortListingRaises | src/modules/mount/main.py:133-134 | A listing with fewer than 7 names raises. |
| Mount.OverlayOptions | src/modules/mount/main.py:64-66 | The options start with lowerdir=, or with the given options and a comma when those are non-empty. |
| Mount.OverlayOptionsFields | src/modules/mount/main.py:64-66 | The option string splits on ',' into the extra options, then lowerdir, upperdir and workdir. |
| Mount.RunRecordsMountPoints | src/modules/mount/main.py:141-147 | The two temporary directories and /mnt/rootfs0 are recorded in the store. |
| Mount.EtcFeedsNetworkConfiguration | src/modules/mount/main.py:142-147 | The networkcfg job then finds /mnt/rootfs0/etc under debian and the etc overlay otherwise. |
| Mount.NoOverlayOutsideYocto | src/modules/mount/main.py:157 | Flavours other than yocto mount no overlay. |
| Mount.YoctoRunSequence | src/modules/mount/main.py:138-171 | For yocto, the job creates both mount points, lists the disk, and mounts /dev/ plus names 3 and 6. |
| Mount.YoctoMounts | src/modules/mount/main.py:154-171 | Under yocto: rootfs, persistent, then the home and etc overlays. The upper and work dirs live under /mnt/persistent, and etc gets rw,relatime. |
| Mount.OtherFlavoursMountRootOnly | src/modules/mount/main.py:154-157 | The other flavours mount only rootfs. |
| RawImage.DigitRun | src/modules/rawimage/main.py:66 | The run is the longest block of digits starting at the position. |
| RawImage.PercentAtMeans | src/modules/rawimage/main.py:66 | The pattern matches at a position iff "(", one or more digits, "%)" appear there. |
| RawImage.FirstPercent | src/modules/rawimage/main.py:66-71 | No value is found iff the pattern matches at no position from the start on. |
| RawImage.FirstPercentIsLeftmost | src/modules/rawimage/main.py:66-71 | A value is found iff the pattern matches somewhere, and it is the number at the leftmost match. |
| RawImage.PercentOfLine | src/modules/rawimage/main.py:66-71 | A line with "(N%)" and no earlier "(" yields N. |
| RawImage.StripNewlines | src/modules/rawimage/main.py:63 | Only trailing line feeds are removed, all of them. |
| RawImage.OutputCallback | src/modules/rawimage/main.py:62-72 | An empty stripped line is ignored. Others are buffered, and a match sets the progress. |
| RawImage.KeptLines | src/modules/rawimage/main.py:62-67 | No kept line is empty. |
| RawImage.Follow | src/modules/rawimage/main.py:62-72 | Streaming output adds at most one buffered line per output line. |
| RawImage.FollowKeepsLines | src/modules/rawimage/main.py:62-72 | After streaming, the buffer holds every non-empty stripped line in order, and the progress is the last percent seen. |
| RawImage.BlankLineIsIgnored | src/modules/rawimage/main.py:63-65 | A line of only line feeds changes nothing. |
| RawImage.BmaptoolArgs | src/modules/rawimage/main.py:81-85 | The command is bmaptool --debug copy, with --nobmap iff debian, then the image and the target. |
| RawImage.SelectedImage | src/modules/rawimage/main.py:52 | With no selected files there is no image. |
| RawImage.ResultOf | src/modules/rawimage/main.py:90-102 | Exit code 0 gives success. Any other code gives the failure title and a message carrying the code. |
| RawImage.FailureMessageCarriesCode | src/modules/rawimage/main.py:96-100 | The failure message ends with the exit code. |
| RawImage.Run | src/modules/rawimage/main.py:49-102 | When the command cannot be built, the job crashes and logs nothing. |
| RawImage.CopyTargetsSelectedDisk | src/modules/rawimage/main.py:46-55 | The target is the selectedDisk value, and the partitions entry does not matter. |
| RawImage.CopyOutcome | src/modules/rawimage/main.py:86-102 | The copy fails iff the exit code is non-zero, and the log holds the kept output. |
| RawImage.CheckedImageIsCopied | src/modules/rawimage/main.py:52-85 | The image checked on the selection page is the one copied, with --nobmap iff its name says debian. |

## Left out

- Qt widgets and layout, translation, the bootloader and ESP combo wiring, view steps, headers and `sshkeyselection/Config.cpp`: these are GUI or thin wiring with no decision logic.
- Worker threads, QMutexLocker and the scanning dialog: a revert is one atomic "restore the on-disk layout" step.
- KPMcore devices and partitions: a device is a node name, a logical sector size and a flat list of partition records with a free flag. Free space is recomputed by that library and is not modelled.
- Decoding the GPT table out of the image: the decoded list is an input sequence. LBAs are taken as read by `toInt`, assuming they fit 32 bits.
- Floating point in the Alongside splitter: doubles are exact reals, with qRound64 and the truncating conversion written out.
- The progress fraction `progression / 100.0` is kept as the integer percent.
- The network `createJobs` always returns an empty list, and the interface list getter returns the stored list unchanged: nothing to model beyond that.
- DBus notifications: only the choice of sending, the title and the body are modelled.
- Subprocesses (`efibootmgr`, `mount`, `lsblk`, `vgchange`, `nmcli`, `bmaptool`): their exit status and output are parameters of the model.
- File and directory I/O: a file system is an abstract map or a set of existing and writable paths.
- `tempfile.mkdtemp`: the temporary directory names are parameters.
- Python's `\d` also matches non-ASCII digits; the model accepts ASCII digits only.
- Case folding is ASCII only, whereas Qt's `toLower` and Python's `lower` also fold non-ASCII letters.
- White space is the six ASCII characters space, tab, line feed, vertical tab, form feed and carriage return. Python's argument-less `split()` and `strip()` (src/modules/uefiboot/main.py:61, 116, 118 and 124, and src/modules/mount/main.py:109) also treat \x1c-\x1f as white space. Both Python and Qt's `trimmed`/`simplified` also treat U+0085, U+00A0 and the Unicode space separators as white space. For an efibootmgr or lsblk line holding one of those characters, the model splits and strips less than the program does.
- Python's `splitlines` also breaks at U+0085, U+2028 and U+2029; `Text.LineBreaks` holds only its ASCII break characters.
- NetworkConfig.Ipv4RxLength: the pattern's `$` also matches before one final line feed, and the model keeps that quirk, so the accepted language includes one trailing "\n".
- RawImage.Run: the lookup `gs.value("partitions")[1]["device"]` is reduced to a flag saying whether it succeeds. Its value is never used.
- RawImage.Run: a target disk that is not a string is treated as a crash.
- NetworkCfg.Run: the corrected job assumes creating the directory succeeds.
- ChoicePage.OnLeave: with more than one ESP, the combo index is taken as a valid position in the ESP list. The source indexes `efiSystemPartitions.at(currentIndex())` (src/modules/partition/gui/ChoicePage.cpp:623-626), which is out of range for an index of -1 or one at least the ESP count. The model returns `MountEsp(index)` there and does not model that failure. The combo holds one item per ESP (src/modules/partition/gui/ChoicePage.cpp:1196-1205), so through the page such an index does not arise.
- SshKeyJob.AbsoluteFilePath: for a relative directory Qt cleans `currentPath + "/" + dir` with `QDir::cleanPath`; the model concatenates without cleaning, so paths holding "." or ".." segments, or repeated slashes, differ from Qt's.
- UefiBoot.Run: the module reads `gs.value("imageselection.selectedFiles")[0]` when it is loaded (src/modules/uefiboot/main.py:33), which raises when no image is selected; the model starts at `run()` and does not model that load-time failure.
- UefiBoot.Run: the target disk is taken as a string parameter. The module passes whatever `selectedDisk` holds (src/modules/uefiboot/main.py:37) to `efibootmgr -d`; a missing or non-string value is not modelled.
- UefiBoot.Run: reorder_boot_entries calls efibootmgr twice for the two slot lookups (src/modules/uefiboot/main.py:102-103). The model gives both calls the same listing, `env.beforeReorder`, so a listing that changes between them is not modelled.
- SshKeyJob.SelectedKeysAsWritten: only QVariant's string conversion of a string list is modelled. The conversion gives the item for one item and "" otherwise.

## Findings

| source | as written | input that shows it | evidently intended | confidence | as-written member | corrected member |
|---|---|---|---|---|---|---|
| src/modules/network/Config.cpp:191-196 | `setUseDhcpForStaticIp` stores the flag but never emits `useDhcpForStaticIpChanged`, although that signal is connected to `checkReady` | An interface "eth0" with an empty address: switching DHCP on makes the form ready, yet the cached readiness stays false | Emit the change signal, so readiness is recomputed | not executed | NetworkConfig.SetUseDhcpAsWritten, NetworkConfig.SetUseDhcpAsWrittenLeavesReadyStale, NetworkConfig.InterfaceThenDhcpEndsStale, NetworkPage.TickingDhcpLeavesNextDisabled | NetworkConfig.SetUseDhcp, NetworkConfig.EditPreservesInvariants, NetworkConfig.EditsKeepInvariants, NetworkPage.OnUseDhcpChangedCorrected |
| src/modules/networkcfg/main.py:145-147 | `os.makedirs(etc_mount_point, NETWORKD_CONFIG_DIR_AT_ETC, exist_ok=True)` passes the directory name as the mode argument, which raises a TypeError | etcMountPoint "/tmp/x" with no systemd/network directory below it | Create `etc/systemd/network`, then write the file | not executed | NetworkCfg.RunAsWritten, NetworkCfg.MissingDirectoryCrashes | NetworkCfg.Run |
| src/modules/imageselection/Config.cpp:54-57 | `failureDetailsChanged` is emitted with the message, not the details | A previous report ("copy failed", ""), then the call ("copy failed", "exit code 1") | Emit the new details | not executed | ImageSelectionConfig.OnInstallationFailedAsWritten, ImageSelectionConfig.DetailsSignalCarriesMessage | ImageSelectionConfig.OnInstallationFailed |
| src/modules/sshkeyselection/SshKeySelectionJob.cpp:25 | The job reads the stored key list with `toString()`, but the page stores a QStringList (SshKeySelectionPage.cpp:68). The conversion gives "" for two or more keys. | Two checked keys | Read the list itself, so every checked key is appended | not executed | SshKeyJob.SelectedKeysAsWritten, SshKeyJob.TwoSelectedKeysAreDropped, SshKeyJob.TwoKeysInstallNothing | SshKeyJob.SelectedKeys, SshKeyJob.PageSelectionReachesJob |

=== FILE: choice_page.dfy ===
/** The partitioning choice engine of the partition page: the current install
    choice, the proceed ("next") gate with its edge-triggered update, the reset on
    a change of device, the Erase/Replace preview rebuild from the partition list
    decoded out of the selected image, the Alongside splitter bounds and resize on
    leave, and the page's small pure helpers.

    The device-model library (KPMcore and the partition core module) is abstracted:
    a device is a node name, a logical sector size and a flat list of top-level
    partition records. Reverting a device is one atomic "restore the on-disk
    layout" step; worker threads, locks and the scanning dialog are not modelled. */
module ChoicePage {

  import opened Wrappers
  import opened Text

  // ---------------------------------------------------------------------------
  // State of the page

  datatype InstallChoice = NoChoice | Erase | Replace | Alongside | Manual

  /** The page state the proceed gate depends on. `selectionValid` says that the
      "before" preview's selection model exists and has a valid current index;
      `espCount` is the number of EFI system partitions the core module reports. */
  datatype PageState = PageState(
    choice: InstallChoice,
    selectionValid: bool,
    isEfi: bool,
    espCount: nat,
    nextEnabled: bool,
    lastDeviceIndex: int)

  /** Choices for which the user must pick one partition in the "before" preview. */
  predicate PicksPartition(c: InstallChoice) {
    c == Replace || c == Alongside
  }

  /** ChoicePage::calculateNextEnabled: may the user proceed? */
  function CalculateNextEnabled(s: PageState): (r: bool)
    // NoChoice never proceeds, whatever the selection, EFI or ESP state
    ensures s.choice == NoChoice ==> !r
    // Replace and Alongside need a valid selection
    ensures PicksPartition(s.choice) && !s.selectionValid ==> !r
    // ... and, on an EFI system, at least one EFI system partition
    ensures PicksPartition(s.choice) && s.isEfi && s.espCount == 0 ==> !r
    ensures PicksPartition(s.choice) && s.selectionValid && (!s.isEfi || s.espCount > 0) ==> r
    // Erase and Manual need no selection and are never blocked by the ESP count
    ensures s.choice == Erase || s.choice == Manual ==> r
  {
    match s.choice
    case NoChoice => false
    case Replace | Alongside =>
      if !s.selectionValid then false
      else if s.isEfi && s.espCount == 0 then false
      else true
    case Erase | Manual => true
  }

  /** The result of an edge-triggered update: the new state and the value of the
      change signal, if one was emitted. */
  datatype Update = Update(state: PageState, emitted: Option<bool>)

  /** ChoicePage::updateNextEnabled: store the computed gate and emit
      nextStatusChanged only when it differs from the stored one. */
  function UpdateNextEnabled(s: PageState): (u: Update)
    ensures u.state.nextEnabled == CalculateNextEnabled(s)
    ensures u.state == s.(nextEnabled := u.state.nextEnabled)
    ensures u.emitted.Some? <==> CalculateNextEnabled(s) != s.nextEnabled
    ensures u.emitted.Some? ==> u.emitted.value == CalculateNextEnabled(s)
  {
    var enabled := CalculateNextEnabled(s);
    if enabled != s.nextEnabled then Update(s.(nextEnabled := enabled), Some(enabled))
    else Update(s, None)
  }

  /** A second update right after a first one changes nothing and emits nothing. */
  lemma UpdateNextEnabledIsQuiet(s: PageState)
    ensures UpdateNextEnabled(UpdateNextEnabled(s).state) == Update(UpdateNextEnabled(s).state, None)
  {
  }

  /** The stored gate agrees with the computed one. */
  predicate GateInSync(s: PageState) {
    s.nextEnabled == CalculateNextEnabled(s)
  }

  /** The signals emitted by a chain of updates, oldest first. */
  function Emitted(us: seq<Update>): seq<bool> {
    if |us| == 0 then []
    else (if us[0].emitted.Some? then [us[0].emitted.value] else []) + Emitted(us[1..])
  }

  /** A chain of steps: the state reached and the gate signals emitted on the way. */
  datatype Trace = Trace(state: PageState, signals: seq<bool>)

  /** Runs updateNextEnabled after `s` and records its signal. */
  function ThenUpdate(t: Trace): (r: Trace)
    ensures GateInSync(r.state)
    ensures r.state == t.state.(nextEnabled := r.state.nextEnabled)
    ensures |r.signals| <= |t.signals| + 1
  {
    var u := UpdateNextEnabled(t.state);
    Trace(u.state, t.signals + (if u.emitted.Some? then [u.emitted.value] else []))
  }

  /** ChoicePage::applyActionChoice as seen by the gate: the "before" selection is
      cleared, except that Replace restores the prior selection; the gate is then
      updated (twice, once directly and once through updateActionChoicePreview,
      which the second time is quiet). */
  function ApplyActionChoice(t: Trace): (r: Trace)
    ensures r.state.choice == t.state.choice
    ensures r.state.selectionValid == (t.state.choice == Replace && t.state.selectionValid)
    ensures GateInSync(r.state)
  {
    var cleared := t.state.(selectionValid := t.state.choice == Replace && t.state.selectionValid);
    ThenUpdate(ThenUpdate(Trace(cleared, t.signals)))
  }

  /** ChoicePage::onActionChanged: apply the choice when a device is selected,
      then update the gate. */
  function OnActionChanged(t: Trace, deviceSelected: bool): (r: Trace)
    ensures r.state.choice == t.state.choice
    ensures r.state.lastDeviceIndex == t.state.lastDeviceIndex
    ensures GateInSync(r.state)
  {
    var applied := if deviceSelected then ApplyActionChoice(t) else t;
    ThenUpdate(applied)
  }

  /** The idToggled handler of the choice button group. A checked button sets
      its choice; an unchecked one sets NoChoice only when no other button is
      checked. Each branch updates the gate and emits actionChosen, whose slot is
      onActionChanged. */
  function OnChoiceToggled(s: PageState, id: InstallChoice, checked: bool,
                           anotherChecked: bool, deviceSelected: bool): (r: Trace)
    ensures checked ==> r.state.choice == id
    ensures !checked && !anotherChecked ==> r.state.choice == NoChoice && !r.state.nextEnabled
    ensures !checked && anotherChecked ==> r == Trace(s, [])
    ensures checked || !anotherChecked ==> GateInSync(r.state)
  {
    if checked then
      OnActionChanged(ThenUpdate(Trace(s.(choice := id), [])), deviceSelected)
    else if !anotherChecked then
      OnActionChanged(ThenUpdate(Trace(s.(choice := NoChoice), [])), deviceSelected)
    else
      Trace(s, [])
  }

  /** ChoicePage::continueApplyDeviceChoice. The "before" preview is rebuilt (so
      the new view has no selection); when the combo index differs from the last
      one the index is recorded and the choice reset to the configured initial
      choice; then actionChosen runs onActionChanged. */
  function ContinueApplyDeviceChoice(s: PageState, comboIndex: int,
                                     initialChoice: InstallChoice, deviceSelected: bool): (r: Trace)
    ensures comboIndex != s.lastDeviceIndex ==>
              r.state.lastDeviceIndex == comboIndex && r.state.choice == initialChoice
    ensures comboIndex == s.lastDeviceIndex ==>
              r.state.lastDeviceIndex == s.lastDeviceIndex && r.state.choice == s.choice
    ensures !r.state.selectionValid
    ensures r.state.isEfi == s.isEfi && r.state.espCount == s.espCount
    ensures GateInSync(r.state)
  {
    var rebuilt := s.(selectionValid := false);
    var reset :=
      if s.lastDeviceIndex != comboIndex
      then rebuilt.(lastDeviceIndex := comboIndex, choice := initialChoice)
      else rebuilt;
    OnActionChanged(Trace(reset, []), deviceSelected)
  }

  /** A change of the current partition in the "before" preview. Only Replace and
      Alongside connect a handler (onPartitionToReplaceSelected,
      doAlongsideSetupSplitter); both return early on an invalid index and
      otherwise end by updating the gate. */
  function OnPartitionSelected(s: PageState, valid: bool): (r: Trace)
    ensures r.state.choice == s.choice && r.state.selectionValid == valid
    ensures valid && PicksPartition(s.choice) ==> GateInSync(r.state)
    ensures !(valid && PicksPartition(s.choice)) ==> r == Trace(s.(selectionValid := valid), [])
  {
    var selected := s.(selectionValid := valid);
    if valid && PicksPartition(s.choice) then ThenUpdate(Trace(selected, []))
    else Trace(selected, [])
  }

  /** Device change, toggling and an effective selection keep the stored gate
      equal to the computed one, and a quiet repeat of the update emits nothing. */
  lemma {:induction false} GateStaysInSync(s: PageState, comboIndex: int, c: InstallChoice, dev: bool)
    ensures GateInSync(ContinueApplyDeviceChoice(s, comboIndex, c, dev).state)
    ensures GateInSync(OnChoiceToggled(s, c, true, false, dev).state)
    ensures UpdateNextEnabled(ContinueApplyDeviceChoice(s, comboIndex, c, dev).state).emitted == None
  {
  }

  /** After a device change with Replace or Alongside as the initial choice the
      user cannot proceed until a partition is selected. */
  lemma {:induction false} DeviceChangeBlocksPickingChoices(s: PageState, comboIndex: int, c: InstallChoice, dev: bool)
    requires comboIndex != s.lastDeviceIndex && PicksPartition(c)
    ensures !ContinueApplyDeviceChoice(s, comboIndex, c, dev).state.nextEnabled
  {
    var r := ContinueApplyDeviceChoice(s, comboIndex, c, dev);
    assert r.state.choice == c && !r.state.selectionValid;
  }

  // ---------------------------------------------------------------------------
  // Selection mode of the "before" preview

  datatype SelectionMode = NoSelection | SingleSelection

  /** The selection mode set at the end of updateActionChoicePreview. */
  function PreviewSelectionMode(c: InstallChoice): (m: SelectionMode)
    ensures m == SingleSelection <==> PicksPartition(c)
  {
    match c
    case Replace | Alongside => SingleSelection
    case NoChoice | Erase | Manual => NoSelection
  }

  /** The preview lets the user select exactly when the gate looks at the
      selection: with no selection mode the gate ignores it, with single selection
      the gate is closed without one. */
  lemma {:induction false} SelectionModeMatchesGate(s: PageState)
    ensures PreviewSelectionMode(s.choice) == NoSelection ==>
              CalculateNextEnabled(s.(selectionValid := true)) == CalculateNextEnabled(s.(selectionValid := false))
    ensures PreviewSelectionMode(s.choice) == SingleSelection ==>
              !CalculateNextEnabled(s.(selectionValid := false))
  {
  }

  // ---------------------------------------------------------------------------
  // Swap choice combo

  datatype SwapChoice = NoSwap | SmallSwap | FullSwap | ReuseSwap | SwapFile

  /** The position of each swap choice in the combo's fixed listing order. */
  function SwapRank(c: SwapChoice): nat {
    match c
    case NoSwap => 0
    case SmallSwap => 1
    case FullSwap => 2
    case ReuseSwap => 3
    case SwapFile => 4
  }

  const SwapOrder: seq<SwapChoice> := [NoSwap, SmallSwap, FullSwap, ReuseSwap, SwapFile]

  /** The items of a combo box and its current index (-1 when empty). */
  datatype Combo = Combo(items: seq<SwapChoice>, current: int)

  /** The elements of `order` that are in `s`, keeping their order. */
  function Offered(order: seq<SwapChoice>, s: set<SwapChoice>): (r: seq<SwapChoice>)
    ensures forall c :: c in r <==> c in order && c in s
    ensures |r| <= |order|
  {
    if |order| == 0 then [] else (if order[0] in s then [order[0]] else []) + Offered(order[1..], s)
  }

  /** Items in strictly increasing listing order (so also without repeats). */
  predicate InListingOrder(items: seq<SwapChoice>) {
    forall i, j :: 0 <= i < j < |items| ==> SwapRank(items[i]) < SwapRank(items[j])
  }

  lemma {:induction false} OfferedKeepsOrder(order: seq<SwapChoice>, s: set<SwapChoice>)
    requires InListingOrder(order)
    ensures InListingOrder(Offered(order, s))
    decreases |order|
  {
    if |order| > 0 {
      OfferedKeepsOrder(order[1..], s);
      var rest := Offered(order[1..], s);
      forall c | c in rest ensures SwapRank(order[0]) < SwapRank(c) {
        var k :| 0 <= k < |order[1..]| && order[1..][k] == c;
        assert order[k + 1] == c;
      }
    }
  }

  /** The index of `c` in `items`, or -1 (QComboBox::findData). */
  function IndexOf(items: seq<SwapChoice>, c: SwapChoice): (i: int)
    ensures -1 <= i < |items|
    ensures i >= 0 ==> items[i] == c && forall k :: 0 <= k < i ==> items[k] != c
    ensures i == -1 <==> c !in items
  {
    if |items| == 0 then -1
    else if items[0] == c then 0
    else
      var j := IndexOf(items[1..], c);
      if j == -1 then -1 else j + 1
  }

  /** createCombo: one item per offered swap choice in the fixed order, with the
      default preselected when it is offered. Adding the first item to an empty
      combo makes index 0 current. */
  function CreateCombo(s: set<SwapChoice>, dflt: SwapChoice): (box: Combo)
    ensures forall c :: c in box.items <==> c in s
    ensures InListingOrder(box.items)
    ensures dflt in s ==> 0 <= box.current < |box.items| && box.items[box.current] == dflt
    ensures dflt !in s ==> box.current == (if |box.items| > 0 then 0 else -1)
  {
    OfferedKeepsOrder(SwapOrder, s);
    assert forall c: SwapChoice :: c in SwapOrder by {
      forall c: SwapChoice ensures c in SwapOrder {
        assert SwapOrder[SwapRank(c)] == c;
      }
    }
    var items := Offered(SwapOrder, s);
    var i := IndexOf(items, dflt);
    Combo(items, if i >= 0 then i else if |items| > 0 then 0 else -1)
  }

  // ---------------------------------------------------------------------------
  // Partition-table type description and os-prober entries

  /** describePartitionTypes: "any" for no type, the type itself for one,
      "A or B" for two and a comma-separated list beyond. */
  function DescribePartitionTypes(types: seq<string>): (d: string)
    ensures |types| == 0 ==> d == "any"
    ensures |types| == 1 ==> d == types[0]
    ensures |types| == 2 ==> d == types[0] + " or " + types[1]
    ensures |types| > 2 ==> d == Join(types, ", ")
  {
    if |types| == 0 then "any"
    else if |types| == 1 then types[0]
    else if |types| == 2 then types[0] + " or " + types[1]
    else Join(types, ", ")
  }

  /** Every accepted partition-table type is named in the description. */
  lemma DescriptionNamesEveryType(types: seq<string>, i: nat)
    requires i < |types|
    ensures Contains(DescribePartitionTypes(types), types[i])
  {
    if |types| == 1 {
      ContainsAfter("", types[0], "");
      assert "" + types[0] + "" == types[0];
    } else if |types| == 2 {
      if i == 0 {
        ContainsAfter("", types[0], " or " + types[1]);
        assert "" + types[0] + (" or " + types[1]) == types[0] + " or " + types[1];
      } else {
        ContainsAfter(types[0] + " or ", types[1], "");
        assert types[0] + " or " + types[1] + "" == types[0] + " or " + types[1];
      }
    } else {
      JoinContainsPart(types, ", ", i);
    }
  }

  /** Each part occurs in a join of the parts. */
  lemma {:induction false} JoinContainsPart(parts: seq<string>, sep: string, i: nat)
    requires i < |parts|
    ensures Contains(Join(parts, sep), parts[i])
    decreases |parts|
  {
    if |parts| == 1 {
      ContainsAfter("", parts[0], "");
      assert "" + parts[0] + "" == parts[0];
    } else if i == 0 {
      ContainsAfter("", parts[0], sep + Join(parts[1..], sep));
      assert "" + parts[0] + (sep + Join(parts[1..], sep)) == parts[0] + sep + Join(parts[1..], sep);
    } else {
      JoinContainsPart(parts[1..], sep, i - 1);
      ContainsInSuffix(parts[0] + sep, Join(parts[1..], sep), parts[i]);
      assert parts[0] + sep + Join(parts[1..], sep) == (parts[0] + sep) + Join(parts[1..], sep);
    }
  }

  /** An occurrence in a suffix is an occurrence in the whole string. */
  lemma {:induction false} ContainsInSuffix(a: string, b: string, sub: string)
    requires Contains(b, sub)
    ensures Contains(a + b, sub)
    decreases |a|
  {
    if |a| > 0 {
      ContainsInSuffix(a[1..], b, sub);
      assert (a + b)[1..] == a[1..] + b;
    } else {
      assert a + b == b;
    }
  }

  /** An os-prober result line: the partition path, the OS name and its home. */
  datatype OsproberEntry = OsproberEntry(path: string, prettyName: string, homePath: string)

  /** getOsproberEntriesForDevice: the entries whose path starts with the device
      node, in the core module's order. */
  function EntriesForDevice(entries: seq<OsproberEntry>, deviceNode: string): (r: seq<OsproberEntry>)
    ensures |r| <= |entries|
    ensures forall e :: e in r <==> e in entries && StartsWith(e.path, deviceNode)
  {
    if |entries| == 0 then []
    else
      (if StartsWith(entries[0].path, deviceNode) then [entries[0]] else [])
      + EntriesForDevice(entries[1..], deviceNode)
  }

  /** Filtering keeps the relative order: it distributes over concatenation. */
  lemma {:induction false} EntriesForDeviceConcat(a: seq<OsproberEntry>, b: seq<OsproberEntry>, node: string)
    ensures EntriesForDevice(a + b, node) == EntriesForDevice(a, node) + EntriesForDevice(b, node)
    decreases |a|
  {
    if |a| == 0 {
      assert a + b == b;
    } else {
      assert (a + b)[0] == a[0];
      assert (a + b)[1..] == a[1..] + b;
      EntriesForDeviceConcat(a[1..], b, node);
    }
  }

  // ---------------------------------------------------------------------------
  // Partitions and the Erase/Replace preview

  datatype Role = Primary | Logical | Extended

  /** KPM_PARTITION_STATE: an existing partition or one the preview creates. */
  datatype PartitionState = Existing | New

  datatype FsKind = Ext4 | OtherFs

  /** A top-level partition record. Free space is a partition with `free` set. */
  datatype Partition = Partition(
    path: string,
    free: bool,
    role: Role,
    firstSector: int,
    lastSector: int,
    fsKind: FsKind,
    fsSectorSize: int,
    format: bool,
    mountPoint: string,
    state: PartitionState)

  /** firstFreePartition: the index of the first free-space child, if any. */
  function FirstFree(children: seq<Partition>): (r: Option<nat>)
    ensures r.Some? ==> r.value < |children| && children[r.value].free
    ensures r.Some? ==> forall k :: 0 <= k < r.value ==> !children[k].free
    ensures r.None? <==> forall k :: 0 <= k < |children| ==> !children[k].free
  {
    if |children| == 0 then None
    else if children[0].free then Some(0)
    else
      match FirstFree(children[1..])
      case None => None
      case Some(k) => Some(k + 1)
  }

  /** One entry of the partition list decoded from the selected image and kept in
      global storage ("imageselection.gptPartitions"), with the LBAs as read. */
  datatype GptEntry = GptEntry(name: string, firstLba: int, lastLba: int, sizeSectors: int)

  /** The logical sector size the preview's file systems are created with. */
  const PreviewLogicalSize := 2048

  /** The preview partition built for one decoded entry: Primary, spanning
      [first_lba, last_lba], ext4, new, to be formatted, mounted at the name. */
  function PreviewPartition(e: GptEntry): (p: Partition)
    ensures p.role == Primary && p.state == New && p.format && !p.free
    ensures p.firstSector == e.firstLba && p.lastSector == e.lastLba
    ensures p.mountPoint == e.name && p.fsKind == Ext4 && p.fsSectorSize == PreviewLogicalSize
  {
    Partition("", false, Primary, e.firstLba, e.lastLba, Ext4, PreviewLogicalSize, true, e.name, New)
  }

  /** A device: its node, its logical sector size, the in-memory (possibly
      modified) top-level layout, the on-disk layout a revert restores, and
      whether the core module holds uncommitted changes. */
  datatype Device = Device(
    node: string,
    logicalSize: int,
    children: seq<Partition>,
    onDisk: seq<Partition>,
    dirty: bool)

  /** The children of the partition table after the removal step: the free-space
      children go with removeUnallocated, then every non-free child collected
      beforehand is removed. */
  function RemoveForPreview(children: seq<Partition>): (r: seq<Partition>)
    // nothing survives: the free nodes go first, then every collected one
    ensures r == []
  {
    var toDelete := NonFreeOf(children);
    WithoutAll(toDelete, toDelete);
    Without(NonFreeOf(children), toDelete)
  }

  /** The non-free children, in order. */
  function NonFreeOf(children: seq<Partition>): (r: seq<Partition>)
    ensures forall p :: p in r <==> p in children && !p.free
  {
    if |children| == 0 then []
    else (if children[0].free then [] else [children[0]]) + NonFreeOf(children[1..])
  }

  /** `children` without the members of `gone`. */
  function Without(children: seq<Partition>, gone: seq<Partition>): (r: seq<Partition>)
    ensures forall p :: p in r <==> p in children && p !in gone
  {
    if |children| == 0 then []
    else (if children[0] in gone then [] else [children[0]]) + Without(children[1..], gone)
  }

  /** Removing a superset of the list leaves nothing. */
  lemma {:induction false} WithoutAll(children: seq<Partition>, gone: seq<Partition>)
    requires forall p :: p in children ==> p in gone
    ensures Without(children, gone) == []
    decreases |children|
  {
    if |children| > 0 {
      assert children[0] in children;
      WithoutAll(children[1..], gone);
    }
  }

  /** The partitions the preview adds, one per decoded entry, in list order. */
  function PreviewPartitions(gpt: seq<GptEntry>): (ps: seq<Partition>)
    ensures |ps| == |gpt|
    ensures forall i :: 0 <= i < |gpt| ==> ps[i] == PreviewPartition(gpt[i])
  {
    if |gpt| == 0 then [] else [PreviewPartition(gpt[0])] + PreviewPartitions(gpt[1..])
  }

  /** The Erase/Replace branch of updateActionChoicePreview on the allocated
      top-level layout. A dirty device is first reverted to its on-disk layout;
      every partition is then removed from the preview without creating jobs;
      finally one preview partition per decoded entry is inserted through the
      core module (`marksDirty` says whether that insertion marks the device
      dirty). Free-space nodes are recomputed by the device library and are not
      part of the modelled layout. */
  function RebuildErasePreview(d: Device, gpt: seq<GptEntry>, marksDirty: bool): (r: Device)
    ensures r.node == d.node && r.logicalSize == d.logicalSize && r.onDisk == d.onDisk
    ensures |r.children| == |gpt|
    ensures forall i :: 0 <= i < |gpt| ==>
              var p := r.children[i];
              p.role == Primary && p.state == New && p.format && !p.free
              && p.firstSector == gpt[i].firstLba && p.lastSector == gpt[i].lastLba
              && p.mountPoint == gpt[i].name
  {
    var reverted := if d.dirty then d.(children := d.onDisk, dirty := false) else d;
    var stripped := RemoveForPreview(reverted.children);
    reverted.(children := stripped + PreviewPartitions(gpt), dirty := reverted.dirty || marksDirty)
  }

  /** The rebuilt layout depends only on the decoded list: whatever the device's
      current layout and dirtiness, and so rebuilding twice equals rebuilding
      once. No partition that was on the device survives, since all preview
      partitions are new. */
  lemma {:induction false} RebuildDependsOnlyOnList(d1: Device, d2: Device, gpt: seq<GptEntry>, m: bool)
    ensures RebuildErasePreview(d1, gpt, m).children == RebuildErasePreview(d2, gpt, m).children
    ensures RebuildErasePreview(RebuildErasePreview(d1, gpt, m), gpt, m).children
            == RebuildErasePreview(d1, gpt, m).children
    ensures forall p :: p in d1.children && p.state == Existing ==>
              p !in RebuildErasePreview(d1, gpt, m).children
  {
    var r1 := RebuildErasePreview(d1, gpt, m);
    var r2 := RebuildErasePreview(d2, gpt, m);
    var rr := RebuildErasePreview(r1, gpt, m);
    assert r1.children == r2.children by {
      forall i | 0 <= i < |gpt| ensures r1.children[i] == r2.children[i] {}
    }
    assert rr.children == r1.children by {
      forall i | 0 <= i < |gpt| ensures rr.children[i] == r1.children[i] {}
    }
  }

  // ---------------------------------------------------------------------------
  // Alongside: splitter bounds and the resize on leave

  const GiB: int := 1024 * 1024 * 1024

  /** C's truncation of a real toward zero (a double converted to qint64). */
  function Truncate(x: real): (n: int)
    ensures 0.0 <= x ==> n as real <= x < n as real + 1.0
    ensures x < 0.0 ==> n as real - 1.0 < x <= n as real
  {
    if x >= 0.0 then x.Floor else -((-x).Floor)
  }

  /** qRound64: the nearest integer, halves away from zero. */
  function QRound64(x: real): (n: int)
    ensures x >= 0.0 ==> -0.5 <= x - n as real < 0.5
    ensures x < 0.0 ==> -0.5 < x - n as real <= 0.5
  {
    if x >= 0.0 then Truncate(x + 0.5) else Truncate(x - 0.5)
  }

  /** Calamares::GiBtoBytes: gibibytes to bytes, truncated. */
  function GiBtoBytes(g: real): int {
    Truncate(g * GiB as real)
  }

  /** The three values handed to the splitter widget. */
  datatype SplitBounds = SplitBounds(minimumSize: int, maximumSize: int, preferredSize: int)

  /** doAlongsideSetupSplitter: minimum round(used * 1.1), maximum capacity minus
      the required storage plus 0.1 + 2.0 GiB of margin, preferred capacity / 2.
      Doubles are modelled as exact reals. */
  function AlongsideSplitBounds(usedBytes: int, capacityBytes: int, requiredStorageGiB: real): (b: SplitBounds)
    // the minimum is the used size plus 10%, rounded to the nearest byte,
    // a tie going to the neighbour away from zero
    ensures usedBytes >= 0 ==> -5 < 10 * b.minimumSize - 11 * usedBytes <= 5
    ensures usedBytes < 0 ==> -5 <= 10 * b.minimumSize - 11 * usedBytes < 5
    // the reserve is the required storage plus 2.1 GiB, in whole bytes
    ensures requiredStorageGiB + 2.1 >= 0.0 ==>
              var reserve := capacityBytes - b.maximumSize;
              reserve as real <= (requiredStorageGiB + 2.1) * GiB as real < reserve as real + 1.0
    // the preferred size is half the capacity, rounded down
    ensures capacityBytes >= 0 ==> 2 * b.preferredSize <= capacityBytes <= 2 * b.preferredSize + 1
  {
    var requiredBytes := GiBtoBytes(requiredStorageGiB + 0.1 + 2.0);
    var minimum := QRound64(usedBytes as real * 1.1);
    assert usedBytes >= 0 <==> usedBytes as real * 1.1 >= 0.0;
    SplitBounds(minimum, capacityBytes - requiredBytes, capacityBytes / 2)
  }

  /** The worked example: 10 GiB used of 100 GiB with 2 GiB required gives an
      11 GiB minimum, a 4.1 GiB reserve and a 50 GiB proposal. */
  lemma AlongsideExample()
    ensures AlongsideSplitBounds(10 * GiB, 100 * GiB, 2.0)
            == SplitBounds(11 * GiB, 100 * GiB - 4402341478, 50 * GiB)
  {
    assert (2.0 + 0.1 + 2.0) * GiB as real == 4402341478.4;
    assert Truncate(4402341478.4) == 4402341478;
    assert (10 * GiB) as real * 1.1 == (11 * GiB) as real;
  }

  /** A positive logical sector size. */
  type SectorSize = n: int | n > 0 witness 512

  /** The resize doAlongsideApply asks of the core module. */
  datatype Resize = Resize(device: nat, partition: nat, firstSector: int, lastSector: int)

  /** The index of the first partition of `children` whose path is `path`. */
  function FindByPath(children: seq<Partition>, path: string): (r: Option<nat>)
    ensures r.Some? ==> r.value < |children| && children[r.value].path == path
    ensures r.Some? ==> forall k :: 0 <= k < r.value ==> children[k].path != path
    ensures r.None? <==> forall k :: 0 <= k < |children| ==> children[k].path != path
  {
    if |children| == 0 then None
    else if children[0].path == path then Some(0)
    else
      match FindByPath(children[1..], path)
      case None => None
      case Some(k) => Some(k + 1)
  }

  /** doAlongsideApply: walk the devices in model order; on the first one holding
      a partition with the selected path, keep that partition's first sector and
      end it splitSize / logicalSize sectors later, then stop. */
  function AlongsideResize(devices: seq<Device>, path: string, splitSize: int): (r: Option<Resize>)
    requires splitSize >= 0
    requires forall i :: 0 <= i < |devices| ==> devices[i].logicalSize > 0
    ensures r.Some? ==>
              r.value.device < |devices|
              && FindByPath(devices[r.value.device].children, path) == Some(r.value.partition)
              && (forall i :: 0 <= i < r.value.device ==> FindByPath(devices[i].children, path).None?)
              && var d := devices[r.value.device];
                 r.value.firstSector == d.children[r.value.partition].firstSector
                 && r.value.lastSector == r.value.firstSector + splitSize / d.logicalSize
    ensures r.None? <==> forall i :: 0 <= i < |devices| ==> FindByPath(devices[i].children, path).None?
    decreases |devices|
  {
    if |devices| == 0 then None
    else
      match FindByPath(devices[0].children, path)
      case Some(k) =>
        var first := devices[0].children[k].firstSector;
        Some(Resize(0, k, first, first + splitSize / devices[0].logicalSize))
      case None =>
        match AlongsideResize(devices[1..], path, splitSize)
        case None => None
        case Some(rz) => Some(rz.(device := rz.device + 1))
  }

  /** Applies a resize to the device list: the one partition gets its new last
      sector; everything else is kept. */
  function ApplyResize(devices: seq<Device>, rz: Resize): (r: seq<Device>)
    requires rz.device < |devices| && rz.partition < |devices[rz.device].children|
    ensures |r| == |devices|
    ensures forall i :: 0 <= i < |devices| && i != rz.device ==> r[i] == devices[i]
    ensures |r[rz.device].children| == |devices[rz.device].children|
    ensures forall k :: 0 <= k < |r[rz.device].children| && k != rz.partition ==>
              r[rz.device].children[k] == devices[rz.device].children[k]
    ensures r[rz.device].children[rz.partition]
            == devices[rz.device].children[rz.partition].(lastSector := rz.lastSector)
  {
    var d := devices[rz.device];
    var p := d.children[rz.partition];
    devices[rz.device := d.(children := d.children[rz.partition := p.(lastSector := rz.lastSector)])]
  }

  /** The bootloader combo of the non-EFI panel: absent, or present with the
      install path of its current item (None when the item carries none). */
  datatype BootloaderCombo = NoCombo | ComboWith(path: Option<string>)

  /** What onLeave does to the EFI system partitions. */
  datatype EspAction = NoEspAction | MountEsp(index: nat) | EspError

  /** The effects of leaving the page. */
  datatype LeaveEffects = LeaveEffects(
    selectedDisk: string,
    resize: Option<Resize>,
    esp: EspAction,
    bootloaderPath: Option<string>)

  /** ChoicePage::onLeave. `device` is the selected device's node (None when no
      device is selected); `efiComboIndex` the current index of the ESP combo
      (None when there is no combo). */
  function OnLeave(s: PageState, device: Option<string>, devices: seq<Device>, selectedPath: string,
                   splitSize: int, newSize: int, efiComboIndex: Option<nat>,
                   bootloader: BootloaderCombo): (e: LeaveEffects)
    requires forall i :: 0 <= i < |devices| ==> devices[i].logicalSize > 0
    ensures e.selectedDisk == device.GetOr("")
    // a resize happens only for Alongside and only with both splitter sizes >= 0
    ensures e.resize.Some? ==> s.choice == Alongside && splitSize >= 0 && newSize >= 0
    ensures s.choice == Alongside && splitSize >= 0 && newSize >= 0 ==>
              e.resize == AlongsideResize(devices, selectedPath, splitSize)
    // the ESP is assigned only on EFI systems with Alongside or Replace
    ensures e.esp != NoEspAction <==> s.isEfi && PicksPartition(s.choice)
    ensures e.esp == MountEsp(0) <== s.isEfi && PicksPartition(s.choice) && s.espCount == 1
    // a bootloader path is chosen only on non-EFI systems
    ensures e.bootloaderPath.Some? ==> !s.isEfi
    ensures !s.isEfi && bootloader == NoCombo ==> e.bootloaderPath == device
  {
    var resize :=
      if s.choice == Alongside && splitSize >= 0 && newSize >= 0
      then AlongsideResize(devices, selectedPath, splitSize)
      else None;
    var esp :=
      if s.isEfi && PicksPartition(s.choice) then
        if s.espCount == 1 then MountEsp(0)
        else if s.espCount > 1 && efiComboIndex.Some? then MountEsp(efiComboIndex.value)
        else EspError
      else NoEspAction;
    var boot :=
      if s.isEfi then None
      else match bootloader
        case NoCombo => device
        case ComboWith(p) => p;
    LeaveEffects(device.GetOr(""), resize, esp, boot)
  }

  /** On leave, at most one partition of one device changes: the first device
      holding the selected path, keeping the first sector. */
  lemma {:induction false} LeaveResizesAtMostOnePartition(
    s: PageState, device: Option<string>, devices: seq<Device>, path: string,
    splitSize: int, newSize: int, efi: Option<nat>, boot: BootloaderCombo)
    requires forall i :: 0 <= i < |devices| ==> devices[i].logicalSize > 0
    requires OnLeave(s, device, devices, path, splitSize, newSize, efi, boot).resize.Some?
    ensures var rz := OnLeave(s, device, devices, path, splitSize, newSize, efi, boot).resize.value;
            var after := ApplyResize(devices, rz);
            (forall i :: 0 <= i < |devices| && i != rz.device ==> after[i] == devices[i])
            && after[rz.device].children[rz.partition].firstSector
               == devices[rz.device].children[rz.partition].firstSector
            && after[rz.device].children[rz.partition].path == path
  {
    var rz := OnLeave(s, device, devices, path, splitSize, newSize, efi, boot).resize.value;
    assert rz == AlongsideResize(devices, path, splitSize).value;
  }
}

=== FILE: image_selection_config.dfy ===
/** The image selection module's configuration object: the table of restart
    modes, the recording of an installation failure with its change signals,
    the failure text shown by the page, and the end-of-installation desktop
    notification. */
module ImageSelectionConfig {

  import opened Wrappers
  import opened Text

  // ---------------------------------------------------------------------------
  // Restart modes

  datatype RestartMode = Never | UserDefaultUnchecked | UserDefaultChecked | Always

  /** restartModes(): the accepted names, in table order; two modes have an
      alias. */
  const RestartModes: seq<(string, RestartMode)> := [
    ("never", Never),
    ("user-unchecked", UserDefaultUnchecked),
    ("unchecked", UserDefaultUnchecked),
    ("user-checked", UserDefaultChecked),
    ("checked", UserDefaultChecked),
    ("always", Always)
  ]

  /** The mode of the first table entry whose name equals `name` without regard
      to ASCII case (the named-enum table's lookup by name). */
  function FindMode(table: seq<(string, RestartMode)>, name: string): (r: Option<RestartMode>)
    ensures r.Some? <==> exists i :: 0 <= i < |table| && table[i].0 == ToLower(name)
    ensures r.Some? ==> exists i :: 0 <= i < |table| && table[i].0 == ToLower(name) && table[i].1 == r.value
  {
    if |table| == 0 then None
    else if table[0].0 == ToLower(name) then Some(table[0].1)
    else
      var r := FindMode(table[1..], name);
      assert forall i :: 0 <= i < |table[1..]| ==> table[1..][i] == table[i + 1];
      r
  }

  /** The name of the first table entry for `mode` (the lookup by value). */
  function NameOf(table: seq<(string, RestartMode)>, mode: RestartMode): (r: Option<string>)
    ensures r.Some? <==> exists i :: 0 <= i < |table| && table[i].1 == mode
    ensures r.Some? ==> exists i :: 0 <= i < |table| && table[i] == (r.value, mode)
  {
    if |table| == 0 then None
    else if table[0].1 == mode then Some(table[0].0)
    else
      var r := NameOf(table[1..], mode);
      assert forall i :: 0 <= i < |table[1..]| ==> table[1..][i] == table[i + 1];
      r
  }

  /** The first-listed name of each mode. */
  function PrimaryName(mode: RestartMode): string {
    match mode
    case Never => "never"
    case UserDefaultUnchecked => "user-unchecked"
    case UserDefaultChecked => "user-checked"
    case Always => "always"
  }

  /** The lookup by value finds each mode's first-listed name. */
  lemma {:induction false} NameOfIsPrimary(mode: RestartMode)
    ensures NameOf(RestartModes, mode) == Some(PrimaryName(mode))
  {
    var t := RestartModes;
    assert t[1..][1..][1..][0] == ("user-checked", UserDefaultChecked);
    assert t[1..][1..][1..][1..][1..][0] == ("always", Always);
  }

  /** The lookup by name reads each mode's first-listed name back as the mode. */
  lemma {:induction false} FindPrimaryName(mode: RestartMode)
    ensures FindMode(RestartModes, PrimaryName(mode)) == Some(mode)
  {
    var t := RestartModes;
    var n := PrimaryName(mode);
    LowerCaseUnchanged(n);
    assert t[1..][1..][1..][0] == ("user-checked", UserDefaultChecked);
    assert t[1..][1..][1..][1..][1..][0] == ("always", Always);
  }

  /** Every mode has a name, and the name of a mode reads back as that mode. */
  lemma {:induction false} RestartModeRoundTrip(mode: RestartMode)
    ensures NameOf(RestartModes, mode).Some?
    ensures FindMode(RestartModes, NameOf(RestartModes, mode).value) == Some(mode)
  {
    NameOfIsPrimary(mode);
    FindPrimaryName(mode);
  }

  /** The short aliases read as the same modes as the long names, and the lookup
      ignores case. */
  lemma {:induction false} RestartModeAliases()
    ensures FindMode(RestartModes, "unchecked") == FindMode(RestartModes, "user-unchecked") == Some(UserDefaultUnchecked)
    ensures FindMode(RestartModes, "checked") == FindMode(RestartModes, "user-checked") == Some(UserDefaultChecked)
    ensures FindMode(RestartModes, "Always") == Some(Always)
  {
    LowerCaseUnchanged("unchecked");
    LowerCaseUnchanged("user-unchecked");
    LowerCaseUnchanged("checked");
    LowerCaseUnchanged("user-checked");
    assert ToLower("Always") == "always";
  }

  // ---------------------------------------------------------------------------
  // Installation failure

  datatype FailureReport = FailureReport(message: string, details: string)

  datatype FailureSignal =
    | FailureMessageChanged(message: string)
    | FailureDetailsChanged(details: string)
    /** failureChanged; its argument comes from hasFailed(), which is not part of
        this model */
    | FailureChanged

  /** Config::onInstallationFailed as written: both texts are stored; each
      changed text is announced, and then the failure as a whole. The details
      signal is sent with the message rather than with the details. */
  function OnInstallationFailedAsWritten(f: FailureReport, message: string, details: string): (r: (FailureReport, seq<FailureSignal>))
    ensures r.0 == FailureReport(message, details)
    ensures FailureMessageChanged(message) in r.1 <==> message != f.message
    ensures FailureChanged in r.1 <==> message != f.message || details != f.details
    ensures details != f.details ==> FailureDetailsChanged(message) in r.1
  {
    var msgChange := message != f.message;
    var detChange := details != f.details;
    (FailureReport(message, details),
     (if msgChange then [FailureMessageChanged(message)] else [])
     + (if detChange then [FailureDetailsChanged(message)] else [])
     + (if msgChange || detChange then [FailureChanged] else []))
  }

  /** A change of the details alone announces the unchanged message as the new
      details. */
  lemma DetailsSignalCarriesMessage()
    ensures OnInstallationFailedAsWritten(FailureReport("copy failed", ""), "copy failed", "exit code 1").1
            == [FailureDetailsChanged("copy failed"), FailureChanged]
  {
  }

  /** onInstallationFailed as evidently intended: the details signal carries the
      details. */
  function OnInstallationFailed(f: FailureReport, message: string, details: string): (r: (FailureReport, seq<FailureSignal>))
    ensures r.0 == FailureReport(message, details)
    ensures FailureMessageChanged(message) in r.1 <==> message != f.message
    ensures FailureDetailsChanged(details) in r.1 <==> details != f.details
    ensures FailureChanged in r.1 <==> message != f.message || details != f.details
    ensures forall s :: s in r.1 && s.FailureDetailsChanged? ==> s.details == details
    ensures forall s :: s in r.1 && s.FailureMessageChanged? ==> s.message == message
  {
    var msgChange := message != f.message;
    var detChange := details != f.details;
    (FailureReport(message, details),
     (if msgChange then [FailureMessageChanged(message)] else [])
     + (if detChange then [FailureDetailsChanged(details)] else [])
     + (if msgChange || detChange then [FailureChanged] else []))
  }

  /** Reporting the same failure twice announces it once: the second report
      changes nothing and is silent. */
  lemma RepeatedFailureIsQuiet(f: FailureReport, message: string, details: string)
    ensures var (g, _) := OnInstallationFailed(f, message, details);
            OnInstallationFailed(g, message, details) == (g, [])
  {
  }

  /** ImageSelectionPage::onInstallationFailed: the page shows the message, or
      the details when the message is empty. */
  function PageFailureText(message: string, details: string): (text: string)
    ensures message != "" ==> text == message
    ensures message == "" ==> text == details
  {
    if message != "" then message else details
  }

  // ---------------------------------------------------------------------------
  // Desktop notification

  datatype Notification = Notification(title: string, body: string)

  /** QString::arg for a template "prefix%1suffix". */
  function Arg(prefix: string, suffix: string, value: string): string {
    prefix + value + suffix
  }

  /** Config::doNotify: nothing unless sending is requested and the desktop's
      notification service is reachable; otherwise a title and a message chosen
      by outcome and by setup versus installation mode, with the product's
      versioned name filled in. */
  function DoNotify(hasFailed: bool, sendAnyway: bool, serviceValid: bool, setupMode: bool,
                    versionedName: string): (n: Option<Notification>)
    ensures n.Some? <==> sendAnyway && serviceValid
    ensures n.Some? ==> EndsWith(n.value.title, if hasFailed then "Failed" else "Complete")
    ensures n.Some? ==> StartsWith(n.value.title, if setupMode then "Setup" else "Installation")
    ensures n.Some? ==> Contains(n.value.body, versionedName)
  {
    if !sendAnyway || !serviceValid then None
    else
      var title :=
        if hasFailed then (if setupMode then "Setup Failed" else "Installation Failed")
        else (if setupMode then "Setup Complete" else "Installation Complete");
      var prefix := if setupMode then "The setup of " else "The installation of ";
      var suffix := if hasFailed then " did not complete successfully." else " is complete.";
      ContainsAfter(prefix, versionedName, suffix);
      Some(Notification(title, Arg(prefix, suffix, versionedName)))
  }
}

=== FILE: image_selection_page.dfy ===
/** The image selection page: the scan of the image directory for installable
    images and their optional JSON metadata, the check-box list with at most one
    checked image, and the hand-over of the chosen image and its flavour
    ("debian" or "yocto") through global storage. */
module ImageSelectionPage {

  import opened Wrappers
  import opened Text
  import opened Store

  /** The directory scanned for images. */
  const ImageDir := "/seapath/images"

  /** The name suffixes of the directory listing's filters. */
  const ImageSuffixes: seq<string> := [".wic.gz", ".raw.gz", ".iso"]

  /** The fields of a metadata document that hold strings; None for a field that
      is absent or not a string, and for every field of a document that does not
      parse as a JSON object. */
  datatype Metadata = Metadata(name: Option<string>, version: Option<string>, description: Option<string>)

  /** A file of the image directory: readable with its parsed metadata fields,
      or unreadable. */
  datatype FileContent = Unreadable | Readable(fields: Metadata)

  datatype DirEntry = DirEntry(fileName: string, content: FileContent)

  /** The directory's entries in QDir's name order. */
  type Directory = seq<DirEntry>

  /** QDir::absoluteFilePath inside the image directory. */
  function AbsolutePath(fileName: string): (p: string)
    ensures StartsWith(p, ImageDir + "/")
  {
    ImageDir + "/" + fileName
  }

  /** The listing's filters: the name filters "*.wic.gz", "*.raw.gz" and
      "*.iso", which QDir applies without regard to case, and QDir::Files
      without QDir::Hidden, which skips dot-files. */
  predicate MatchesImageFilter(fileName: string) {
    !IsDotFile(fileName)
    && exists i :: 0 <= i < |ImageSuffixes| && EndsWith(ToLower(fileName), ImageSuffixes[i])
  }

  /** The regular expression `\.(wic\.gz|raw\.gz|iso)$`, which is case
      sensitive: the length of the matched suffix, if any. */
  function ImageSuffixLength(fileName: string): (n: nat)
    ensures n <= |fileName|
    ensures n > 0 ==> exists i :: 0 <= i < |ImageSuffixes| && EndsWith(fileName, ImageSuffixes[i]) && n == |ImageSuffixes[i]|
    ensures n == 0 <==> forall i :: 0 <= i < |ImageSuffixes| ==> !EndsWith(fileName, ImageSuffixes[i])
  {
    if EndsWith(fileName, ".wic.gz") then
      assert EndsWith(fileName, ImageSuffixes[0]);
      7
    else if EndsWith(fileName, ".raw.gz") then
      assert EndsWith(fileName, ImageSuffixes[1]);
      7
    else if EndsWith(fileName, ".iso") then
      assert EndsWith(fileName, ImageSuffixes[2]);
      4
    else 0
  }

  /** The file name without its image suffix. */
  function Stem(fileName: string): string {
    fileName[..|fileName| - ImageSuffixLength(fileName)]
  }

  /** The name of the metadata file looked up for an image file: the image
      suffix replaced by ".json" (the name itself when the suffix's case keeps
      the expression from matching). */
  function MetadataFileName(fileName: string): (json: string)
    ensures ImageSuffixLength(fileName) > 0 ==> EndsWith(json, ".json")
    ensures ImageSuffixLength(fileName) == 0 ==> json == fileName
  {
    if ImageSuffixLength(fileName) > 0 then Stem(fileName) + ".json" else fileName
  }

  /** The rewrite `\.json$` to ".gz" applied to the image file name. */
  function GzRewrite(fileName: string): string {
    if EndsWith(fileName, ".json") then fileName[..|fileName| - 5] + ".gz" else fileName
  }

  /** A name that passes the listing's filters never ends in ".json", so the
      rewrite leaves it alone: the path stored for an image without metadata is
      the image's own path. */
  lemma {:induction false} GzRewriteKeepsImageNames(fileName: string)
    requires MatchesImageFilter(fileName)
    ensures GzRewrite(fileName) == fileName
  {
    var i :| 0 <= i < |ImageSuffixes| && EndsWith(ToLower(fileName), ImageSuffixes[i]);
    var suffix := ImageSuffixes[i];
    assert suffix[|suffix| - 1] in {'z', 'o'};
    LastOfSuffix(ToLower(fileName), suffix);
    var last := fileName[|fileName| - 1];
    assert LowerChar(last) in {'z', 'o'};
    assert last != 'n';
    LastOfSuffixNot(fileName, ".json");
  }

  /** A string ending in a non-empty suffix ends in its last character. */
  lemma LastOfSuffix(s: string, suffix: string)
    requires EndsWith(s, suffix) && suffix != ""
    ensures s != "" && s[|s| - 1] == suffix[|suffix| - 1]
  {
    assert s[|s| - |suffix|..][|suffix| - 1] == s[|s| - 1];
  }

  /** A string whose last character differs from a suffix's does not end in
      it. */
  lemma LastOfSuffixNot(s: string, suffix: string)
    requires s != "" && suffix != "" && s[|s| - 1] != suffix[|suffix| - 1]
    ensures !EndsWith(s, suffix)
  {
    if EndsWith(s, suffix) {
      LastOfSuffix(s, suffix);
    }
  }

  /** The entry named `fileName`, if the directory holds one. */
  function Find(dir: Directory, fileName: string): (r: Option<FileContent>)
    ensures r.Some? <==> exists i :: 0 <= i < |dir| && dir[i].fileName == fileName
  {
    if |dir| == 0 then None
    else if dir[0].fileName == fileName then Some(dir[0].content)
    else
      var r := Find(dir[1..], fileName);
      assert r.Some? ==> exists i :: 0 <= i < |dir| && dir[i].fileName == fileName by {
        if r.Some? {
          var i :| 0 <= i < |dir[1..]| && dir[1..][i].fileName == fileName;
          assert dir[i + 1].fileName == fileName;
        }
      }
      r
  }

  /** One row of the image list. `path` is the hidden path stored with the row. */
  datatype ImageItem = ImageItem(name: string, version: string, description: string, path: string, checked: bool)

  const NoVersion := "-"
  const NoDescription := "(no description available)"

  /** The row for one listed image file, or None when its metadata file exists
      but cannot be opened. */
  function ItemFor(dir: Directory, fileName: string): (r: Option<ImageItem>)
    ensures r.Some? ==> !r.value.checked
    ensures Find(dir, MetadataFileName(fileName)).None? ==>
              r == Some(ImageItem(Stem(fileName), NoVersion, NoDescription, AbsolutePath(GzRewrite(fileName)), false))
    ensures Find(dir, MetadataFileName(fileName)) == Some(Unreadable) ==> r.None?
    ensures Find(dir, MetadataFileName(fileName)).Some? && r.Some? ==> r.value.path == AbsolutePath(fileName)
  {
    match Find(dir, MetadataFileName(fileName))
    case None =>
      Some(ImageItem(Stem(fileName), NoVersion, NoDescription, AbsolutePath(GzRewrite(fileName)), false))
    case Some(Unreadable) => None
    case Some(Readable(m)) =>
      Some(ImageItem(m.name.GetOr(fileName), m.version.GetOr(NoVersion), m.description.GetOr(""),
                     AbsolutePath(fileName), false))
  }

  /** The names of the directory's entries, in listing order. */
  function FileNames(dir: Directory): (r: seq<string>)
    ensures |r| == |dir|
  {
    if |dir| == 0 then [] else [dir[0].fileName] + FileNames(dir[1..])
  }

  /** The listed image files, in listing order: the directory's names that
      pass the listing's filters. */
  function ImageFiles(dir: Directory): (names: seq<string>)
    ensures |names| <= |dir|
    ensures forall n :: n in names ==> n in FileNames(dir)
    ensures forall k :: 0 <= k < |names| ==> MatchesImageFilter(names[k])
    ensures forall k :: 0 <= k < |dir| && MatchesImageFilter(dir[k].fileName) ==> dir[k].fileName in names
  {
    if |dir| == 0 then []
    else (if MatchesImageFilter(dir[0].fileName) then [dir[0].fileName] else []) + ImageFiles(dir[1..])
  }

  /** Every listed file passes the name filters, so its stored path needs no
      rewrite. */
  lemma ImageFilesFiltered(dir: Directory, n: string)
    requires n in ImageFiles(dir)
    ensures MatchesImageFilter(n) && GzRewrite(n) == n
  {
    GzRewriteKeepsImageNames(n);
  }

  /** The rows for `files`, in order, skipping files whose metadata cannot be
      opened. */
  function Rows(dir: Directory, files: seq<string>): (rows: seq<ImageItem>)
    ensures |rows| <= |files|
    ensures forall k :: 0 <= k < |rows| ==> !rows[k].checked
  {
    if |files| == 0 then [] else RowOf(ItemFor(dir, files[0])) + Rows(dir, files[1..])
  }

  /** The rows contributed by one file. */
  function RowOf(row: Option<ImageItem>): (rows: seq<ImageItem>)
    ensures |rows| <= 1
    ensures |rows| == 1 <==> row.Some?
    ensures row.Some? ==> rows == [row.value]
  {
    match row
    case Some(r) => [r]
    case None => []
  }

  lemma {:induction false} RowsConcat(dir: Directory, a: seq<string>, b: seq<string>)
    ensures Rows(dir, a + b) == Rows(dir, a) + Rows(dir, b)
    decreases |a|
  {
    if |a| == 0 {
      assert a + b == b;
    } else {
      var head := RowOf(ItemFor(dir, a[0]));
      assert (a + b)[0] == a[0];
      assert (a + b)[1..] == a[1..] + b;
      assert Rows(dir, a + b) == head + Rows(dir, a[1..] + b);
      RowsConcat(dir, a[1..], b);
      assert head + (Rows(dir, a[1..]) + Rows(dir, b)) == (head + Rows(dir, a[1..])) + Rows(dir, b);
    }
  }

  /** A row is listed exactly when some listed file yields it. */
  lemma {:induction false} RowsMembership(dir: Directory, files: seq<string>, row: ImageItem)
    ensures row in Rows(dir, files) <==> exists n :: n in files && ItemFor(dir, n) == Some(row)
    decreases |files|
  {
    if |files| > 0 {
      RowsMembership(dir, files[1..], row);
      if exists n :: n in files && ItemFor(dir, n) == Some(row) {
        var n :| n in files && ItemFor(dir, n) == Some(row);
        if n != files[0] {
          assert n in files[1..];
        }
      }
      if exists n :: n in files[1..] && ItemFor(dir, n) == Some(row) {
        var n :| n in files[1..] && ItemFor(dir, n) == Some(row);
        assert n in files;
      }
    }
  }

  /** The rows of one more file are appended to the rows so far. */
  lemma {:induction false} RowsStep(dir: Directory, files: seq<string>, i: nat)
    requires i < |files|
    ensures Rows(dir, files[..i + 1]) == Rows(dir, files[..i]) + RowOf(ItemFor(dir, files[i]))
  {
    var done, next := files[..i], files[i];
    assert files[..i + 1] == done + [next];
    RowsSingle(dir, next);
    RowsConcat(dir, done, [next]);
  }

  lemma RowsSingle(dir: Directory, fileName: string)
    ensures Rows(dir, [fileName]) == RowOf(ItemFor(dir, fileName))
  {
    assert [fileName][1..] == [];
    assert Rows(dir, [fileName]) == RowOf(ItemFor(dir, [fileName][0])) + Rows(dir, [fileName][1..]);
  }

  /** scanAvailableImages: one unchecked row per listed image file whose
      metadata, if present, can be opened, in listing order. */
  method ScanAvailableImages(dir: Directory) returns (items: seq<ImageItem>)
    ensures items == Rows(dir, ImageFiles(dir))
    ensures |items| <= |ImageFiles(dir)|
    ensures forall k :: 0 <= k < |items| ==> !items[k].checked
  {
    var files := ImageFiles(dir);
    items := [];
    var i := 0;
    assert files[..0] == [];
    while i < |files|
      invariant 0 <= i <= |files|
      invariant items == Rows(dir, files[..i])
    {
      items := items + RowOf(ItemFor(dir, files[i]));
      RowsStep(dir, files, i);
      i := i + 1;
    }
    assert files[..|files|] == files;
  }

  /** An image name `stem + suffix`, the suffix one of the filters' in the case
      they are written: the expression strips exactly the suffix, so the stem
      is `stem` and the metadata file looked up is `stem + ".json"`, and the
      ".json" rewrite leaves the name alone. */
  lemma {:induction false} ImageNameParts(stem: string, i: nat)
    requires i < |ImageSuffixes|
    ensures var fn := stem + ImageSuffixes[i];
            ImageSuffixLength(fn) == |ImageSuffixes[i]|
            && Stem(fn) == stem && MetadataFileName(fn) == stem + ".json" && GzRewrite(fn) == fn
  {
    var suffix := ImageSuffixes[i];
    var fn := stem + suffix;
    assert fn[|fn| - |suffix|..] == suffix;
    assert EndsWith(fn, suffix);
    LastOfSuffix(fn, suffix);
    if i == 1 {
      assert fn[|fn| - 7..] == ".raw.gz";
      assert !EndsWith(fn, ".wic.gz") by {
        assert ".raw.gz"[1] != ".wic.gz"[1];
      }
    } else if i == 2 {
      LastOfSuffixNot(fn, ".wic.gz");
    }
    assert fn[..|fn| - |suffix|] == stem;
    LastOfSuffixNot(fn, ".json");
  }

  /** An image without a metadata file is listed under its stem, with the
      placeholder version and description, at its own path. */
  lemma {:induction false} ImageWithoutMetadata(dir: Directory, stem: string, i: nat)
    requires i < |ImageSuffixes|
    requires Find(dir, stem + ".json").None?
    ensures ItemFor(dir, stem + ImageSuffixes[i])
            == Some(ImageItem(stem, NoVersion, NoDescription, AbsolutePath(stem + ImageSuffixes[i]), false))
  {
    ImageNameParts(stem, i);
  }

  /** An image whose metadata file opens is listed at its own path with the
      document's string fields where present; a missing name falls back to the
      file name, a missing version to "-" and a missing description to the
      empty text. A metadata file that does not open drops the image. */
  lemma {:induction false} ImageWithMetadata(dir: Directory, stem: string, i: nat, content: FileContent)
    requires i < |ImageSuffixes|
    requires Find(dir, stem + ".json") == Some(content)
    ensures var fn := stem + ImageSuffixes[i];
            var r := ItemFor(dir, fn);
            (content.Unreadable? <==> r.None?)
            && (content.Readable? ==>
                  var m := content.fields;
                  r.value.path == AbsolutePath(fn) && !r.value.checked
                  && r.value.name == (if m.name.Some? then m.name.value else fn)
                  && r.value.version == (if m.version.Some? then m.version.value else NoVersion)
                  && r.value.description == (if m.description.Some? then m.description.value else ""))
    ensures content == Readable(Metadata(None, None, None)) ==>
              ItemFor(dir, stem + ImageSuffixes[i])
              == Some(ImageItem(stem + ImageSuffixes[i], NoVersion, "", AbsolutePath(stem + ImageSuffixes[i]), false))
  {
    ImageNameParts(stem, i);
  }

  // ---------------------------------------------------------------------------
  // Checking an image

  predicate AtMostOneChecked(items: seq<ImageItem>) {
    forall i, j :: 0 <= i < |items| && 0 <= j < |items| && items[i].checked && items[j].checked ==> i == j
  }

  /** ImageSelectionPage::hasSelection */
  function HasSelection(items: seq<ImageItem>): (r: bool)
    ensures r <==> exists i :: 0 <= i < |items| && items[i].checked
  {
    if |items| == 0 then false
    else items[0].checked || HasSelection(items[1..])
  }

  /** The names and hidden paths of the checked rows, in list order. */
  function CheckedNames(items: seq<ImageItem>): (r: seq<string>)
    ensures |r| == 0 <==> !HasSelection(items)
    ensures |r| <= |items|
  {
    if |items| == 0 then []
    else (if items[0].checked then [items[0].name] else []) + CheckedNames(items[1..])
  }

  function CheckedPaths(items: seq<ImageItem>): (r: seq<string>)
    ensures |r| == |CheckedNames(items)|
  {
    if |items| == 0 then []
    else (if items[0].checked then [items[0].path] else []) + CheckedPaths(items[1..])
  }

  /** The only checked row contributes the only selected name and path. */
  lemma {:induction false} SingleCheckedRow(items: seq<ImageItem>, k: nat)
    requires k < |items| && items[k].checked
    requires forall i :: 0 <= i < |items| && i != k ==> !items[i].checked
    ensures CheckedNames(items) == [items[k].name]
    ensures CheckedPaths(items) == [items[k].path]
    decreases |items|
  {
    if k == 0 {
      NoneChecked(items[1..]);
    } else {
      SingleCheckedRow(items[1..], k - 1);
    }
  }

  lemma {:induction false} NoneChecked(items: seq<ImageItem>)
    requires forall i :: 0 <= i < |items| ==> !items[i].checked
    ensures CheckedNames(items) == [] && CheckedPaths(items) == []
    decreases |items|
  {
    if |items| > 0 {
      NoneChecked(items[1..]);
    }
  }

  /** The flavour stored with the selection: "debian" when the first selected
      name contains "debian" in any ASCII case, "yocto" otherwise. */
  function Flavor(firstName: string): (f: string)
    ensures f == "debian" <==> Contains(ToLower(firstName), "debian")
    ensures f == "debian" || f == "yocto"
  {
    if Contains(ToLower(firstName), "debian") then "debian" else "yocto"
  }

  /** The effect of one itemChanged notification. */
  datatype ItemChange = ItemChange(items: seq<ImageItem>, gs: GlobalStorage, selectionChanged: Option<bool>)

  /** The itemChanged handler. `items` already holds the changed row `k` in its
      new state. A change outside column 0 is ignored; a newly checked row
      unchecks every other row; the checked names, their paths and the flavour
      are stored when something is checked. The signal's argument is true in
      both branches (the non-empty test and the empty test are both true where
      they are used), and the view step ignores it. */
  function OnItemChanged(items: seq<ImageItem>, k: nat, column: int, gs: GlobalStorage): (r: ItemChange)
    requires k < |items|
    ensures column != 0 ==> r == ItemChange(items, gs, None)
    ensures column == 0 ==> r.selectionChanged == Some(true) && |r.items| == |items|
    ensures column == 0 ==> forall i :: 0 <= i < |items| ==> r.items[i].(checked := items[i].checked) == items[i]
    ensures column == 0 && items[k].checked ==>
              forall i :: 0 <= i < |items| ==> (r.items[i].checked <==> i == k)
    ensures column == 0 && !items[k].checked ==> r.items == items
    ensures column == 0 && HasSelection(r.items) ==>
              r.gs == gs["imageselection.selected" := StrList(CheckedNames(r.items))]
                        ["imageselection.selectedFiles" := StrList(CheckedPaths(r.items))]
                        ["seapathFlavor" := Str(Flavor(CheckedNames(r.items)[0]))]
    ensures column == 0 && !HasSelection(r.items) ==> r.gs == gs
  {
    if column != 0 then ItemChange(items, gs, None)
    else
      var after :=
        if items[k].checked
        then seq(|items|, i requires 0 <= i < |items| => items[i].(checked := i == k))
        else items;
      var selected := CheckedNames(after);
      if |selected| > 0 then
        var gs2 := gs["imageselection.selected" := StrList(selected)]
                     ["imageselection.selectedFiles" := StrList(CheckedPaths(after))]
                     ["seapathFlavor" := Str(Flavor(selected[0]))];
        ItemChange(after, gs2, Some(true))
      else
        ItemChange(after, gs, Some(true))
  }

  /** Checking a row leaves exactly that row checked and stores exactly its name
      and path; unchecking keeps at most one row checked. */
  lemma {:induction false} CheckingSelectsOneImage(items: seq<ImageItem>, k: nat, gs: GlobalStorage)
    requires k < |items|
    ensures items[k].checked ==>
              var r := OnItemChanged(items, k, 0, gs);
              AtMostOneChecked(r.items) && HasSelection(r.items)
              && r.gs["imageselection.selected"] == StrList([items[k].name])
              && r.gs["imageselection.selectedFiles"] == StrList([items[k].path])
              && r.gs["seapathFlavor"] == Str(Flavor(items[k].name))
    ensures AtMostOneChecked(items) ==> AtMostOneChecked(OnItemChanged(items, k, 0, gs).items)
  {
    var r := OnItemChanged(items, k, 0, gs);
    if items[k].checked {
      SingleCheckedRow(r.items, k);
    }
  }
}

=== FILE: interface_list.dfy ===
/** The list of physical network interfaces offered on the network page: the
    names of the Ethernet devices in the terse listing printed by
    `nmcli --terse --field DEVICE,TYPE,STATE device`, one device per line with
    colon-separated fields. The command itself is a parameter: its exit code and
    its standard output. */
module InterfaceList {

  import opened Text

  /** A listing line with exactly three fields whose type field is "ethernet". */
  predicate IsEthernetLine(line: string) {
    var fields := SplitOn(line, {':'});
    |fields| == 3 && fields[1] == "ethernet"
  }

  /** The device field of a line. */
  function DeviceOf(line: string): string {
    SplitOn(line, {':'})[0]
  }

  /** The device names of the Ethernet lines, in listing order. */
  function EthernetNames(lines: seq<string>): (names: seq<string>)
    ensures |names| <= |lines|
  {
    if |lines| == 0 then []
    else (if IsEthernetLine(lines[0]) then [DeviceOf(lines[0])] else []) + EthernetNames(lines[1..])
  }

  /** The listing is scanned line by line: the names of a concatenation are the
      names of each part. */
  lemma {:induction false} EthernetNamesConcat(a: seq<string>, b: seq<string>)
    ensures EthernetNames(a + b) == EthernetNames(a) + EthernetNames(b)
    decreases |a|
  {
    if |a| == 0 {
      assert a + b == b;
    } else {
      var head := if IsEthernetLine(a[0]) then [DeviceOf(a[0])] else [];
      assert EthernetNames(a + b) == head + EthernetNames(a[1..] + b) by {
        assert (a + b)[0] == a[0];
        assert (a + b)[1..] == a[1..] + b;
      }
      EthernetNamesConcat(a[1..], b);
      assert EthernetNames(a) == head + EthernetNames(a[1..]);
    }
  }

  /** A name is listed exactly when some Ethernet line carries it. */
  lemma {:induction false} EthernetNamesMembership(lines: seq<string>, name: string)
    ensures name in EthernetNames(lines) <==> exists l :: l in lines && IsEthernetLine(l) && DeviceOf(l) == name
    decreases |lines|
  {
    if |lines| > 0 {
      EthernetNamesMembership(lines[1..], name);
      if name in EthernetNames(lines[1..]) {
        var l :| l in lines[1..] && IsEthernetLine(l) && DeviceOf(l) == name;
        assert l in lines;
      }
      if exists l :: l in lines && IsEthernetLine(l) && DeviceOf(l) == name {
        var l :| l in lines && IsEthernetLine(l) && DeviceOf(l) == name;
        if l != lines[0] {
          assert l in lines[1..];
        }
      }
    }
  }

  /** A record written by the tool for an Ethernet device whose name and state
      hold no colon is recognised, and yields exactly that device name; a record
      of any other type is not. */
  lemma {:induction false} RecordRoundTrip(device: string, kind: string, state: string)
    requires FreeOf(device, {':'}) && FreeOf(kind, {':'}) && FreeOf(state, {':'})
    ensures var line := device + ":" + kind + ":" + state;
            (IsEthernetLine(line) <==> kind == "ethernet")
            && DeviceOf(line) == device
  {
    var parts := [device, kind, state];
    SplitJoin(parts, ':');
    JoinUnfold(parts, ":");
    JoinUnfold(parts[1..], ":");
    assert parts[1..][1..] == [state];
    assert Join(parts, ":") == device + ":" + kind + ":" + state;
  }

  /** NetworkInterfaceList::populateInterfaceList: on a zero exit code, scan the
      output's lines in order and collect the Ethernet device names; on any other
      exit code the list stays empty. */
  method PopulateInterfaceList(exitCode: int, output: string) returns (names: seq<string>)
    ensures exitCode != 0 ==> names == []
    ensures exitCode == 0 ==> names == EthernetNames(SplitOn(output, {'\n'}))
  {
    names := [];
    if exitCode == 0 {
      var lines := SplitOn(output, {'\n'});
      var i := 0;
      while i < |lines|
        invariant 0 <= i <= |lines|
        invariant names == EthernetNames(lines[..i])
      {
        var fields := SplitOn(lines[i], {':'});
        if |fields| == 3 && fields[1] == "ethernet" {
          names := names + [fields[0]];
        }
        EthernetNamesConcat(lines[..i], [lines[i]]);
        assert lines[..i + 1] == lines[..i] + [lines[i]];
        i := i + 1;
      }
      assert lines[..|lines|] == lines;
    }
  }
}

=== FILE: mount.dfy ===
/** The mount job: it finds the root and persistent partitions of the disk the
    image was written to, mounts the root file system, and for the Yocto
    flavour overlays home and etc with writable layers on the persistent
    partition. Subprocesses and directory creation are actions whose failure
    and output come from the environment; a failed action or a Python error
    (an index past the end of a list, a missing disk name) raises and stops
    the job. */
module Mount {

  import opened Wrappers
  import opened Text
  import opened Store
  import NetworkCfg

  const RootfsMountPoint := "/mnt/rootfs0"
  const PersistentMountPoint := "/mnt/persistent"
  const VgchangeArgs: seq<string> := ["/usr/sbin/vgchange", "-ay"]

  /** The layers of the two overlays: the image's directory below, a writable
      directory and a work directory on the persistent partition above. */
  const HomeLower := RootfsMountPoint + "/home"
  const HomeUpper := PersistentMountPoint + "/home"
  const HomeWork := PersistentMountPoint + "/.home-work"
  const EtcLower := RootfsMountPoint + "/etc"
  const EtcUpper := PersistentMountPoint + "/etc"
  const EtcWork := PersistentMountPoint + "/.etc-work"
  const EtcOverlayOptions := "rw,relatime"

  datatype Action = MakeDirs(path: string) | Command(args: seq<string>)

  /** The environment: the two temporary directories created for home and etc,
      the standard output of commands, and which commands and directory
      creations fail. */
  datatype Env = Env(homeTemp: string, etcTemp: string, outputs: map<seq<string>, string>,
                     failing: set<seq<string>>, failingDirs: set<string>)

  /** The actions carried out so far, and whether the last one raised. */
  datatype Outcome = Outcome(actions: seq<Action>, raised: bool)

  predicate Fails(a: Action, env: Env) {
    match a
    case MakeDirs(p) => p in env.failingDirs
    case Command(args) => args in env.failing
  }

  /** Carry out `a` unless an earlier action raised. */
  function Perform(o: Outcome, a: Action, env: Env): (r: Outcome)
    ensures o.raised ==> r == o
    ensures !o.raised ==> r.actions == o.actions + [a] && (r.raised <==> Fails(a, env))
  {
    if o.raised then o else Outcome(o.actions + [a], Fails(a, env))
  }

  function Output(args: seq<string>, env: Env): string {
    if args in env.outputs then env.outputs[args] else ""
  }

  // ---------------------------------------------------------------------------
  // Partitions

  function LsblkArgs(column: string, device: string): seq<string> {
    ["lsblk", "--list", "--noheadings", "--output", column, device]
  }

  /** The lines of lsblk's output: `stdout.strip().split("\n")`. */
  function ListedNames(stdout: string): (names: seq<string>)
    ensures |names| >= 1
    ensures forall i :: 0 <= i < |names| ==> FreeOf(names[i], {'\n'})
  {
    SplitOn(Trim(stdout), {'\n'})
  }

  /** Each listed name as a device path. */
  function DevicePaths(names: seq<string>): (paths: seq<string>)
    ensures |paths| == |names|
    ensures forall i :: 0 <= i < |names| ==> paths[i] == "/dev/" + names[i]
  {
    if |names| == 0 then [] else ["/dev/" + names[0]] + DevicePaths(names[1..])
  }

  /** Names lsblk can print: not empty, without white space. */
  predicate PlainNames(names: seq<string>) {
    forall i :: 0 <= i < |names| ==> names[i] != "" && FreeOf(names[i], Whitespace)
  }

  /** lsblk prints one name per line, each line ending in a line feed; names
      without white space are read back in order. */
  lemma ListingRoundTrip(names: seq<string>)
    requires |names| >= 1
    requires PlainNames(names)
    ensures ListedNames(Join(names, "\n") + "\n") == names
  {
    var j := Join(names, "\n");
    JoinBounds(names);
    TrimDropsLineBreak(j);
    assert forall i :: 0 <= i < |names| ==> FreeOf(names[i], {'\n'});
    SplitJoin(names, '\n');
  }

  /** A join of non-empty names starts with the first name's first character
      and ends with the last name's last character. */
  lemma {:induction false} JoinBounds(names: seq<string>)
    requires |names| >= 1
    requires forall i :: 0 <= i < |names| ==> names[i] != ""
    ensures var j := Join(names, "\n");
            |j| > 0 && j[0] == names[0][0] && j[|j| - 1] == names[|names| - 1][|names[|names| - 1]| - 1]
  {
    if |names| > 1 {
      JoinUnfold(names, "\n");
      JoinBounds(names[1..]);
    }
  }

  datatype Partitions = Partitions(rootfs: string, persistent: string)

  /** get_partitions' choice from the list it read: for debian the third entry
      of lsblk's PATH list and no persistent partition; otherwise the fourth
      and the seventh of the device paths. A list too short raises IndexError. */
  function PickPartitions(debian: bool, listing: seq<string>): (p: Option<Partitions>)
    ensures debian ==> (p.Some? <==> |listing| >= 3)
    ensures debian && p.Some? ==> p.value == Partitions(listing[2], "")
    ensures !debian ==> (p.Some? <==> |listing| >= 7)
    ensures !debian && p.Some? ==> p.value == Partitions(listing[3], listing[6])
  {
    if debian then (if |listing| > 2 then Some(Partitions(listing[2], "")) else None)
    else if |listing| > 6 then Some(Partitions(listing[3], listing[6]))
    else None
  }

  /** get_partitions: list the disk's partitions by name; for debian, enable
      the LVM volumes and list them again by path. */
  function GetPartitions(device: string, debian: bool, o: Outcome, env: Env): (r: (Outcome, Option<Partitions>))
    requires !o.raised
    ensures r.1.None? <==> r.0.raised
    ensures o.actions <= r.0.actions
  {
    var names := LsblkArgs("NAME", device);
    var o1 := Perform(o, Command(names), env);
    if o1.raised then (o1, None)
    else if !debian then
      var p := PickPartitions(false, DevicePaths(ListedNames(Output(names, env))));
      (Outcome(o1.actions, p.None?), p)
    else
      var paths := LsblkArgs("PATH", device);
      var o3 := Perform(Perform(o1, Command(VgchangeArgs), env), Command(paths), env);
      if o3.raised then (o3, None)
      else
        var p := PickPartitions(true, ListedNames(Output(paths, env)));
        (Outcome(o3.actions, p.None?), p)
  }

  /** Outside debian, a disk listed with its partitions in order gives its
      fourth and seventh entries, as device paths, after one lsblk call. */
  lemma PartitionsOfListing(device: string, names: seq<string>, o: Outcome, env: Env)
    requires !o.raised && LsblkArgs("NAME", device) !in env.failing
    requires |names| >= 7
    requires PlainNames(names)
    requires Output(LsblkArgs("NAME", device), env) == Join(names, "\n") + "\n"
    ensures GetPartitions(device, false, o, env)
            == (Outcome(o.actions + [Command(LsblkArgs("NAME", device))], false),
                Some(Partitions("/dev/" + names[3], "/dev/" + names[6])))
  {
    ListingRoundTrip(names);
  }

  /** For debian, the root file system is the third path of the second
      listing, which follows the enabling of the LVM volumes. */
  lemma DebianPartitionsOfListing(device: string, paths: seq<string>, o: Outcome, env: Env)
    requires !o.raised
    requires LsblkArgs("NAME", device) !in env.failing && VgchangeArgs !in env.failing
    requires LsblkArgs("PATH", device) !in env.failing
    requires |paths| >= 3
    requires PlainNames(paths)
    requires Output(LsblkArgs("PATH", device), env) == Join(paths, "\n") + "\n"
    ensures GetPartitions(device, true, o, env)
            == (Outcome(o.actions + [Command(LsblkArgs("NAME", device))] + [Command(VgchangeArgs)]
                        + [Command(LsblkArgs("PATH", device))], false),
                Some(Partitions(paths[2], "")))
  {
    ListingRoundTrip(paths);
  }

  /** A disk listed with fewer than seven entries makes the job raise outside
      debian, whatever the names. */
  lemma ShortListingRaises(device: string, names: seq<string>, o: Outcome, env: Env)
    requires !o.raised && LsblkArgs("NAME", device) !in env.failing
    requires 1 <= |names| < 7
    requires PlainNames(names)
    requires Output(LsblkArgs("NAME", device), env) == Join(names, "\n") + "\n"
    ensures GetPartitions(device, false, o, env).0.raised
  {
    ListingRoundTrip(names);
  }

  // ---------------------------------------------------------------------------
  // Overlays

  /** mount_overlay's option string; empty `options` stands for None, which is
      falsy like the empty string. */
  function OverlayOptions(lower: string, upper: string, work: string, options: string): (r: string)
    ensures options == "" ==> StartsWith(r, "lowerdir=")
    ensures options != "" ==> StartsWith(r, options + ",")
  {
    var dirs := ("lowerdir=" + lower) + "," + ("upperdir=" + upper) + "," + ("workdir=" + work);
    if options != "" then options + "," + dirs else dirs
  }

  /** Split at its commas, the option string gives the extra options first and
      then the three directories, each under its own key. */
  lemma OverlayOptionsFields(lower: string, upper: string, work: string, options: string)
    requires FreeOf(lower, {','}) && FreeOf(upper, {','}) && FreeOf(work, {','})
    ensures SplitOn(OverlayOptions(lower, upper, work, options), {','})
            == (if options == "" then [] else SplitOn(options, {','}))
               + ["lowerdir=" + lower, "upperdir=" + upper, "workdir=" + work]
  {
    var l := "lowerdir=" + lower;
    var u := "upperdir=" + upper;
    var w := "workdir=" + work;
    SplitFree(l, {','});
    SplitFree(u, {','});
    SplitFree(w, {','});
    assert "," == [','];
    SplitConcat(l, ',', u, {','});
    SplitConcat(l + "," + u, ',', w, {','});
    if options != "" {
      SplitConcat(options, ',', l + "," + u + "," + w, {','});
    }
  }

  function OverlayMountArgs(lower: string, upper: string, work: string, mountPoint: string, options: string): seq<string> {
    ["mount", "-t", "overlay", "overlay", "-o", OverlayOptions(lower, upper, work, options), mountPoint]
  }

  predicate IsOverlayMount(a: Action) {
    a.Command? && |a.args| == 7 && a.args[0] == "mount" && a.args[1] == "-t" && a.args[2] == "overlay"
  }

  /** mount_overlay: create the upper and work directories, then mount. */
  function MountOverlay(o: Outcome, lower: string, upper: string, work: string, mountPoint: string,
                        options: string, env: Env): (r: Outcome)
    ensures o.raised ==> r == o
    ensures !o.raised && upper !in env.failingDirs && work !in env.failingDirs ==>
              r.actions == o.actions + [MakeDirs(upper), MakeDirs(work), Command(OverlayMountArgs(lower, upper, work, mountPoint, options))]
    ensures !o.raised ==>
              (r.raised <==> upper in env.failingDirs || work in env.failingDirs
                             || OverlayMountArgs(lower, upper, work, mountPoint, options) in env.failing)
  {
    Perform(Perform(Perform(o, MakeDirs(upper), env), MakeDirs(work), env),
            Command(OverlayMountArgs(lower, upper, work, mountPoint, options)), env)
  }

  // ---------------------------------------------------------------------------
  // The job

  /** The mount points recorded in global storage. */
  function RecordMountPoints(gs: GlobalStorage, env: Env): GlobalStorage {
    gs["homeMountPoint" := Str(env.homeTemp)]["etcMountPoint" := Str(env.etcTemp)]
      ["rootMountPoint" := Str(RootfsMountPoint)]
  }

  /** The mounts once the partitions are known: the root file system, and for
      the Yocto flavour the persistent partition and the two overlays. */
  function MountPartitions(o: Outcome, parts: Partitions, yocto: bool, env: Env): (r: Outcome)
    ensures o.raised ==> r == o
    ensures !o.raised ==> |r.actions| > |o.actions| && r.actions[..|o.actions|] == o.actions
                          && r.actions[|o.actions|] == Command(["mount", parts.rootfs, RootfsMountPoint])
  {
    var o1 := Perform(o, Command(["mount", parts.rootfs, RootfsMountPoint]), env);
    if yocto then
      var o2 := Perform(o1, Command(["mount", parts.persistent, PersistentMountPoint]), env);
      var o3 := MountOverlay(o2, HomeLower, HomeUpper, HomeWork, env.homeTemp, "", env);
      MountOverlay(o3, EtcLower, EtcUpper, EtcWork, env.etcTemp, EtcOverlayOptions, env)
    else o1
  }

  /** The two fixed mount directories are made first. */
  function MakeMountDirectories(env: Env): Outcome {
    Perform(Perform(Outcome([], false), MakeDirs(RootfsMountPoint), env), MakeDirs(PersistentMountPoint), env)
  }

  /** run: record the mount points, create the two fixed mount directories,
      find the partitions of the selected disk and mount the root file system;
      for the Yocto flavour also mount the persistent partition and the home
      and etc overlays. */
  function Run(gs: GlobalStorage, env: Env): (r: (GlobalStorage, Outcome))
    ensures |r.1.actions| >= 1 && r.1.actions[0] == MakeDirs(RootfsMountPoint)
    ensures !r.1.raised ==> Lookup(gs, "selectedDisk").Some? && Lookup(gs, "selectedDisk").value.Str?
  {
    var stored := RecordMountPoints(gs, env);
    var flavor := Lookup(gs, "seapathFlavor");
    var o := MakeMountDirectories(env);
    if o.raised then (stored, o)
    else
      match Lookup(gs, "selectedDisk")
      case Some(Str(device)) =>
        var found := GetPartitions(device, flavor == Some(Str("debian")), o, env);
        if found.1.None? then (stored, found.0)
        else (stored, MountPartitions(found.0, found.1.value, flavor == Some(Str("yocto")), env))
      // a missing or non-string disk name is a TypeError in the lsblk call
      case _ => (stored, Outcome(o.actions, true))
  }

  /** The job records where root, home and etc are mounted, and changes no
      other key, whatever happens afterwards. */
  lemma RunRecordsMountPoints(gs: GlobalStorage, env: Env)
    ensures var g := Run(gs, env).0;
            g["rootMountPoint"] == Str(RootfsMountPoint) && g["etcMountPoint"] == Str(env.etcTemp)
            && g["homeMountPoint"] == Str(env.homeTemp)
            && g.Keys == gs.Keys + {"rootMountPoint", "etcMountPoint", "homeMountPoint"}
            && forall k :: k in gs && k !in {"rootMountPoint", "etcMountPoint", "homeMountPoint"} ==> g[k] == gs[k]
  {
  }

  /** The configuration job that follows writes into the etc directory this
      job recorded: the temporary etc mount point, or for debian the root file
      system's etc. */
  lemma EtcFeedsNetworkConfiguration(gs: GlobalStorage, env: Env)
    ensures var g := Run(gs, env).0;
            NetworkCfg.EtcMountPoint(g)
            == Success(Some(Str(if HoldsString(gs, "seapathFlavor", "debian") then RootfsMountPoint + "/etc" else env.etcTemp)))
  {
    var g := Run(gs, env).0;
    assert Lookup(g, "seapathFlavor") == Lookup(gs, "seapathFlavor");
    assert HoldsString(g, "seapathFlavor", "debian") == HoldsString(gs, "seapathFlavor", "debian");
  }

  /** Only the Yocto flavour mounts overlays. */
  lemma NoOverlayOutsideYocto(gs: GlobalStorage, env: Env)
    requires Lookup(gs, "seapathFlavor") != Some(Str("yocto"))
    ensures forall a :: a in Run(gs, env).1.actions ==> !IsOverlayMount(a)
  {
    var o := MakeMountDirectories(env);
    assert forall a :: a in o.actions ==> !IsOverlayMount(a);
    if !o.raised && Lookup(gs, "selectedDisk").Some? && Lookup(gs, "selectedDisk").value.Str? {
      var device := Lookup(gs, "selectedDisk").value.s;
      var debian := Lookup(gs, "seapathFlavor") == Some(Str("debian"));
      NoOverlayInPartitions(device, debian, o, env);
    }
  }

  /** Finding the partitions mounts nothing. */
  lemma NoOverlayInPartitions(device: string, debian: bool, o: Outcome, env: Env)
    requires !o.raised && forall a :: a in o.actions ==> !IsOverlayMount(a)
    ensures forall a :: a in GetPartitions(device, debian, o, env).0.actions ==> !IsOverlayMount(a)
  {
    var names := LsblkArgs("NAME", device);
    var paths := LsblkArgs("PATH", device);
    assert |names| == 6 && |paths| == 6 && |VgchangeArgs| == 2;
    var o1 := Perform(o, Command(names), env);
    PerformKeepsNoOverlay(o, Command(names), env);
    if !o1.raised && debian {
      var o2 := Perform(o1, Command(VgchangeArgs), env);
      PerformKeepsNoOverlay(o1, Command(VgchangeArgs), env);
      PerformKeepsNoOverlay(o2, Command(paths), env);
    }
  }

  /** Performing an action that is not an overlay mount adds none. */
  lemma PerformKeepsNoOverlay(o: Outcome, a: Action, env: Env)
    requires forall b :: b in o.actions ==> !IsOverlayMount(b)
    requires !IsOverlayMount(a)
    ensures forall b :: b in Perform(o, a, env).actions ==> !IsOverlayMount(b)
  {
  }

  /** A Yocto installation on a disk whose listing has seven entries, where
      nothing fails, makes the two mount directories, lists the disk, and goes
      on to mount the fourth and seventh entries as device paths. */
  lemma YoctoRunSequence(gs: GlobalStorage, env: Env, device: string, names: seq<string>)
    requires Lookup(gs, "seapathFlavor") == Some(Str("yocto")) && Lookup(gs, "selectedDisk") == Some(Str(device))
    requires env.failing == {} && env.failingDirs == {}
    requires |names| >= 7
    requires PlainNames(names)
    requires Output(LsblkArgs("NAME", device), env) == Join(names, "\n") + "\n"
    ensures Run(gs, env).1
            == MountPartitions(Outcome([MakeDirs(RootfsMountPoint), MakeDirs(PersistentMountPoint)]
                                       + [Command(LsblkArgs("NAME", device))], false),
                               Partitions("/dev/" + names[3], "/dev/" + names[6]), true, env)
  {
    var o := MakeMountDirectories(env);
    assert o == Outcome([MakeDirs(RootfsMountPoint), MakeDirs(PersistentMountPoint)], false);
    PartitionsOfListing(device, names, o, env);
    RunAfterDirectories(gs, env, device);
  }

  /** Once the mount directories exist, the job's actions are those of finding
      the partitions of the selected disk and mounting them. */
  lemma RunAfterDirectories(gs: GlobalStorage, env: Env, device: string)
    requires Lookup(gs, "selectedDisk") == Some(Str(device))
    requires !MakeMountDirectories(env).raised
    ensures var found := GetPartitions(device, Lookup(gs, "seapathFlavor") == Some(Str("debian")),
                                       MakeMountDirectories(env), env);
            Run(gs, env).1 == if found.1.None? then found.0
                              else MountPartitions(found.0, found.1.value, Lookup(gs, "seapathFlavor") == Some(Str("yocto")), env)
  {
  }

  /** For Yocto, when nothing fails, the root and persistent partitions are
      mounted, then the home overlay and then the etc overlay, each after its
      upper and work directories are made; only etc is given extra options. */
  lemma YoctoMounts(o: Outcome, parts: Partitions, env: Env)
    requires !o.raised && env.failing == {} && env.failingDirs == {}
    ensures MountPartitions(o, parts, true, env) == Outcome(
              o.actions
              + [Command(["mount", parts.rootfs, RootfsMountPoint])]
              + [Command(["mount", parts.persistent, PersistentMountPoint])]
              + [MakeDirs(HomeUpper)] + [MakeDirs(HomeWork)]
              + [Command(["mount", "-t", "overlay", "overlay", "-o",
                          OverlayOptions(HomeLower, HomeUpper, HomeWork, ""), env.homeTemp])]
              + [MakeDirs(EtcUpper)] + [MakeDirs(EtcWork)]
              + [Command(["mount", "-t", "overlay", "overlay", "-o",
                          OverlayOptions(EtcLower, EtcUpper, EtcWork, EtcOverlayOptions), env.etcTemp])],
              false)
  {
  }

  /** Outside Yocto only the root file system is mounted. */
  lemma OtherFlavoursMountRootOnly(o: Outcome, parts: Partitions, env: Env)
    requires !o.raised
    ensures MountPartitions(o, parts, false, env)
            == Outcome(o.actions + [Command(["mount", parts.rootfs, RootfsMountPoint])],
                       ["mount", parts.rootfs, RootfsMountPoint] in env.failing)
  {
  }
}

=== FILE: network_cfg.dfy ===
/** The network configuration job: it writes the interface settings chosen on
    the network page into a systemd-networkd file on the target system. Values
    come from global storage as the Python job sees them; a Python TypeError
    (a missing value used in string arithmetic, or a mode argument of the
    wrong type) is a crash. Which directories exist and which files can be
    opened for writing are parameters. */
module NetworkCfg {

  import opened Wrappers
  import opened Text
  import opened Store
  import NetworkConfig

  const ConfigFileName := "01-installer.network"
  const ConfigDirAtEtc := "systemd/network"

  /** complete_ipv4_address: the address, one slash, then the mask. */
  function CompleteIpv4Address(address: string, mask: string): (r: string)
    ensures |r| == |address| + 1 + |mask|
    ensures r[..|address|] == address && r[|address|] == '/' && r[|address| + 1..] == mask
  {
    address + "/" + mask
  }

  /** An address and a mask without a slash are recovered by splitting the
      completed address at its slash. */
  lemma CompletedAddressSplits(address: string, mask: string)
    requires FreeOf(address, {'/'}) && FreeOf(mask, {'/'})
    ensures SplitOn(CompleteIpv4Address(address, mask), {'/'}) == [address, mask]
  {
    SplitConcat(address, '/', mask, {'/'});
    SplitFree(address, {'/'});
    SplitFree(mask, {'/'});
  }

  /** The file's lines: the interface section, then either the static address
      and gateway or DHCP for IPv4 (create_network_file). */
  function NetworkFileLines(iface: string, addressWithMask: string, gateway: string, useDhcp: bool): seq<string> {
    ["[Match]", "Name=" + iface, "", "[Network]"]
    + if useDhcp then ["DHCP=ipv4"] else ["Address=" + addressWithMask, "Gateway=" + gateway]
  }

  /** The file's text, its lines separated by line feeds without a final one. */
  function NetworkFileContent(iface: string, addressWithMask: string, gateway: string, useDhcp: bool): string {
    Join(NetworkFileLines(iface, addressWithMask, gateway, useDhcp), "\n")
  }

  /** Read line by line, a static file names the interface, the address and the
      gateway, each on its own line and nothing else. */
  lemma StaticFileLines(iface: string, address: string, gateway: string)
    requires FreeOf(iface, {'\n'}) && FreeOf(address, {'\n'}) && FreeOf(gateway, {'\n'})
    ensures SplitOn(NetworkFileContent(iface, address, gateway, false), {'\n'})
            == ["[Match]", "Name=" + iface, "", "[Network]", "Address=" + address, "Gateway=" + gateway]
  {
    LinesOfJoin(NetworkFileLines(iface, address, gateway, false));
  }

  /** Read line by line, a DHCP file names the interface and asks for DHCP,
      with no address or gateway line. */
  lemma DhcpFileLines(iface: string, address: string, gateway: string)
    requires FreeOf(iface, {'\n'})
    ensures SplitOn(NetworkFileContent(iface, address, gateway, true), {'\n'})
            == ["[Match]", "Name=" + iface, "", "[Network]", "DHCP=ipv4"]
  {
    LinesOfJoin(NetworkFileLines(iface, address, gateway, true));
  }

  /** Lines without line feeds are read back from their join. */
  lemma LinesOfJoin(lines: seq<string>)
    requires |lines| >= 1 && forall i :: 0 <= i < |lines| ==> FreeOf(lines[i], {'\n'})
    ensures SplitOn(Join(lines, "\n"), {'\n'}) == lines
  {
    SplitJoin(lines, '\n');
  }

  // ---------------------------------------------------------------------------
  // Python's view of stored values

  /** Python truthiness of a stored value; an absent key reads as None. */
  predicate Truthy(v: Option<Value>) {
    match v
    case None => false
    case Some(Str(s)) => s != ""
    case Some(Bool(b)) => b
    case Some(Int(i)) => i != 0
    case Some(StrList(items)) => |items| > 0
  }

  /** A value formatted into an f-string: None prints as "None". */
  function Formatted(v: Option<Value>): (s: string)
    ensures v.None? ==> s == "None"
    ensures v.Some? && v.value.Str? ==> s == v.value.s
  {
    match v
    case None => "None"
    case Some(Str(t)) => t
    case Some(Bool(b)) => if b then "True" else "False"
    case Some(Int(i)) => IntToString(i)
    case Some(StrList(items)) => "[" + Join(Quoted(items), ", ") + "]"
  }

  /** The items of a printed list, each in single quotes (escapes are not
      modelled). */
  function Quoted(items: seq<string>): (q: seq<string>)
    ensures |q| == |items|
  {
    if |items| == 0 then [] else ["'" + items[0] + "'"] + Quoted(items[1..])
  }

  /** os.path.join for a relative second part. */
  function PathJoin(a: string, b: string): (p: string)
    ensures EndsWith(p, b)
  {
    if a == "" then b
    else
      var p := if EndsWith(a, "/") then a + b else a + "/" + b;
      assert p[|p| - |b|..] == b;
      p
  }

  // ---------------------------------------------------------------------------
  // The job

  /** What the job did: wrote (or failed to open, which is only logged) the
      file, returned the configuration-error pair, or crashed. */
  datatype RunResult =
    | Done(written: Option<(string, string)>)
    | ConfigError(title: string, message: string)
    | Crash

  const ErrorTitle := "Configuration Error"
  const ErrorMessage := "No root mount point is given for <pre>networkcfg</pre> to use."

  /** The directories that exist and the files that can be opened for writing. */
  datatype Sys = Sys(directories: set<string>, writable: set<string>)

  /** The etc directory: rootMountPoint + "/etc" for the debian flavour (a
      non-string root mount point is a TypeError), etcMountPoint otherwise. */
  function EtcMountPoint(gs: GlobalStorage): (r: Result<Option<Value>, ()>)
    ensures HoldsString(gs, "seapathFlavor", "debian") ==>
              (r.Success? <==> "rootMountPoint" in gs && gs["rootMountPoint"].Str?)
    ensures !HoldsString(gs, "seapathFlavor", "debian") ==> r == Success(Lookup(gs, "etcMountPoint"))
  {
    if HoldsString(gs, "seapathFlavor", "debian") then
      match Lookup(gs, "rootMountPoint")
      case Some(Str(root)) => Success(Some(Str(root + "/etc")))
      case _ => Failure(())
    else Success(Lookup(gs, "etcMountPoint"))
  }

  /** The address and gateway written: both empty with DHCP, where the stored
      address, mask and gateway are not read; otherwise the completed address
      (a non-string address or mask is a TypeError) and the gateway as
      formatted. */
  function StaticPart(gs: GlobalStorage, useDhcp: bool): (r: Option<(string, string)>)
    ensures useDhcp ==> r == Some(("", ""))
  {
    if useDhcp then Some(("", ""))
    else
      match (Lookup(gs, "ipAddress"), Lookup(gs, "mask"))
      case (Some(Str(address)), Some(Str(mask))) =>
        Some((CompleteIpv4Address(address, mask), Formatted(Lookup(gs, "gateway"))))
      case _ => None
  }

  /** run, given whether a missing configuration directory is created first.
      As written, the directory is created with
      `os.makedirs(etc, "systemd/network", exist_ok=True)`, which passes the
      directory's name as the mode and raises a TypeError; `createsDirectory`
      selects the evident intent, creating the directory. */
  function RunWith(gs: GlobalStorage, sys: Sys, createsDirectory: bool): (r: RunResult)
    ensures r.ConfigError? <==> EtcMountPoint(gs) == Success(None)
    ensures r.ConfigError? ==> r == ConfigError(ErrorTitle, ErrorMessage)
    ensures EtcMountPoint(gs).Failure? ==> r == Crash
    ensures r.Done? && r.written.Some? ==>
              r.written.value.0 in sys.writable && EndsWith(r.written.value.0, ConfigFileName)
  {
    match EtcMountPoint(gs)
    case Failure(_) => Crash
    case Success(None) => ConfigError(ErrorTitle, ErrorMessage)
    case Success(Some(etcValue)) =>
      var useDhcp := Truthy(Lookup(gs, "useDhcp"));
      var iface := Formatted(Lookup(gs, "networkInterface"));
      match StaticPart(gs, useDhcp)
      case None => Crash
      case Some((address, gateway)) =>
        if !etcValue.Str? then Crash
        else
          var dir := PathJoin(etcValue.s, ConfigDirAtEtc);
          if dir !in sys.directories && !createsDirectory then Crash
          else
            var file := PathJoin(dir, ConfigFileName);
            var content := NetworkFileContent(iface, address, gateway, useDhcp);
            Done(if file in sys.writable then Some((file, content)) else None)
  }

  /** run as written. */
  function RunAsWritten(gs: GlobalStorage, sys: Sys): (r: RunResult)
    ensures r != Crash ==> r == RunWith(gs, sys, true)
  {
    RunWith(gs, sys, false)
  }

  /** run with the configuration directory created when missing. */
  function Run(gs: GlobalStorage, sys: Sys): (r: RunResult)
    ensures r == Crash ==> RunWith(gs, sys, false) == Crash
  {
    RunWith(gs, sys, true)
  }

  /** As written, a target without the systemd-networkd directory makes the job
      crash instead of writing the file; the corrected job writes it. */
  lemma MissingDirectoryCrashes(etc: string)
    requires etc != "" && !EndsWith(etc, "/")
    ensures var gs := map["etcMountPoint" := Str(etc), "useDhcp" := Bool(true), "networkInterface" := Str("eth0")];
            var file := etc + "/" + ConfigDirAtEtc + "/" + ConfigFileName;
            var sys := Sys({}, {file});
            RunAsWritten(gs, sys) == Crash
            && Run(gs, sys) == Done(Some((file, NetworkFileContent("eth0", "", "", true))))
  {
    var gs := map["etcMountPoint" := Str(etc), "useDhcp" := Bool(true), "networkInterface" := Str("eth0")];
    assert EtcMountPoint(gs) == Success(Some(Str(etc)));
    assert Truthy(Lookup(gs, "useDhcp"));
    assert Formatted(Lookup(gs, "networkInterface")) == "eth0";
    ConfigFilePath(etc);
  }

  /** Below an etc directory not ending in '/', the file lives at
      etc/systemd/network/01-installer.network. */
  lemma ConfigFilePath(etc: string)
    requires etc != "" && !EndsWith(etc, "/")
    ensures PathJoin(PathJoin(etc, ConfigDirAtEtc), ConfigFileName) == etc + "/" + ConfigDirAtEtc + "/" + ConfigFileName
  {
    PathJoinTwice(etc, ConfigDirAtEtc, ConfigFileName);
  }

  /** Joining two relative parts to a directory not ending in '/' puts one
      '/' before each. */
  lemma PathJoinTwice(a: string, b: string, c: string)
    requires a != "" && !EndsWith(a, "/") && b != "" && b[|b| - 1] != '/'
    ensures PathJoin(PathJoin(a, b), c) == a + "/" + b + "/" + c
  {
    var d := a + "/" + b;
    assert PathJoin(a, b) == d;
    assert d[|d| - 1] == b[|b| - 1];
    assert !EndsWith(d, "/");
    assert PathJoin(d, c) == d + "/" + c;
  }

  /** Where the directory exists the two versions agree. */
  lemma ExistingDirectoryAgrees(gs: GlobalStorage, sys: Sys, etc: string)
    requires EtcMountPoint(gs) == Success(Some(Str(etc)))
    requires PathJoin(etc, ConfigDirAtEtc) in sys.directories
    ensures RunAsWritten(gs, sys) == Run(gs, sys)
  {
  }

  /** Only a non-debian flavour without an etc mount point is a configuration
      error. */
  lemma ConfigErrorCondition(gs: GlobalStorage, sys: Sys)
    ensures Run(gs, sys).ConfigError? <==> !HoldsString(gs, "seapathFlavor", "debian") && "etcMountPoint" !in gs
  {
  }

  /** With DHCP selected the stored address, mask and gateway play no part:
      whatever they hold, the job does the same. */
  lemma DhcpIgnoresStaticValues(gs: GlobalStorage, sys: Sys, address: Value, mask: Value, gateway: Value)
    requires Truthy(Lookup(gs, "useDhcp"))
    ensures var other := gs["ipAddress" := address]["mask" := mask]["gateway" := gateway];
            Run(other, sys) == Run(gs, sys)
  {
    var other := gs["ipAddress" := address]["mask" := mask]["gateway" := gateway];
    assert Lookup(other, "useDhcp") == Lookup(gs, "useDhcp");
    assert Lookup(other, "networkInterface") == Lookup(gs, "networkInterface");
    assert Lookup(other, "seapathFlavor") == Lookup(gs, "seapathFlavor");
    assert HoldsString(other, "seapathFlavor", "debian") == HoldsString(gs, "seapathFlavor", "debian");
    assert Lookup(other, "rootMountPoint") == Lookup(gs, "rootMountPoint");
    assert Lookup(other, "etcMountPoint") == Lookup(gs, "etcMountPoint");
  }

  /** The debian flavour writes under the root mount point's etc directory. */
  lemma DebianWritesUnderRoot(gs: GlobalStorage, sys: Sys, root: string)
    requires HoldsString(gs, "seapathFlavor", "debian") && Lookup(gs, "rootMountPoint") == Some(Str(root))
    requires Run(gs, sys).Done? && Run(gs, sys).written.Some?
    ensures Run(gs, sys).written.value.0
            == PathJoin(PathJoin(root + "/etc", ConfigDirAtEtc), ConfigFileName)
  {
  }

  /** What the network page stores reaches the file: for a ready static
      configuration mirrored in global storage and finalized, the job writes
      the interface, the address completed with the stored mask (the default
      one when none was stored), and the gateway. */
  lemma ReadyFormIsWritten(c: NetworkConfig.Config, gs: GlobalStorage, sys: Sys, etc: string)
    requires NetworkConfig.Mirrors(c, gs) && !c.useDhcp
    requires NetworkConfig.IsReady(c)
    requires !HoldsString(gs, "seapathFlavor", "debian") && Lookup(gs, "etcMountPoint") == Some(Str(etc))
    requires PathJoin(PathJoin(etc, ConfigDirAtEtc), ConfigFileName) in sys.writable
    ensures var fin := NetworkConfig.FinalizeGlobalStorage(gs);
            var mask := if "mask" in gs then c.mask else NetworkConfig.DefaultMask;
            Run(fin, sys) == Done(Some((PathJoin(PathJoin(etc, ConfigDirAtEtc), ConfigFileName),
                                         NetworkFileContent(c.networkInterface,
                                                            CompleteIpv4Address(c.ipAddress, mask),
                                                            c.gateway, false))))
  {
    var fin := NetworkConfig.FinalizeGlobalStorage(gs);
    assert c.networkInterface != "" && c.ipAddress != "" && c.gateway != "" by {
      if NetworkConfig.Ipv4Rx(c.ipAddress) {
        NetworkConfig.Ipv4RxLength(c.ipAddress);
      }
      if NetworkConfig.Ipv4Rx(c.gateway) {
        NetworkConfig.Ipv4RxLength(c.gateway);
      }
    }
    assert !Truthy(Lookup(fin, "useDhcp"));
    assert Lookup(fin, "ipAddress") == Some(Str(c.ipAddress));
    assert Lookup(fin, "gateway") == Some(Str(c.gateway));
    assert Lookup(fin, "networkInterface") == Some(Str(c.networkInterface));
    assert Lookup(fin, "mask") == Some(Str(if "mask" in gs then c.mask else NetworkConfig.DefaultMask));
    assert EtcMountPoint(fin) == Success(Some(Str(etc)));
  }
}

=== FILE: network_config.dfy ===
/** The static-IP network page's configuration object: the four text fields
    (interface, IPv4 address, subnet mask, gateway) and the DHCP flag, their
    mirror in global storage, the validation of each field against the page's
    regular expressions, and the cached "ready" flag, whose changes are
    announced through readyChanged; the view step forwards that signal as its
    Next-status notification.

    Qt signals connected to checkReady run synchronously at the point of
    emission, so each setter is modelled as one step that returns the new
    configuration, the new global storage and the signals emitted, in order. */
module NetworkConfig {

  import opened Wrappers
  import opened Text
  import opened Store

  // ---------------------------------------------------------------------------
  // The regular expressions

  /** One octet alternative of IPV4ADDRESS_RX:
      `25[0-5] | 2[0-4][0-9] | [01]?[0-9][0-9]?`. */
  predicate OctetRx(t: string) {
    (|t| == 3 && t[0] == '2' && t[1] == '5' && '0' <= t[2] <= '5')
    || (|t| == 3 && t[0] == '2' && '0' <= t[1] <= '4' && IsDigit(t[2]))
    || (|t| == 3 && (t[0] == '0' || t[0] == '1') && IsDigit(t[1]) && IsDigit(t[2]))
    || (|t| == 2 && IsDigit(t[0]) && IsDigit(t[1]))
    || (|t| == 1 && IsDigit(t[0]))
  }

  /** The value of a numeral of up to three digits, digit by digit. */
  lemma DecimalValueShort(t: string)
    requires 1 <= |t| <= 3 && AllDigits(t)
    ensures |t| == 1 ==> DecimalValue(t) == DigitValue(t[0])
    ensures |t| == 2 ==> DecimalValue(t) == 10 * DigitValue(t[0]) + DigitValue(t[1])
    ensures |t| == 3 ==> DecimalValue(t) == 100 * DigitValue(t[0]) + 10 * DigitValue(t[1]) + DigitValue(t[2])
  {
    if |t| == 1 {
      assert t[..0] == "";
    } else if |t| == 2 {
      assert t[..1][..0] == "";
    } else {
      assert t[..2][..1] == t[..1];
      assert t[..1][..0] == "";
    }
  }

  /** The octet alternative accepts exactly the numerals of one to three digits,
      leading zeros allowed, whose value is at most 255. */
  lemma OctetRxIsByte(t: string)
    ensures OctetRx(t) <==> 1 <= |t| <= 3 && AllDigits(t) && DecimalValue(t) <= 255
  {
    if 1 <= |t| <= 3 && AllDigits(t) {
      DecimalValueShort(t);
    }
  }

  /** IPV4ADDRESS_RX without its end anchor: four octets separated by dots. An
      octet holds no dot, so splitting at the dots is the only way to match. */
  predicate DottedQuad(s: string) {
    var parts := SplitOn(s, {'.'});
    |parts| == 4 && forall i :: 0 <= i < 4 ==> OctetRx(parts[i])
  }

  /** IPV4ADDRESS_RX anchored with `^...$`. In Perl-compatible syntax `$` also
      matches before a final line feed, so one trailing "\n" is accepted. */
  predicate Ipv4Rx(s: string) {
    DottedQuad(s) || (|s| > 0 && s[|s| - 1] == '\n' && DottedQuad(s[..|s| - 1]))
  }

  /** MASK_RX's alternatives without the anchors: `3[0-2] | [1-2]?[0-9]`. */
  predicate MaskDigits(s: string) {
    (|s| == 2 && s[0] == '3' && '0' <= s[1] <= '2')
    || (|s| == 2 && (s[0] == '1' || s[0] == '2') && IsDigit(s[1]))
    || (|s| == 1 && IsDigit(s[0]))
  }

  /** MASK_RX anchored with `^...$` (a trailing "\n" accepted, as above). */
  predicate MaskRx(s: string) {
    MaskDigits(s) || (|s| > 0 && s[|s| - 1] == '\n' && MaskDigits(s[..|s| - 1]))
  }

  /** A dotted quad is four octets joined with dots, so it is at least seven
      characters long: the length test before the pattern test never rejects
      an address the pattern would accept. */
  lemma {:induction false} DottedQuadLength(s: string)
    requires DottedQuad(s)
    ensures |s| >= 7
  {
    var p := SplitOn(s, {'.'});
    JoinSplit(s, '.');
    JoinUnfold(p, ".");
    JoinUnfold(p[1..], ".");
    JoinUnfold(p[1..][1..], ".");
    assert p[1..][1..][1..] == [p[3]];
    assert s == p[0] + "." + (p[1] + "." + (p[2] + "." + p[3]));
    forall i | 0 <= i < 4 ensures |p[i]| >= 1 {
      assert OctetRx(p[i]);
    }
  }

  lemma {:induction false} Ipv4RxLength(s: string)
    requires Ipv4Rx(s)
    ensures |s| >= 7
  {
    if DottedQuad(s) {
      DottedQuadLength(s);
    } else {
      DottedQuadLength(s[..|s| - 1]);
    }
  }

  /** The text of an address written as four byte values. */
  function FormatIpv4(a: nat, b: nat, c: nat, d: nat): string {
    Join([NatToString(a), NatToString(b), NatToString(c), NatToString(d)], ".")
  }

  /** A numeral of a byte value has at most three digits. */
  lemma ByteNumeralShort(n: nat)
    requires n <= 255
    ensures |NatToString(n)| <= 3
  {
    if n >= 10 {
      assert |NatToString(n / 10)| <= 2 by {
        if n / 10 >= 10 {
          assert n / 10 / 10 < 10;
        }
      }
    }
  }

  /** Every address written as four bytes in decimal passes the pattern ... */
  lemma {:induction false} FormattedAddressAccepted(a: nat, b: nat, c: nat, d: nat)
    requires a <= 255 && b <= 255 && c <= 255 && d <= 255
    ensures Ipv4Rx(FormatIpv4(a, b, c, d))
  {
    var parts := [NatToString(a), NatToString(b), NatToString(c), NatToString(d)];
    forall i | 0 <= i < 4 ensures FreeOf(parts[i], {'.'}) && OctetRx(parts[i]) {
      var n := [a, b, c, d][i];
      assert parts[i] == NatToString(n);
      ByteNumeralShort(n);
      OctetRxIsByte(parts[i]);
    }
    SplitJoin(parts, '.');
  }

  /** ... and, conversely, an accepted address without a trailing line feed is
      four dot-separated numerals of byte values. */
  lemma {:induction false} AcceptedAddressIsFourBytes(s: string)
    requires DottedQuad(s)
    ensures var p := SplitOn(s, {'.'});
            s == Join(p, ".")
            && forall i :: 0 <= i < 4 ==> AllDigits(p[i]) && 1 <= |p[i]| <= 3 && DecimalValue(p[i]) <= 255
  {
    var p := SplitOn(s, {'.'});
    JoinSplit(s, '.');
    forall i | 0 <= i < 4 ensures AllDigits(p[i]) && 1 <= |p[i]| <= 3 && DecimalValue(p[i]) <= 255 {
      OctetRxIsByte(p[i]);
    }
  }

  /** The mask alternatives accept exactly the canonical numerals 0 to 32. */
  lemma MaskDigitsIsPrefixLength(s: string)
    ensures MaskDigits(s) <==> Canonical(s) && DecimalValue(s) <= 32
  {
    if Canonical(s) && |s| <= 3 {
      DecimalValueShort(s);
    }
    if Canonical(s) && |s| > 3 {
      assert s[..|s| - 1][0] == s[0];
      LeadingDigitPositive(s[..|s| - 1]);
      assert s[..|s| - 1][..|s| - 2][0] == s[0];
      LeadingDigitPositive(s[..|s| - 1][..|s| - 2]);
      assert DecimalValue(s[..|s| - 1]) >= 10;
    }
  }

  /** A mask accepted by the pattern is the decimal text of a prefix length in
      0..32, and every such text is accepted. */
  lemma {:induction false} MaskRxIsPrefixLength(s: string, n: nat)
    ensures MaskDigits(s) ==> DecimalValue(s) <= 32 && s == NatToString(DecimalValue(s))
    ensures n <= 32 ==> MaskRx(NatToString(n))
  {
    MaskDigitsIsPrefixLength(s);
    if MaskDigits(s) {
      CanonicalRoundTrip(s);
    }
    MaskDigitsIsPrefixLength(NatToString(n));
    if n <= 32 {
      ByteNumeralShort(n);
    }
  }

  // ---------------------------------------------------------------------------
  // Field status messages

  const AddressTooShort := "Your ipv4 address is too short."
  const AddressBadFormat := "Check the format of your ipv4 address."
  const MaskOutOfRange := "The value of your subnet mask must be between 0 and 32."
  const GatewayTooShort := "Your gateway address is too short."
  const GatewayBadFormat := "Check the format of your gateway address."

  /** IPV4ADDRESS_MIN_LENGTH */
  const MinAddressLength := 7

  /** The subnet mask used when none is given. */
  const DefaultMask := "24"

  /** An address status: the empty string when the address is accepted,
      otherwise the length message or the format message. */
  function AddressStatus(address: string, tooShort: string, badFormat: string): (msg: string)
    requires tooShort != "" && badFormat != ""
    ensures msg == "" <==> Ipv4Rx(address)
    ensures msg != "" ==> msg == (if |address| < MinAddressLength then tooShort else badFormat)
  {
    if |address| < MinAddressLength then
      assert !Ipv4Rx(address) by {
        if Ipv4Rx(address) {
          Ipv4RxLength(address);
        }
      }
      tooShort
    else if !Ipv4Rx(address) then badFormat
    else ""
  }

  /** Config::ipAddressStatus */
  function IpAddressStatus(address: string): (msg: string)
    ensures msg == "" <==> Ipv4Rx(address)
    ensures msg != "" ==> msg == (if |address| < MinAddressLength then AddressTooShort else AddressBadFormat)
  {
    AddressStatus(address, AddressTooShort, AddressBadFormat)
  }

  /** Config::gatewayStatus */
  function GatewayStatus(gateway: string): (msg: string)
    ensures msg == "" <==> Ipv4Rx(gateway)
    ensures msg != "" ==> msg == (if |gateway| < MinAddressLength then GatewayTooShort else GatewayBadFormat)
  {
    AddressStatus(gateway, GatewayTooShort, GatewayBadFormat)
  }

  /** Config::maskStatus */
  function MaskStatus(mask: string): (msg: string)
    ensures msg == "" <==> MaskRx(mask)
    ensures msg != "" ==> msg == MaskOutOfRange
  {
    if !MaskRx(mask) then MaskOutOfRange else ""
  }

  /** The default mask is a valid mask. */
  lemma DefaultMaskValid()
    ensures MaskStatus(DefaultMask) == ""
  {
    assert MaskDigits(DefaultMask);
  }

  // ---------------------------------------------------------------------------
  // The configuration object

  datatype Config = Config(
    networkInterface: string,
    ipAddress: string,
    mask: string,
    gateway: string,
    useDhcp: bool,
    /** m_isReady: the last readiness announced through readyChanged */
    isReady: bool)

  /** A freshly constructed configuration: empty fields, DHCP off, not ready. */
  const Initial := Config("", "", "", "", false, false)

  datatype Signal =
    | NetworkInterfaceChanged(iface: string)
    | IpAddressChanged(address: string)
    | IpAddressStatusChanged(status: string)
    | MaskChanged(mask: string)
    | MaskStatusChanged(status: string)
    | GatewayChanged(gateway: string)
    | GatewayStatusChanged(status: string)
    | UseDhcpChanged(useDhcp: bool)
    | ReadyChanged(ready: bool)

  /** The result of one setter: new configuration, new storage, signals. */
  datatype Outcome = Outcome(cfg: Config, gs: GlobalStorage, signals: seq<Signal>)

  /** Config::isReady: with DHCP only an interface name is needed; otherwise the
      address and the gateway must also pass their patterns. */
  function IsReady(c: Config): (ready: bool)
    ensures c.useDhcp ==> (ready <==> c.networkInterface != "")
    ensures !c.useDhcp ==> (ready <==> c.networkInterface != "" && Ipv4Rx(c.ipAddress) && Ipv4Rx(c.gateway))
  {
    var readyInterface := c.networkInterface != "";
    var readyAddress := IpAddressStatus(c.ipAddress) == "";
    var readyGateway := GatewayStatus(c.gateway) == "";
    if c.useDhcp then readyInterface else readyInterface && readyAddress && readyGateway
  }

  /** The subnet mask never takes part in readiness, valid or not. */
  lemma MaskNeverGatesReadiness(c: Config, mask: string)
    ensures IsReady(c.(mask := mask)) == IsReady(c)
  {
  }

  /** The cached readiness equals the computed one. */
  predicate ReadyInSync(c: Config) {
    c.isReady == IsReady(c)
  }

  /** Config::checkReady: recompute readiness and announce it when it changed. */
  function CheckReady(c: Config): (r: (Config, seq<Signal>))
    ensures ReadyInSync(r.0)
    ensures r.0 == c.(isReady := r.0.isReady)
    ensures r.1 == (if c.isReady != IsReady(c) then [ReadyChanged(IsReady(c))] else [])
  {
    var b := IsReady(c);
    if b != c.isReady then (c.(isReady := b), [ReadyChanged(b)]) else (c, [])
  }

  /** Runs checkReady after a change, appending its signal. */
  function Settle(c: Config, gs: GlobalStorage, signals: seq<Signal>): (o: Outcome)
    ensures ReadyInSync(o.cfg) && o.gs == gs
    ensures o.cfg == c.(isReady := o.cfg.isReady)
    ensures |o.signals| >= |signals| && o.signals[..|signals|] == signals
  {
    var (c2, ready) := CheckReady(c);
    assert (signals + ready)[..|signals|] == signals;
    Outcome(c2, gs, signals + ready)
  }

  /** Stores a text field under `key`, or removes the key for an empty text. */
  function StoreText(gs: GlobalStorage, key: string, text: string): (r: GlobalStorage)
    ensures text == "" ==> key !in r
    ensures text != "" ==> key in r && r[key] == Str(text)
    ensures forall k :: k != key ==> (k in r <==> k in gs) && (k in gs ==> r[k] == gs[k])
  {
    if text == "" then gs - {key} else gs[key := Str(text)]
  }

  /** Config::setNetworkInterface. No preset is ever loaded by the module's
      configuration, so the field is always editable. */
  function SetNetworkInterface(c: Config, gs: GlobalStorage, iface: string): (o: Outcome)
    ensures iface == c.networkInterface ==> o == Outcome(c, gs, [])
    ensures iface != c.networkInterface ==>
              o.cfg.networkInterface == iface && ReadyInSync(o.cfg)
              && |o.signals| >= 1 && o.signals[0] == NetworkInterfaceChanged(iface)
              && o.gs == StoreText(gs, "networkInterface", iface)
    ensures o.cfg.(networkInterface := c.networkInterface, isReady := c.isReady) == c
  {
    if iface == c.networkInterface then Outcome(c, gs, [])
    else Settle(c.(networkInterface := iface), StoreText(gs, "networkInterface", iface),
                [NetworkInterfaceChanged(iface)])
  }

  /** Config::setIpAddress: also announces the new address status. */
  function SetIpAddress(c: Config, gs: GlobalStorage, address: string): (o: Outcome)
    ensures address == c.ipAddress ==> o == Outcome(c, gs, [])
    ensures address != c.ipAddress ==>
              o.cfg.ipAddress == address && ReadyInSync(o.cfg)
              && |o.signals| >= 2 && o.signals[..2] == [IpAddressChanged(address), IpAddressStatusChanged(IpAddressStatus(address))]
              && o.gs == StoreText(gs, "ipAddress", address)
    ensures o.cfg.(ipAddress := c.ipAddress, isReady := c.isReady) == c
  {
    if address == c.ipAddress then Outcome(c, gs, [])
    else Settle(c.(ipAddress := address), StoreText(gs, "ipAddress", address),
                [IpAddressChanged(address), IpAddressStatusChanged(IpAddressStatus(address))])
  }

  /** Config::setGateway: also announces the new gateway status. */
  function SetGateway(c: Config, gs: GlobalStorage, gateway: string): (o: Outcome)
    ensures gateway == c.gateway ==> o == Outcome(c, gs, [])
    ensures gateway != c.gateway ==>
              o.cfg.gateway == gateway && ReadyInSync(o.cfg)
              && |o.signals| >= 2 && o.signals[..2] == [GatewayChanged(gateway), GatewayStatusChanged(GatewayStatus(gateway))]
              && o.gs == StoreText(gs, "gateway", gateway)
    ensures o.cfg.(gateway := c.gateway, isReady := c.isReady) == c
  {
    if gateway == c.gateway then Outcome(c, gs, [])
    else Settle(c.(gateway := gateway), StoreText(gs, "gateway", gateway),
                [GatewayChanged(gateway), GatewayStatusChanged(GatewayStatus(gateway))])
  }

  /** Config::setMask: an empty mask becomes the default "24", which is stored;
      maskChanged carries the text as given, even when it was empty. */
  function SetMask(c: Config, gs: GlobalStorage, mask: string): (o: Outcome)
    ensures mask == c.mask ==> o == Outcome(c, gs, [])
    ensures mask != c.mask ==>
              var stored := if mask == "" then DefaultMask else mask;
              o.cfg.mask == stored && ReadyInSync(o.cfg)
              && o.gs == gs["mask" := Str(stored)]
              && |o.signals| >= 2 && o.signals[..2] == [MaskChanged(mask), MaskStatusChanged(MaskStatus(stored))]
    ensures o.cfg.(mask := c.mask, isReady := c.isReady) == c
    // readiness never moves on a mask change: no readyChanged follows
    ensures ReadyInSync(c) ==> o.cfg.isReady == c.isReady && |o.signals| <= 2
  {
    if mask == c.mask then Outcome(c, gs, [])
    else
      var stored := if mask == "" then DefaultMask else mask;
      Settle(c.(mask := stored), gs["mask" := Str(stored)], [MaskChanged(mask), MaskStatusChanged(MaskStatus(stored))])
  }

  /** Config::setUseDhcpForStaticIp as written: the flag and its storage key are
      updated, but useDhcpForStaticIpChanged is never emitted, so the connected
      checkReady does not run and the cached readiness is left as it was. */
  function SetUseDhcpAsWritten(c: Config, gs: GlobalStorage, useDhcp: bool): (o: Outcome)
    ensures o.cfg == c.(useDhcp := useDhcp)
    ensures o.gs == gs["useDhcp" := Bool(useDhcp)]
    ensures o.signals == []
  {
    Outcome(c.(useDhcp := useDhcp), gs["useDhcp" := Bool(useDhcp)], [])
  }

  /** Turning DHCP on while the static address is still empty makes the page
      ready, yet the setter as written announces nothing and leaves the cached
      flag false, so no readyChanged re-enables the Next button. */
  lemma SetUseDhcpAsWrittenLeavesReadyStale()
    ensures var c := Initial.(networkInterface := "eth0");
            ReadyInSync(c)
            && IsReady(c.(useDhcp := true))
            && var o := SetUseDhcpAsWritten(c, map[], true);
               !ReadyInSync(o.cfg) && o.signals == []
  {
    var c := Initial.(networkInterface := "eth0");
    assert !Ipv4Rx("") by {
      assert SplitOn("", {'.'}) == [""];
    }
  }

  /** setUseDhcpForStaticIp as evidently intended: announce the change so that
      the connected checkReady runs (and readyChanged follows when readiness
      moves). */
  function SetUseDhcp(c: Config, gs: GlobalStorage, useDhcp: bool): (o: Outcome)
    ensures o.cfg.useDhcp == useDhcp && ReadyInSync(o.cfg)
    ensures o.gs == gs["useDhcp" := Bool(useDhcp)]
    ensures |o.signals| >= 1 && o.signals[0] == UseDhcpChanged(useDhcp)
    ensures o.cfg.(useDhcp := c.useDhcp, isReady := c.isReady) == c
  {
    Settle(c.(useDhcp := useDhcp), gs["useDhcp" := Bool(useDhcp)], [UseDhcpChanged(useDhcp)])
  }

  /** Every field's storage key mirrors the field: present with the field's text
      when the text is non-empty, absent when it is empty; "mask" and "useDhcp",
      once present, hold the current values. */
  predicate Mirrors(c: Config, gs: GlobalStorage) {
    (c.networkInterface == "" ==> "networkInterface" !in gs)
    && (c.networkInterface != "" ==> "networkInterface" in gs && gs["networkInterface"] == Str(c.networkInterface))
    && (c.ipAddress == "" ==> "ipAddress" !in gs)
    && (c.ipAddress != "" ==> "ipAddress" in gs && gs["ipAddress"] == Str(c.ipAddress))
    && (c.gateway == "" ==> "gateway" !in gs)
    && (c.gateway != "" ==> "gateway" in gs && gs["gateway"] == Str(c.gateway))
    && ("mask" in gs ==> gs["mask"] == Str(c.mask))
    && ("useDhcp" in gs ==> gs["useDhcp"] == Bool(c.useDhcp))
  }

  /** The fields' storage keys, and only those, are written by the setters. */
  const FieldKeys: set<string> := {"networkInterface", "ipAddress", "gateway", "mask", "useDhcp"}

  /** Every key other than the fields' is where it was in `before`. */
  ghost predicate OthersAlone(before: GlobalStorage, after: GlobalStorage) {
    forall k :: k !in FieldKeys ==> (k in after <==> k in before) && (k in before ==> after[k] == before[k])
  }

  /** Each text setter keeps the storage a mirror of the fields and leaves
      every other key alone. */
  lemma InterfaceKeepsMirror(c: Config, gs: GlobalStorage, t: string)
    ensures var o := SetNetworkInterface(c, gs, t); (Mirrors(c, gs) ==> Mirrors(o.cfg, o.gs)) && OthersAlone(gs, o.gs)
  {
  }

  lemma AddressKeepsMirror(c: Config, gs: GlobalStorage, t: string)
    ensures var o := SetIpAddress(c, gs, t); (Mirrors(c, gs) ==> Mirrors(o.cfg, o.gs)) && OthersAlone(gs, o.gs)
  {
  }

  lemma GatewayKeepsMirror(c: Config, gs: GlobalStorage, t: string)
    ensures var o := SetGateway(c, gs, t); (Mirrors(c, gs) ==> Mirrors(o.cfg, o.gs)) && OthersAlone(gs, o.gs)
  {
  }

  lemma MaskKeepsMirror(c: Config, gs: GlobalStorage, t: string)
    ensures var o := SetMask(c, gs, t); (Mirrors(c, gs) ==> Mirrors(o.cfg, o.gs)) && OthersAlone(gs, o.gs)
  {
  }

  /** The setter an edit other than the DHCP toggle reaches keeps the mirror. */
  lemma TextEditKeepsMirror(c: Config, gs: GlobalStorage, e: Edit)
    requires !e.ToggleDhcp?
    ensures var o := ApplyCorrected(c, gs, e); (Mirrors(c, gs) ==> Mirrors(o.cfg, o.gs)) && OthersAlone(gs, o.gs)
  {
    match e
    case EditInterface(t) => InterfaceKeepsMirror(c, gs, t);
    case EditAddress(t) => AddressKeepsMirror(c, gs, t);
    case EditMask(t) => MaskKeepsMirror(c, gs, t);
    case EditGateway(t) => GatewayKeepsMirror(c, gs, t);
  }

  /** A user edit through the page: which setter receives which text. */
  datatype Edit =
    | EditInterface(text: string)
    | EditAddress(text: string)
    | EditMask(text: string)
    | EditGateway(text: string)
    | ToggleDhcp(on: bool)

  /** A user edit as the page delivers it, the DHCP toggle going through the
      setter as written. Every edit keeps the storage a mirror of the fields and
      leaves every other key alone; every edit but the toggle keeps the cached
      readiness in sync, while the toggle leaves the cached flag where it was
      and announces nothing. */
  function Apply(c: Config, gs: GlobalStorage, e: Edit): (o: Outcome)
    ensures Mirrors(c, gs) ==> Mirrors(o.cfg, o.gs)
    ensures OthersAlone(gs, o.gs)
    ensures !e.ToggleDhcp? && ReadyInSync(c) ==> ReadyInSync(o.cfg)
    ensures e.ToggleDhcp? ==> o.cfg.useDhcp == e.on && o.cfg.isReady == c.isReady && o.signals == []
  {
    match e
    case EditInterface(t) => InterfaceKeepsMirror(c, gs, t); SetNetworkInterface(c, gs, t)
    case EditAddress(t) => AddressKeepsMirror(c, gs, t); SetIpAddress(c, gs, t)
    case EditMask(t) => MaskKeepsMirror(c, gs, t); SetMask(c, gs, t)
    case EditGateway(t) => GatewayKeepsMirror(c, gs, t); SetGateway(c, gs, t)
    case ToggleDhcp(on) => SetUseDhcpAsWritten(c, gs, on)
  }

  /** No edit of the sequence is a DHCP toggle. */
  predicate NoDhcpToggle(edits: seq<Edit>) {
    forall i :: 0 <= i < |edits| ==> !edits[i].ToggleDhcp?
  }

  /** Replaying a sequence of edits from a state, as written: the storage stays a
      mirror of the fields, and the cached readiness stays in sync as long as the
      DHCP box is not touched. */
  function ApplyAll(c: Config, gs: GlobalStorage, edits: seq<Edit>): (o: Outcome)
    ensures Mirrors(c, gs) ==> Mirrors(o.cfg, o.gs)
    ensures ReadyInSync(c) && NoDhcpToggle(edits) ==> ReadyInSync(o.cfg)
    decreases |edits|
  {
    if |edits| == 0 then Outcome(c, gs, [])
    else
      var first := Apply(c, gs, edits[0]);
      var rest := ApplyAll(first.cfg, first.gs, edits[1..]);
      assert NoDhcpToggle(edits) ==> NoDhcpToggle(edits[1..]) && !edits[0].ToggleDhcp? by {
        if NoDhcpToggle(edits) {
          assert !edits[0].ToggleDhcp?;
          forall i | 0 <= i < |edits[1..]| ensures !edits[1..][i].ToggleDhcp? {
            assert edits[1..][i] == edits[i + 1];
          }
        }
      }
      Outcome(rest.cfg, rest.gs, first.signals + rest.signals)
  }

  /** As written, typing an interface name and then ticking the DHCP box ends
      with a form that is ready while the cached flag still says it is not,
      and no readyChanged has announced the change. */
  lemma InterfaceThenDhcpEndsStale()
    ensures var o := ApplyAll(Initial, map[], [EditInterface("eth0"), ToggleDhcp(true)]);
            IsReady(o.cfg) && !o.cfg.isReady
  {
    var c1 := Apply(Initial, map[], EditInterface("eth0")).cfg;
    assert c1.networkInterface == "eth0" && ReadyInSync(c1);
    assert !Ipv4Rx("") by {
      assert SplitOn("", {'.'}) == [""];
    }
    assert !c1.isReady;
    var o := ApplyAll(Initial, map[], [EditInterface("eth0"), ToggleDhcp(true)]);
    assert [EditInterface("eth0"), ToggleDhcp(true)][1..] == [ToggleDhcp(true)];
    assert o.cfg == c1.(useDhcp := true);
  }

  /** Corrected: the page's edits with the DHCP toggle announcing its change. */
  function ApplyCorrected(c: Config, gs: GlobalStorage, e: Edit): Outcome {
    match e
    case EditInterface(t) => SetNetworkInterface(c, gs, t)
    case EditAddress(t) => SetIpAddress(c, gs, t)
    case EditMask(t) => SetMask(c, gs, t)
    case EditGateway(t) => SetGateway(c, gs, t)
    case ToggleDhcp(on) => SetUseDhcp(c, gs, on)
  }

  /** Corrected: every edit keeps the storage a mirror of the fields, keeps the
      cached readiness in sync with the fields, and leaves every other key
      alone. */
  lemma {:induction false} EditPreservesInvariants(c: Config, gs: GlobalStorage, e: Edit)
    requires Mirrors(c, gs) && ReadyInSync(c)
    ensures var o := ApplyCorrected(c, gs, e);
            Mirrors(o.cfg, o.gs) && ReadyInSync(o.cfg) && OthersAlone(gs, o.gs)
  {
    if !e.ToggleDhcp? {
      TextEditKeepsMirror(c, gs, e);
    }
  }

  /** Corrected: replaying a sequence of edits from a state. */
  function ApplyAllCorrected(c: Config, gs: GlobalStorage, edits: seq<Edit>): Outcome
    decreases |edits|
  {
    if |edits| == 0 then Outcome(c, gs, [])
    else
      var first := ApplyCorrected(c, gs, edits[0]);
      var rest := ApplyAllCorrected(first.cfg, first.gs, edits[1..]);
      Outcome(rest.cfg, rest.gs, first.signals + rest.signals)
  }

  /** Corrected: any sequence of edits ends in a state whose storage mirrors the
      fields and whose cached readiness is the computed one, so every change of
      readiness has been announced through readyChanged. */
  lemma {:induction false} EditsKeepInvariants(c: Config, gs: GlobalStorage, edits: seq<Edit>)
    requires Mirrors(c, gs) && ReadyInSync(c)
    ensures Mirrors(ApplyAllCorrected(c, gs, edits).cfg, ApplyAllCorrected(c, gs, edits).gs)
    ensures ReadyInSync(ApplyAllCorrected(c, gs, edits).cfg)
    decreases |edits|
  {
    if |edits| > 0 {
      EditPreservesInvariants(c, gs, edits[0]);
      var first := ApplyCorrected(c, gs, edits[0]);
      EditsKeepInvariants(first.cfg, first.gs, edits[1..]);
    }
  }

  /** The program as written and the corrected one agree on every sequence of
      edits that never touches the DHCP box. */
  lemma {:induction false} AsWrittenAgreesWithoutDhcpToggle(c: Config, gs: GlobalStorage, edits: seq<Edit>)
    requires NoDhcpToggle(edits)
    ensures ApplyAll(c, gs, edits) == ApplyAllCorrected(c, gs, edits)
    decreases |edits|
  {
    if |edits| > 0 {
      assert !edits[0].ToggleDhcp?;
      var first := Apply(c, gs, edits[0]);
      assert first == ApplyCorrected(c, gs, edits[0]);
      assert NoDhcpToggle(edits[1..]) by {
        forall i | 0 <= i < |edits[1..]| ensures !edits[1..][i].ToggleDhcp? {
          assert edits[1..][i] == edits[i + 1];
        }
      }
      AsWrittenAgreesWithoutDhcpToggle(first.cfg, first.gs, edits[1..]);
    }
  }

  lemma InitialStateSatisfiesInvariants()
    ensures Mirrors(Initial, map[]) && ReadyInSync(Initial)
  {
  }

  /** Config::finalizeGlobalStorage: store the default mask when none is stored. */
  function FinalizeGlobalStorage(gs: GlobalStorage): (r: GlobalStorage)
    ensures "mask" in r
    ensures "mask" !in gs ==> r["mask"] == Str(DefaultMask)
    ensures r.Keys == gs.Keys + {"mask"}
    ensures forall k :: k in gs ==> r[k] == gs[k]
  {
    if "mask" !in gs then gs["mask" := Str(DefaultMask)] else gs
  }

  /** Finalizing twice is finalizing once, and after finalizing the stored mask
      is valid whenever the field's mask is. */
  lemma FinalizeIdempotent(c: Config, gs: GlobalStorage)
    ensures FinalizeGlobalStorage(FinalizeGlobalStorage(gs)) == FinalizeGlobalStorage(gs)
    ensures Mirrors(c, gs) && MaskRx(c.mask) ==>
              FinalizeGlobalStorage(gs)["mask"].Str? && MaskRx(FinalizeGlobalStorage(gs)["mask"].s)
  {
    DefaultMaskValid();
  }
}

=== FILE: network_page.dfy ===
/** The network page's reactions: the status label next to each field and the
    DHCP check box, which switches the static fields' editability. */
module NetworkPage {

  import opened Store
  import opened NetworkConfig

  /** What a field's status label shows: nothing, the "ok" icon, or an error
      icon with a message. */
  datatype LabelState = Cleared | ShowsOk | ShowsError(message: string)

  /** labelStatus: a non-empty status is shown as an error; with an empty status
      an empty value clears the label and a non-empty value shows "ok". */
  function LabelStatus(value: string, status: string): (l: LabelState)
    ensures l.ShowsError? <==> status != ""
    ensures l.ShowsError? ==> l.message == status
    ensures l == Cleared <==> status == "" && value == ""
    ensures l == ShowsOk <==> status == "" && value != ""
  {
    if status == "" then
      if value == "" then Cleared else ShowsOk
    else ShowsError(status)
  }

  /** onNetworkInterfaceTextEdited: the interface is shown with an empty status. */
  function InterfaceLabel(iface: string): (l: LabelState)
    ensures !l.ShowsError?
    ensures l == ShowsOk <==> iface != ""
  {
    LabelStatus(iface, "")
  }

  /** reportIpAddressStatus, with the status the configuration announces. */
  function AddressLabel(c: Config): LabelState {
    LabelStatus(c.ipAddress, IpAddressStatus(c.ipAddress))
  }

  /** reportMaskStatus */
  function MaskLabel(c: Config): LabelState {
    LabelStatus(c.mask, MaskStatus(c.mask))
  }

  /** reportGatewayStatus */
  function GatewayLabel(c: Config): LabelState {
    LabelStatus(c.gateway, GatewayStatus(c.gateway))
  }

  /** The address label shows "ok" exactly for an accepted address, and an empty
      address is reported as too short rather than cleared, because the status
      is tested before the value. */
  lemma AddressLabelMatchesPattern(c: Config)
    ensures AddressLabel(c) == ShowsOk <==> Ipv4Rx(c.ipAddress)
    ensures AddressLabel(c) != Cleared
    ensures c.ipAddress == "" ==> AddressLabel(c) == ShowsError(AddressTooShort)
  {
    if Ipv4Rx(c.ipAddress) {
      Ipv4RxLength(c.ipAddress);
    }
  }

  /** Clearing the mask field shows "ok": the configuration substitutes the
      default mask, and the label reads the configuration's mask. */
  lemma ClearedMaskShowsOk(c: Config, gs: GlobalStorage)
    requires c.mask != ""
    ensures MaskLabel(SetMask(c, gs, "").cfg) == ShowsOk
  {
    DefaultMaskValid();
  }

  /** The effect of the DHCP check box: the new configuration and storage, the
      signals, and whether the address, mask and gateway boxes are editable. */
  datatype DhcpToggle = DhcpToggle(outcome: Outcome, staticFieldsEditable: bool)

  /** Qt::Unchecked */
  const Unchecked := 0

  /** onUseDhcpChanged: any state but Unchecked (so also the partially checked
      state) selects DHCP; the static fields are editable exactly without DHCP.
      The configuration's setter, as written, announces nothing, so the cached
      readiness is left as it was and readyChanged is not emitted. */
  function OnUseDhcpChanged(c: Config, gs: GlobalStorage, checkState: int): (t: DhcpToggle)
    ensures t.outcome.cfg.useDhcp <==> checkState != Unchecked
    ensures t.staticFieldsEditable <==> checkState == Unchecked
    ensures t.outcome.cfg.isReady == c.isReady && t.outcome.signals == []
    ensures t.outcome.cfg.(useDhcp := c.useDhcp) == c
    ensures "useDhcp" in t.outcome.gs && t.outcome.gs["useDhcp"] == Bool(checkState != Unchecked)
  {
    var o := SetUseDhcpAsWritten(c, gs, checkState != Unchecked);
    DhcpToggle(o, !o.cfg.useDhcp)
  }

  /** With DHCP selected through the check box, the computed readiness depends
      only on the interface name, whatever the (now locked) static fields hold. */
  lemma DhcpReadinessIgnoresStaticFields(c: Config, gs: GlobalStorage, checkState: int,
                                         address: string, gateway: string)
    requires checkState != Unchecked
    ensures var cfg := OnUseDhcpChanged(c, gs, checkState).outcome.cfg;
            IsReady(cfg) == (c.networkInterface != "")
            && IsReady(cfg.(ipAddress := address, gateway := gateway)) == IsReady(cfg)
  {
  }

  /** With an interface named and the address still empty, ticking the box makes
      the form ready, yet no readyChanged is emitted and the cached flag stays
      false. The view step re-reads its Next state only on readyChanged, so the
      Next button stays disabled although a fresh query would enable it. */
  lemma TickingDhcpLeavesNextDisabled()
    ensures var c := Initial.(networkInterface := "eth0");
            var o := OnUseDhcpChanged(c, map[], 2).outcome;
            IsReady(o.cfg) && !o.cfg.isReady && ReadyChanged(true) !in o.signals
  {
    SetUseDhcpAsWrittenLeavesReadyStale();
  }

  /** Corrected: the handler with the setter announcing the change, so that the
      connected readiness check runs and the cached flag follows the fields. */
  function OnUseDhcpChangedCorrected(c: Config, gs: GlobalStorage, checkState: int): (t: DhcpToggle)
    ensures t.outcome.cfg.useDhcp <==> checkState != Unchecked
    ensures t.staticFieldsEditable <==> checkState == Unchecked
    ensures ReadyInSync(t.outcome.cfg)
    ensures checkState != Unchecked ==> t.outcome.cfg.isReady == (c.networkInterface != "")
    ensures "useDhcp" in t.outcome.gs && t.outcome.gs["useDhcp"] == Bool(checkState != Unchecked)
  {
    var o := SetUseDhcp(c, gs, checkState != Unchecked);
    DhcpToggle(o, !o.cfg.useDhcp)
  }
}

=== FILE: raw_image.dfy ===
/** The raw image job: it copies the selected image onto the selected disk with
    bmaptool, follows the tool's output for progress, and maps the exit code to
    the job's result. The tool's exit code and output lines are parameters. */
module RawImage {

  import opened Wrappers
  import opened Text
  import opened Store
  import ImageSelectionPage

  // ---------------------------------------------------------------------------
  // Progress lines

  /** The length of the run of ASCII digits starting at `i`. */
  function DigitRun(s: string, i: nat): (k: nat)
    requires i <= |s|
    ensures i + k <= |s|
    ensures forall j :: i <= j < i + k ==> IsDigit(s[j])
    ensures i + k == |s| || !IsDigit(s[i + k])
    decreases |s| - i
  {
    if i < |s| && IsDigit(s[i]) then 1 + DigitRun(s, i + 1) else 0
  }

  /** `(`, one or more digits, `%)` at position `i`: the pattern `\((\d+)%\)`. */
  predicate PercentAt(s: string, i: nat) {
    i < |s| && s[i] == '(' && var k := DigitRun(s, i + 1);
    k >= 1 && i + k + 2 < |s| && s[i + 1 + k] == '%' && s[i + 2 + k] == ')'
  }

  /** The pattern at `i` with exactly `k` digits, stated without the digit
      run. */
  predicate PercentWithDigits(s: string, i: nat, k: nat) {
    i + k + 2 < |s| && k >= 1 && s[i] == '(' && AllDigits(s[i + 1..i + 1 + k])
    && s[i + 1 + k] == '%' && s[i + 2 + k] == ')'
  }

  /** The pattern matches at `i` exactly when some number of digits fits. */
  lemma PercentAtMeans(s: string, i: nat)
    ensures PercentAt(s, i) <==> exists k :: PercentWithDigits(s, i, k)
  {
    if PercentAt(s, i) {
      assert PercentWithDigits(s, i, DigitRun(s, i + 1));
    }
    if k :| PercentWithDigits(s, i, k) {
      assert forall j :: i + 1 <= j < i + 1 + k ==> IsDigit(s[j]) by {
        forall j | i + 1 <= j < i + 1 + k
          ensures IsDigit(s[j])
        {
          assert s[i + 1..i + 1 + k][j - i - 1] == s[j];
        }
      }
      DigitRunIs(s, i + 1, k);
    }
  }

  /** A run of `k` digits followed by a non-digit has length `k`. */
  lemma {:induction false} DigitRunIs(s: string, i: nat, k: nat)
    requires i + k < |s| && !IsDigit(s[i + k])
    requires forall j :: i <= j < i + k ==> IsDigit(s[j])
    ensures DigitRun(s, i) == k
    decreases k
  {
    if k > 0 {
      DigitRunIs(s, i + 1, k - 1);
    }
  }

  /** The number inside the match at `i`. */
  function PercentValue(s: string, i: nat): nat
    requires PercentAt(s, i)
  {
    DecimalValue(s[i + 1..i + 1 + DigitRun(s, i + 1)])
  }

  /** No match starts in [from, to). */
  predicate NoPercentIn(s: string, from: nat, to: nat) {
    forall j :: from <= j < to ==> !PercentAt(s, j)
  }

  /** The position of the leftmost match at or after `from`. */
  function FirstPercentIndex(s: string, from: nat): (r: Option<nat>)
    ensures r.Some? ==> from <= r.value < |s| && PercentAt(s, r.value) && NoPercentIn(s, from, r.value)
    ensures r.None? ==> NoPercentIn(s, from, |s|)
    decreases |s| - from
  {
    if from >= |s| then None
    else if PercentAt(s, from) then Some(from)
    else FirstPercentIndex(s, from + 1)
  }

  /** re.search: the number of the leftmost match at or after `from`. */
  function FirstPercent(s: string, from: nat): (r: Option<nat>)
    ensures r.None? <==> NoPercentIn(s, from, |s|)
  {
    match FirstPercentIndex(s, from)
    case Some(i) => Some(PercentValue(s, i))
    case None => None
  }

  /** A value is found exactly when the pattern matches somewhere at or after
      `from`, and it is the number at the leftmost such match. */
  lemma FirstPercentIsLeftmost(s: string, from: nat)
    ensures FirstPercent(s, from).Some? <==> exists i :: from <= i < |s| && PercentAt(s, i)
    ensures FirstPercent(s, from).Some? ==>
              exists i :: from <= i < |s| && PercentAt(s, i) && FirstPercent(s, from).value == PercentValue(s, i)
                          && forall j :: from <= j < i ==> !PercentAt(s, j)
  {
    match FirstPercentIndex(s, from)
    case Some(i) =>
    case None =>
  }

  /** A match with no match before it is the leftmost one. */
  lemma {:induction false} FirstPercentIndexIs(s: string, from: nat, i: nat)
    requires from <= i < |s| && PercentAt(s, i) && NoPercentIn(s, from, i)
    ensures FirstPercentIndex(s, from) == Some(i)
    decreases i - from
  {
    if from < i {
      assert !PercentAt(s, from);
      FirstPercentIndexIs(s, from + 1, i);
    }
  }

  /** A line with a percentage in parentheses, and no parenthesis before it,
      reports that percentage. */
  lemma PercentOfLine(prefix: string, n: nat, suffix: string)
    requires FreeOf(prefix, {'('})
    ensures FirstPercent(prefix + "(" + NatToString(n) + "%)" + suffix, 0) == Some(n)
  {
    PercentOfNumeral(prefix + "(" + NatToString(n) + "%)" + suffix, prefix, NatToString(n), suffix);
  }

  /** The same for any run of digits: the line reports its value. */
  lemma PercentOfNumeral(s: string, prefix: string, digits: string, suffix: string)
    requires s == prefix + "(" + digits + "%)" + suffix
    requires FreeOf(prefix, {'('})
    requires 1 <= |digits| && AllDigits(digits)
    ensures FirstPercent(s, 0) == Some(DecimalValue(digits))
  {
    var i := |prefix|;
    PercentMatchAt(s, prefix, digits, suffix);
    NoMatchInPrefix(s, prefix, digits, suffix);
    assert PercentWithDigits(s, i, |digits|) && s[i + 1..i + 1 + |digits|] == digits && NoPercentIn(s, 0, i);
    LeftmostPercentValue(s, i, digits);
  }

  /** The leftmost match, around `digits`, gives their value. */
  lemma LeftmostPercentValue(s: string, i: nat, digits: string)
    requires PercentWithDigits(s, i, |digits|)
    requires s[i + 1..i + 1 + |digits|] == digits
    requires AllDigits(digits)
    requires NoPercentIn(s, 0, i)
    ensures FirstPercent(s, 0) == Some(DecimalValue(digits))
  {
    PercentValueOf(s, i, digits);
    FirstPercentOf(s, i);
  }

  /** The leftmost match gives its own value. */
  lemma FirstPercentOf(s: string, i: nat)
    requires i < |s| && PercentAt(s, i) && NoPercentIn(s, 0, i)
    ensures FirstPercent(s, 0) == Some(PercentValue(s, i))
  {
    FirstPercentIndexIs(s, 0, i);
  }

  /** No match starts inside a prefix without an opening parenthesis. */
  lemma NoMatchInPrefix(s: string, prefix: string, digits: string, suffix: string)
    requires s == prefix + "(" + digits + "%)" + suffix
    requires FreeOf(prefix, {'('})
    ensures NoPercentIn(s, 0, |prefix|)
  {
    forall j | 0 <= j < |prefix|
      ensures !PercentAt(s, j)
    {
      assert s[j] == prefix[j];
    }
  }

  /** `(`, a numeral and `%)` after `prefix` form the pattern around the
      numeral. */
  lemma PercentMatchAt(s: string, prefix: string, digits: string, suffix: string)
    requires s == prefix + "(" + digits + "%)" + suffix
    requires 1 <= |digits| && AllDigits(digits)
    ensures PercentWithDigits(s, |prefix|, |digits|)
    ensures s[|prefix| + 1..|prefix| + 1 + |digits|] == digits
  {
    var i := |prefix|;
    var k := |digits|;
    assert s[i] == '(' && s[i + 1 + k] == '%' && s[i + 2 + k] == ')';
    assert s[i + 1..i + 1 + k] == digits;
  }

  /** The pattern around a given numeral matches, with that numeral's value. */
  lemma PercentValueOf(s: string, i: nat, digits: string)
    requires PercentWithDigits(s, i, |digits|)
    requires s[i + 1..i + 1 + |digits|] == digits
    requires AllDigits(digits)
    ensures i < |s| && PercentAt(s, i)
    ensures PercentValue(s, i) == DecimalValue(digits)
  {
    var k := |digits|;
    var d := s[i + 1..i + 1 + k];
    PercentWithDigitsValue(s, i, k);
    assert PercentValue(s, i) == DecimalValue(d);
    assert d == digits;
  }

  /** The pattern with exactly `k` digits matches, and its value is that of
      those digits. */
  lemma PercentWithDigitsValue(s: string, i: nat, k: nat)
    requires PercentWithDigits(s, i, k)
    ensures PercentAt(s, i)
    ensures PercentValue(s, i) == DecimalValue(s[i + 1..i + 1 + k])
  {
    forall j | i + 1 <= j < i + 1 + k
      ensures IsDigit(s[j])
    {
      assert s[i + 1..i + 1 + k][j - i - 1] == s[j];
    }
    DigitRunIs(s, i + 1, k);
  }

  /** line.rstrip("\n"). */
  function StripNewlines(line: string): (r: string)
    ensures r <= line
    ensures r == "" || r[|r| - 1] != '\n'
    ensures forall j :: |r| <= j < |line| ==> line[j] == '\n'
  {
    if |line| > 0 && line[|line| - 1] == '\n' then StripNewlines(line[..|line| - 1]) else line
  }

  /** What the callback has kept: the output lines, and the last progress set,
      in percent (`setprogress(N / 100.0)`). */
  datatype CopyLog = CopyLog(lines: seq<string>, progress: Option<nat>)

  /** output_cb: an empty line is ignored; any other is kept, and a percentage
      in it becomes the progress. */
  function OutputCallback(log: CopyLog, line: string): (r: CopyLog)
    ensures StripNewlines(line) == "" ==> r == log
    ensures StripNewlines(line) != "" ==> r.lines == log.lines + [StripNewlines(line)]
    ensures r.progress == (if StripNewlines(line) != "" && FirstPercent(StripNewlines(line), 0).Some?
                           then FirstPercent(StripNewlines(line), 0) else log.progress)
  {
    var stripped := StripNewlines(line);
    if stripped == "" then log
    else
      match FirstPercent(stripped, 0)
      case Some(n) => CopyLog(log.lines + [stripped], Some(n))
      case None => CopyLog(log.lines + [stripped], log.progress)
  }

  /** The callback applied to each output line in turn. */
  function Follow(log: CopyLog, output: seq<string>): (r: CopyLog)
    ensures |r.lines| <= |log.lines| + |output|
    decreases |output|
  {
    if |output| == 0 then log else Follow(OutputCallback(log, output[0]), output[1..])
  }

  /** The non-empty output lines without their line feeds. */
  function KeptLines(output: seq<string>): (kept: seq<string>)
    ensures |kept| <= |output|
    ensures forall l :: l in kept ==> l != ""
  {
    if |output| == 0 then []
    else (if StripNewlines(output[0]) == "" then [] else [StripNewlines(output[0])]) + KeptLines(output[1..])
  }

  /** The percentage of the last line that has one. */
  function LastPercent(output: seq<string>): Option<nat> {
    if |output| == 0 then None
    else
      var p := FirstPercent(StripNewlines(output[|output| - 1]), 0);
      if p.Some? then p else LastPercent(output[..|output| - 1])
  }

  /** Following the output keeps every non-empty line in order, and leaves the
      progress of the last line that reports one (or the earlier progress if
      none does). */
  lemma FollowKeepsLines(log: CopyLog, output: seq<string>)
    ensures Follow(log, output).lines == log.lines + KeptLines(output)
    ensures Follow(log, output).progress == (if LastPercent(output).Some? then LastPercent(output) else log.progress)
  {
    FollowLines(log, output);
    FollowProgress(log, output);
  }

  /** The lines half of FollowKeepsLines. */
  lemma {:induction false} FollowLines(log: CopyLog, output: seq<string>)
    ensures Follow(log, output).lines == log.lines + KeptLines(output)
    decreases |output|
  {
    if |output| > 0 {
      var next := OutputCallback(log, output[0]);
      var head := if StripNewlines(output[0]) == "" then [] else [StripNewlines(output[0])];
      assert Follow(log, output).lines == log.lines + KeptLines(output) by {
        assert next.lines == log.lines + head;
        assert KeptLines(output) == head + KeptLines(output[1..]);
        FollowLines(next, output[1..]);
        assert Follow(log, output) == Follow(next, output[1..]);
        assert (log.lines + head) + KeptLines(output[1..]) == log.lines + (head + KeptLines(output[1..]));
      }
    }
  }

  /** The progress half of FollowKeepsLines. */
  lemma {:induction false} FollowProgress(log: CopyLog, output: seq<string>)
    ensures Follow(log, output).progress == (if LastPercent(output).Some? then LastPercent(output) else log.progress)
    decreases |output|
  {
    if |output| > 0 {
      var next := OutputCallback(log, output[0]);
      assert Follow(log, output) == Follow(next, output[1..]);
      FollowProgress(next, output[1..]);
      LastPercentCons(output);
    }
  }

  /** The last percentage of a sequence of lines is that of its tail, if any,
      else that of its first line. */
  lemma {:induction false} LastPercentCons(output: seq<string>)
    requires |output| > 0
    ensures var first := FirstPercent(StripNewlines(output[0]), 0);
            LastPercent(output) == (if LastPercent(output[1..]).Some? then LastPercent(output[1..]) else first)
    decreases |output|
  {
    if |output| > 1 {
      var init := output[..|output| - 1];
      assert init[0] == output[0];
      assert output[1..][..|output[1..]| - 1] == init[1..];
      assert output[1..][|output[1..]| - 1] == output[|output| - 1];
      LastPercentCons(init);
    } else {
      assert output[..0] == [];
    }
  }

  /** A line of nothing but line feeds changes nothing. */
  lemma BlankLineIsIgnored(log: CopyLog, n: nat)
    ensures OutputCallback(log, seq(n, _ => '\n')) == log
  {
  }

  // ---------------------------------------------------------------------------
  // The job

  /** The bmaptool command: `--nobmap` only for the debian flavour, then the
      image and the target. */
  function BmaptoolArgs(image: string, target: string, debian: bool): (args: seq<string>)
    ensures |args| == if debian then 6 else 5
    ensures args[..3] == ["bmaptool", "--debug", "copy"]
    ensures args[|args| - 2..] == [image, target]
    ensures debian <==> args[3] == "--nobmap" && |args| == 6
  {
    ["bmaptool", "--debug", "copy"] + (if debian then ["--nobmap"] else []) + [image, target]
  }

  /** The image: the first selected file. The stored value is indexed as Python
      would; a string gives its first character, and anything else, or an empty
      selection, raises. */
  function SelectedImage(gs: GlobalStorage): (image: Option<string>)
    ensures Lookup(gs, "imageselection.selectedFiles").Some?
            && Lookup(gs, "imageselection.selectedFiles").value.StrList?
            && |Lookup(gs, "imageselection.selectedFiles").value.items| > 0
            ==> image == Some(Lookup(gs, "imageselection.selectedFiles").value.items[0])
    ensures Lookup(gs, "imageselection.selectedFiles").None? ==> image.None?
  {
    match Lookup(gs, "imageselection.selectedFiles")
    case Some(StrList(items)) => if |items| > 0 then Some(items[0]) else None
    case Some(Str(s)) => if |s| > 0 then Some([s[0]]) else None
    case _ => None
  }

  /** What bmaptool did: its exit code and output lines. */
  datatype Process = Process(exitCode: int, output: seq<string>)

  datatype CopyResult =
    | Copied
    | CopyFailed(title: string, message: string)
    | Crash

  const FailureTitle := "SEAPATH installation failed"
  const FailurePrefix := "Cannot copy the SEAPATH image on the selected device, exit code "

  /** The job's result for bmaptool's exit code. */
  function ResultOf(exitCode: int): (r: CopyResult)
    ensures r.Copied? <==> exitCode == 0
    ensures r.CopyFailed? ==> r.title == FailureTitle && r.message == FailurePrefix + IntToString(exitCode)
    ensures !r.Crash?
  {
    if exitCode != 0 then CopyFailed(FailureTitle, FailurePrefix + IntToString(exitCode)) else Copied
  }

  /** The exit code printed in a failure message, read back. */
  function ReadExitCode(s: string): int
    requires |s| >= 1 && (AllDigits(s) || (s[0] == '-' && AllDigits(s[1..])))
  {
    if s[0] == '-' then -(DecimalValue(s[1..]) as int) else DecimalValue(s)
  }

  /** The failure message carries the exit code: reading the text after the
      prefix gives the code back. */
  lemma FailureMessageCarriesCode(exitCode: int)
    requires exitCode != 0
    ensures var m := ResultOf(exitCode).message;
            FailurePrefix <= m && ReadExitCode(m[|FailurePrefix|..]) == exitCode
  {
    var m := ResultOf(exitCode).message;
    assert m[|FailurePrefix|..] == IntToString(exitCode);
    if exitCode < 0 {
      assert IntToString(exitCode)[1..] == NatToString(-exitCode);
    }
  }

  /** run: the job's result, the command it ran (if it got that far) and the
      callback's log. `partitionsReadable` says whether evaluating the
      partitions entry, which is read and then ignored, succeeds. */
  function Run(gs: GlobalStorage, partitionsReadable: bool, proc: Process, log: CopyLog)
    : (r: (CopyResult, Option<seq<string>>, CopyLog))
    ensures r.1.None? ==> r.0 == Crash && r.2 == log
  {
    match SelectedImage(gs)
    case None => (Crash, None, log)
    case Some(image) =>
      if !partitionsReadable then (Crash, None, log)
      else
        match Lookup(gs, "selectedDisk")
        case Some(Str(target)) =>
          var args := BmaptoolArgs(image, target, HoldsString(gs, "seapathFlavor", "debian"));
          (ResultOf(proc.exitCode), Some(args), Follow(log, proc.output))
        // the target is passed to the process as a string argument
        case _ => (Crash, None, log)
  }

  /** The copy targets the selected disk, whatever the partitions entry holds,
      and the image is the first selected file. */
  lemma CopyTargetsSelectedDisk(gs: GlobalStorage, proc: Process, log: CopyLog, image: string, disk: string,
                                other: Value)
    requires Lookup(gs, "imageselection.selectedFiles").Some?
             && Lookup(gs, "imageselection.selectedFiles").value.StrList?
    requires |Lookup(gs, "imageselection.selectedFiles").value.items| > 0
             && Lookup(gs, "imageselection.selectedFiles").value.items[0] == image
    requires Lookup(gs, "selectedDisk") == Some(Str(disk))
    ensures var r := Run(gs, true, proc, log);
            r.1.Some? && r.1.value[|r.1.value| - 2..] == [image, disk]
    ensures Run(gs["partitions" := other], true, proc, log) == Run(gs, true, proc, log)
  {
    var g := gs["partitions" := other];
    assert Lookup(g, "imageselection.selectedFiles") == Lookup(gs, "imageselection.selectedFiles");
    assert Lookup(g, "selectedDisk") == Lookup(gs, "selectedDisk");
    assert Lookup(g, "seapathFlavor") == Lookup(gs, "seapathFlavor");
  }

  /** Once the command runs, a failure is reported exactly for a non-zero exit
      code, and the log holds every non-empty output line. */
  lemma CopyOutcome(gs: GlobalStorage, proc: Process, log: CopyLog)
    requires Run(gs, true, proc, log).1.Some?
    ensures Run(gs, true, proc, log).0.CopyFailed? <==> proc.exitCode != 0
    ensures Run(gs, true, proc, log).2.lines == log.lines + KeptLines(proc.output)
  {
    FollowKeepsLines(log, proc.output);
  }

  /** The image checked on the image selection page is the one copied, with the
      flavour the page derived from its name deciding `--nobmap`. */
  lemma CheckedImageIsCopied(items: seq<ImageSelectionPage.ImageItem>, k: nat, gs: GlobalStorage, disk: string,
                             proc: Process, log: CopyLog)
    requires k < |items| && items[k].checked
    requires Lookup(gs, "selectedDisk") == Some(Str(disk))
    ensures var g := ImageSelectionPage.OnItemChanged(items, k, 0, gs).gs;
            Run(g, true, proc, log).1
            == Some(BmaptoolArgs(items[k].path, disk, ImageSelectionPage.Flavor(items[k].name) == "debian"))
  {
    ImageSelectionPage.CheckingSelectsOneImage(items, k, gs);
    var g := ImageSelectionPage.OnItemChanged(items, k, 0, gs).gs;
    assert Lookup(g, "selectedDisk") == Some(Str(disk));
    assert Lookup(g, "imageselection.selectedFiles") == Some(StrList([items[k].path]));
    assert Lookup(g, "seapathFlavor") == Some(Str(ImageSelectionPage.Flavor(items[k].name)));
  }
}

=== FILE: ssh_key_job.dfy ===
/** The SSH key installation job: each selected public key file is appended, in
    order, to the administrator's authorized_keys file under the target's home
    mount point; the first file that cannot be read or written ends the job
    with an error. The file system is a value: the files' contents, the files
    that refuse to be opened for reading, the paths that can be opened for
    appending, the paths whose writes fail, and the directories that hold
    entries. */
module SshKeyJob {

  import opened Wrappers
  import opened Text
  import opened Store
  import SshKeyPage

  datatype Fs = Fs(files: map<string, string>, locked: set<string>, appendable: set<string>,
                   failingWrites: set<string>, populated: set<string>)

  /** QFile::open(ReadOnly) succeeds. */
  predicate CanRead(fs: Fs, path: string) {
    path in fs.files && path !in fs.locked
  }

  /** The content of a file, empty when it does not exist yet. */
  function ContentOf(fs: Fs, path: string): string {
    if path in fs.files then fs.files[path] else ""
  }

  /** Writing `text` at the end of the file at `path`. */
  function Append(fs: Fs, path: string, text: string): (r: Fs)
    ensures ContentOf(r, path) == ContentOf(fs, path) + text
    ensures forall p :: p != path ==> ContentOf(r, p) == ContentOf(fs, p) && (CanRead(r, p) <==> CanRead(fs, p))
    ensures r.appendable == fs.appendable && r.failingWrites == fs.failingWrites
  {
    fs.(files := fs.files[path := ContentOf(fs, path) + text])
  }

  datatype JobResult = Ok | JobError(message: string, details: string)

  const OpenFailed := "Failed to open SSH key file."
  const WriteFailed := "Failed to write SSH key file."

  function CannotRead(path: string): string {
    "Could not open SSH key file " + path + " for reading."
  }

  function CannotOpenForWriting(path: string): string {
    "Could not open SSH key file " + path + " for writing."
  }

  function WriteError(path: string): string {
    "Error occurred while writing SSH key file " + path + "."
  }

  /** The copy loop of exec, key by key: open the key, open the destination for
      appending, append the key's whole content, and check the write. A write
      error is reported without modelling what reached the file. */
  function CopyKeys(fs: Fs, keys: seq<string>, dest: string): (r: (Fs, JobResult))
    ensures r.0.appendable == fs.appendable && r.0.failingWrites == fs.failingWrites
    ensures |keys| == 0 ==> r == (fs, Ok)
    decreases |keys|
  {
    if |keys| == 0 then (fs, Ok)
    else
      var key := keys[0];
      if !CanRead(fs, key) then (fs, JobError(OpenFailed, CannotRead(key)))
      else if dest !in fs.appendable then (fs, JobError(WriteFailed, CannotOpenForWriting(dest)))
      else if dest in fs.failingWrites then (fs, JobError(WriteFailed, WriteError(dest)))
      else CopyKeys(Append(fs, dest, fs.files[key]), keys[1..], dest)
  }

  /** The contents of the keys, concatenated in order. */
  function Concatenation(fs: Fs, keys: seq<string>): string
    requires forall k :: k in keys ==> k in fs.files
  {
    if |keys| == 0 then "" else fs.files[keys[0]] + Concatenation(fs, keys[1..])
  }

  /** The copy succeeds exactly when there is no key, or every key can be read
      and the destination accepts appending without error; then the
      destination has gained every key's content in selection order and no
      other file has changed. */
  lemma CopyKeysSucceeds(fs: Fs, keys: seq<string>, dest: string)
    requires dest !in keys
    ensures CopyKeys(fs, keys, dest).1 == Ok <==>
            |keys| == 0 || ((forall k :: k in keys ==> CanRead(fs, k))
                            && dest in fs.appendable && dest !in fs.failingWrites)
    ensures CopyKeys(fs, keys, dest).1 == Ok ==>
              (forall k :: k in keys ==> k in fs.files)
              && ContentOf(CopyKeys(fs, keys, dest).0, dest) == ContentOf(fs, dest) + Concatenation(fs, keys)
    ensures forall p :: p != dest ==> ContentOf(CopyKeys(fs, keys, dest).0, p) == ContentOf(fs, p)
  {
    CopyKeysOkIff(fs, keys, dest);
    if CopyKeys(fs, keys, dest).1 == Ok {
      CopyKeysContent(fs, keys, dest);
    }
    CopyKeysKeepsOthers(fs, keys, dest);
  }

  /** The success condition of the copy. */
  lemma {:induction false} CopyKeysOkIff(fs: Fs, keys: seq<string>, dest: string)
    requires dest !in keys
    ensures CopyKeys(fs, keys, dest).1 == Ok <==>
            |keys| == 0 || ((forall k :: k in keys ==> CanRead(fs, k))
                            && dest in fs.appendable && dest !in fs.failingWrites)
    decreases |keys|
  {
    if |keys| > 0 {
      var key := keys[0];
      if CanRead(fs, key) && dest in fs.appendable && dest !in fs.failingWrites {
        var next := Append(fs, dest, fs.files[key]);
        assert dest !in keys[1..];
        CopyKeysOkIff(next, keys[1..], dest);
        assert CopyKeys(fs, keys, dest) == CopyKeys(next, keys[1..], dest);
        assert forall k :: k in keys[1..] ==> (CanRead(next, k) <==> CanRead(fs, k)) by {
          forall k | k in keys[1..] ensures k != dest { }
        }
        assert (forall k :: k in keys ==> CanRead(fs, k))
               <==> (forall k :: k in keys[1..] ==> CanRead(fs, k)) by {
          assert keys == [key] + keys[1..];
        }
      }
    }
  }

  /** A successful copy appends the keys' contents in order. */
  lemma {:induction false} CopyKeysContent(fs: Fs, keys: seq<string>, dest: string)
    requires dest !in keys
    requires CopyKeys(fs, keys, dest).1 == Ok
    ensures forall k :: k in keys ==> k in fs.files
    ensures ContentOf(CopyKeys(fs, keys, dest).0, dest) == ContentOf(fs, dest) + Concatenation(fs, keys)
    decreases |keys|
  {
    if |keys| > 0 {
      var key := keys[0];
      assert CanRead(fs, key) && dest in fs.appendable && dest !in fs.failingWrites;
      var next := Append(fs, dest, fs.files[key]);
      assert dest !in keys[1..];
      assert CopyKeys(fs, keys, dest) == CopyKeys(next, keys[1..], dest);
      CopyKeysContent(next, keys[1..], dest);
      assert forall k :: k in keys[1..] ==> k in fs.files;
      assert Concatenation(next, keys[1..]) == Concatenation(fs, keys[1..]) by {
        forall k | k in keys[1..] ensures k in fs.files && next.files[k] == fs.files[k] {
          assert k != dest;
          assert CanRead(next, k) <==> CanRead(fs, k);
          assert ContentOf(next, k) == ContentOf(fs, k);
        }
        ConcatenationAgrees(fs, next, keys[1..]);
      }
      assert Concatenation(fs, keys) == fs.files[key] + Concatenation(fs, keys[1..]);
      assert keys == [key] + keys[1..];
    }
  }

  /** The copy writes no file other than the destination. */
  lemma {:induction false} CopyKeysKeepsOthers(fs: Fs, keys: seq<string>, dest: string)
    ensures forall p :: p != dest ==> ContentOf(CopyKeys(fs, keys, dest).0, p) == ContentOf(fs, p)
    decreases |keys|
  {
    if |keys| > 0 {
      var key := keys[0];
      if CanRead(fs, key) && dest in fs.appendable && dest !in fs.failingWrites {
        var next := Append(fs, dest, fs.files[key]);
        CopyKeysKeepsOthers(next, keys[1..], dest);
      }
    }
  }

  /** Two file systems that agree on the keys' contents concatenate them alike. */
  lemma {:induction false} ConcatenationAgrees(a: Fs, b: Fs, keys: seq<string>)
    requires forall k :: k in keys ==> k in a.files && k in b.files && a.files[k] == b.files[k]
    ensures Concatenation(a, keys) == Concatenation(b, keys)
    decreases |keys|
  {
    if |keys| > 0 {
      ConcatenationAgrees(a, b, keys[1..]);
    }
  }

  /** A key that cannot be read, preceded only by readable keys, stops the copy
      with an error naming it (provided the destination accepts the earlier
      keys). */
  lemma {:induction false} FirstUnreadableKeyIsReported(fs: Fs, keys: seq<string>, dest: string, i: nat)
    requires i < |keys| && dest !in keys
    requires forall j :: 0 <= j < i ==> CanRead(fs, keys[j])
    requires !CanRead(fs, keys[i])
    requires i > 0 ==> dest in fs.appendable && dest !in fs.failingWrites
    ensures CopyKeys(fs, keys, dest).1 == JobError(OpenFailed, CannotRead(keys[i]))
    decreases i
  {
    if i > 0 {
      var next := Append(fs, dest, fs.files[keys[0]]);
      assert forall j :: 0 <= j < i - 1 ==> CanRead(next, keys[1..][j]) by {
        forall j | 0 <= j < i - 1 ensures CanRead(next, keys[1..][j]) {
          assert keys[1..][j] == keys[j + 1] && keys[j + 1] in keys;
        }
      }
      assert keys[1..][i - 1] == keys[i] && keys[i] in keys;
      assert dest !in keys[1..];
      FirstUnreadableKeyIsReported(next, keys[1..], dest, i - 1);
    }
  }

  /** exec's loop, one key at a time; the result is that of the copy above. */
  method CopySelectedKeys(fs: Fs, keys: seq<string>, dest: string) returns (after: Fs, result: JobResult)
    ensures (after, result) == CopyKeys(fs, keys, dest)
  {
    var cur := fs;
    var i := 0;
    while i < |keys|
      invariant 0 <= i <= |keys|
      invariant CopyKeys(cur, keys[i..], dest) == CopyKeys(fs, keys, dest)
    {
      var key := keys[i];
      assert keys[i..][0] == key && keys[i..][1..] == keys[i + 1..];
      if !CanRead(cur, key) {
        return cur, JobError(OpenFailed, CannotRead(key));
      }
      if dest !in cur.appendable {
        return cur, JobError(WriteFailed, CannotOpenForWriting(dest));
      }
      if dest in cur.failingWrites {
        return cur, JobError(WriteFailed, WriteError(dest));
      }
      cur := Append(cur, dest, cur.files[key]);
      i := i + 1;
    }
    assert keys[i..] == [];
    return cur, Ok;
  }

  /** QDir::absoluteFilePath for a plain relative name; an empty directory path
      is the working directory. Paths are not normalised. */
  function AbsoluteFilePath(cwd: string, dir: string, name: string): (p: string)
    ensures EndsWith(p, "/" + name)
    ensures StartsWith(dir, "/") ==> StartsWith(p, dir)
    ensures StartsWith(dir, "/") && !EndsWith(dir, "/") ==> p == dir + "/" + name
    ensures dir == "" ==> StartsWith(p, cwd)
  {
    var base := if StartsWith(dir, "/") then dir else if dir == "" then cwd else cwd + "/" + dir;
    var tail := if EndsWith(base, "/") then name else "/" + name;
    var p := base + tail;
    assert p[|p| - |"/" + name|..] == "/" + name by {
      if EndsWith(base, "/") {
        assert p == base[..|base| - 1] + ("/" + name);
      } else {
        assert p == base + ("/" + name);
      }
    }
    assert StartsWith(p, base) by {
      assert p[..|base|] == base;
    }
    assert !EndsWith(base, "/") ==> p == base + "/" + name;
    p
  }

  /** The administrator's authorized_keys file, relative to the home mount point. */
  const KeysPath: string := "/" + "admin/.ssh" + "/authorized_keys"

  /** The authorized_keys file under the home mount point: for an absolute
      mount point the path lies under it, and exactly one slash joins them when
      the mount point has no trailing one. */
  function Destination(cwd: string, home: string): (p: string)
    ensures EndsWith(p, KeysPath)
    ensures StartsWith(home, "/") ==> StartsWith(p, home)
    ensures StartsWith(home, "/") && !EndsWith(home, "/") ==> p == home + KeysPath
    ensures home == "" ==> StartsWith(p, cwd)
  {
    var d := AbsoluteFilePath(cwd, home, "admin/.ssh");
    ExtendedPath(cwd, home, "admin/.ssh", "/authorized_keys", KeysPath);
    d + "/authorized_keys"
  }

  /** A path built inside `dir` and then extended by `rest` still lies under
      `dir` and ends with `whole`, the name followed by the extension. */
  lemma ExtendedPath(cwd: string, dir: string, name: string, rest: string, whole: string)
    requires "/" + name + rest == whole
    ensures var p := AbsoluteFilePath(cwd, dir, name) + rest;
            EndsWith(p, whole)
            && (StartsWith(dir, "/") ==> StartsWith(p, dir))
            && (StartsWith(dir, "/") && !EndsWith(dir, "/") ==> p == dir + whole)
            && (dir == "" ==> StartsWith(p, cwd))
  {
    var d := AbsoluteFilePath(cwd, dir, name);
    var p := d + rest;
    assert EndsWith(p, whole) by {
      EndsWithAppend(d, "/" + name, rest);
    }
    assert StartsWith(dir, "/") ==> StartsWith(p, dir) by {
      if StartsWith(dir, "/") {
        assert p[..|dir|] == d[..|dir|];
      }
    }
    assert StartsWith(dir, "/") && !EndsWith(dir, "/") ==> p == dir + whole by {
      if StartsWith(dir, "/") && !EndsWith(dir, "/") {
        assert d == dir + "/" + name;
      }
    }
    assert dir == "" ==> StartsWith(p, cwd) by {
      if dir == "" {
        assert p[..|cwd|] == d[..|cwd|];
      }
    }
  }

  /** The job stands down when asked to skip a missing root: the home mount
      point holds no entries (as for a directory that does not exist) or is the
      file-system root. */
  function Skips(fs: Fs, cwd: string, home: string, skipIfNoRoot: bool): (skip: bool)
    ensures skip ==> skipIfNoRoot
    ensures skipIfNoRoot && home == "/" ==> skip
    ensures StartsWith(home, "/") ==> (skip <==> skipIfNoRoot && (home !in fs.populated || home == "/"))
  {
    var absolute := if StartsWith(home, "/") then home else if home == "" then cwd else cwd + "/" + home;
    skipIfNoRoot && (absolute !in fs.populated || home == "/")
  }

  /** The keys as the job reads them: the stored selection converted to text and
      split at commas. A stored list of two or more paths converts to the empty
      text, so such a selection yields no key at all. */
  function SelectedKeysAsWritten(gs: GlobalStorage): (keys: seq<string>)
    ensures forall k :: k in keys ==> k != "" && FreeOf(k, {','})
  {
    var parts := SplitOn(ValueToString(Lookup(gs, SshKeyPage.SelectedKeysKey)), {','});
    var keys := NonEmpty(parts);
    assert forall k :: k in keys ==> k in parts;
    keys
  }

  /** The keys as evidently intended: the stored list itself, or, for a stored
      text, its comma-separated parts; empty entries are skipped either way. */
  function SelectedKeys(gs: GlobalStorage): (keys: seq<string>)
    ensures forall k :: k in keys ==> k != ""
    ensures SshKeyPage.SelectedKeysKey !in gs ==> keys == []
    ensures SshKeyPage.SelectedKeysKey in gs && gs[SshKeyPage.SelectedKeysKey].StrList? ==>
              forall k :: k in keys <==> k in gs[SshKeyPage.SelectedKeysKey].items && k != ""
  {
    match Lookup(gs, SshKeyPage.SelectedKeysKey)
    case Some(StrList(items)) => NonEmpty(items)
    case Some(Str(s)) => Tokens(s, {','})
    case _ => []
  }

  /** Two keys checked on the page reach the job as no key at all under the
      conversion as written, while the intended reading passes both on. */
  lemma {:induction false} TwoSelectedKeysAreDropped(a: string, b: string)
    requires a != "" && b != ""
    ensures SelectedKeysAsWritten(map[SshKeyPage.SelectedKeysKey := StrList([a, b])]) == []
    ensures SelectedKeys(map[SshKeyPage.SelectedKeysKey := StrList([a, b])]) == [a, b]
  {
    var gs := map[SshKeyPage.SelectedKeysKey := StrList([a, b])];
    assert ValueToString(Lookup(gs, SshKeyPage.SelectedKeysKey)) == "";
    NonEmptyKeepsFilled([a, b]);
  }

  /** The page hands over exactly the checked keys' paths, in list order: what
      the intended reading returns after a check-box change is the page's
      list of checked paths. */
  lemma {:induction false} PageSelectionReachesJob(items: seq<SshKeyPage.KeyItem>, gs: GlobalStorage)
    requires forall i :: 0 <= i < |items| ==> items[i].path != ""
    ensures SelectedKeys(SshKeyPage.OnItemChanged(items, 0, gs).gs) == SshKeyPage.CheckedPaths(items)
  {
    var paths := SshKeyPage.CheckedPaths(items);
    NonEmptyKeepsFilled(paths);
  }

  /** Dropping empty entries leaves a list without any alone. */
  lemma {:induction false} NonEmptyKeepsFilled(xs: seq<string>)
    requires forall x :: x in xs ==> x != ""
    ensures NonEmpty(xs) == xs
    decreases |xs|
  {
    if |xs| > 0 {
      assert forall x :: x in xs[1..] ==> x in xs;
      NonEmptyKeepsFilled(xs[1..]);
      assert xs[0] in xs;
      assert xs == [xs[0]] + xs[1..];
    }
  }

  /** SshKeySelectionJob::exec, with the key reading as written. */
  method ExecAsWritten(gs: GlobalStorage, fs: Fs, cwd: string, skipIfNoRoot: bool) returns (after: Fs, result: JobResult)
    ensures Skips(fs, cwd, ValueToString(Lookup(gs, "homeMountPoint")), skipIfNoRoot) ==> after == fs && result == Ok
    ensures !Skips(fs, cwd, ValueToString(Lookup(gs, "homeMountPoint")), skipIfNoRoot) ==>
              (after, result) == CopyKeys(fs, SelectedKeysAsWritten(gs), Destination(cwd, ValueToString(Lookup(gs, "homeMountPoint"))))
  {
    var home := ValueToString(Lookup(gs, "homeMountPoint"));
    var keys := SelectedKeysAsWritten(gs);
    if Skips(fs, cwd, home, skipIfNoRoot) {
      return fs, Ok;
    }
    after, result := CopySelectedKeys(fs, keys, Destination(cwd, home));
  }

  /** SshKeySelectionJob::exec with the intended key reading. */
  method Exec(gs: GlobalStorage, fs: Fs, cwd: string, skipIfNoRoot: bool) returns (after: Fs, result: JobResult)
    ensures Skips(fs, cwd, ValueToString(Lookup(gs, "homeMountPoint")), skipIfNoRoot) ==> after == fs && result == Ok
    ensures !Skips(fs, cwd, ValueToString(Lookup(gs, "homeMountPoint")), skipIfNoRoot) ==>
              (after, result) == CopyKeys(fs, SelectedKeys(gs), Destination(cwd, ValueToString(Lookup(gs, "homeMountPoint"))))
  {
    var home := ValueToString(Lookup(gs, "homeMountPoint"));
    var keys := SelectedKeys(gs);
    if Skips(fs, cwd, home, skipIfNoRoot) {
      return fs, Ok;
    }
    after, result := CopySelectedKeys(fs, keys, Destination(cwd, home));
  }

  /** Under the reading as written, a selection of two readable keys installs
      nothing and the job still reports success. */
  lemma {:induction false} TwoKeysInstallNothing(fs: Fs, cwd: string, home: string, a: string, b: string)
    requires a != "" && b != ""
    ensures var gs := map[SshKeyPage.SelectedKeysKey := StrList([a, b]), "homeMountPoint" := Str(home)];
            CopyKeys(fs, SelectedKeysAsWritten(gs), Destination(cwd, home)) == (fs, Ok)
  {
    var gs := map[SshKeyPage.SelectedKeysKey := StrList([a, b]), "homeMountPoint" := Str(home)];
    assert ValueToString(Lookup(gs, SshKeyPage.SelectedKeysKey)) == "";
  }
}

=== FILE: ssh_key_page.dfy ===
/** The SSH key selection page: the scan of the key directory for public keys,
    each labelled with the comment of its key line when there is one, and the
    hand-over of the checked keys' paths through global storage. */
module SshKeyPage {

  import opened Wrappers
  import opened Text
  import opened Store

  /** The directory scanned for public keys. */
  const KeyDir := "/seapath/ssh"

  /** The global-storage key the selection is written to. */
  const SelectedKeysKey := "sshkeyselection.selectedKeys"

  /** A file of the key directory: its content, or None when it cannot be
      opened. */
  datatype KeyFile = KeyFile(fileName: string, content: Option<string>)

  /** The listing's filters: the name filter "*.pub", which QDir applies without
      regard to case, and QDir::Files without QDir::Hidden, which skips
      dot-files. */
  predicate IsPublicKeyFile(fileName: string) {
    !IsDotFile(fileName) && EndsWith(ToLower(fileName), ".pub")
  }

  /** QFile::readLine: the text up to and including the first line feed, or the
      whole text when there is none. */
  function ReadLine(content: string): (line: string)
    ensures StartsWith(content, line)
    ensures forall k :: 0 <= k < |line| - 1 ==> line[k] != '\n'
    ensures line == content || (|line| > 0 && line[|line| - 1] == '\n')
  {
    if |content| == 0 then ""
    else if content[0] == '\n' then "\n"
    else [content[0]] + ReadLine(content[1..])
  }

  /** The label of a key: the third space-separated field (the comment) of the
      trimmed first line, or the file name when the line has fewer fields. */
  function KeyLabel(fileName: string, content: string): (name: string)
    ensures name == fileName || (name != "" && FreeOf(name, {' '}))
  {
    var parts := SplitOn(Trim(ReadLine(content)), {' '});
    var fields := NonEmpty(parts);
    if |fields| >= 3 then
      assert fields[2] in parts;
      fields[2]
    else fileName
  }

  /** A key line "type key comment" yields its comment, however many spaces
      separate the fields and whatever follows on later lines. */
  lemma {:induction false} CommentIsLabel(fileName: string, kind: string, key: string, comment: string,
                                          gap: string, rest: string)
    requires kind != "" && key != "" && comment != ""
    requires FreeOf(kind, Whitespace) && FreeOf(key, Whitespace) && FreeOf(comment, Whitespace)
    requires |gap| >= 1 && forall k :: 0 <= k < |gap| ==> gap[k] == ' '
    ensures KeyLabel(fileName, kind + gap + (key + " " + comment) + "\n" + rest) == comment
  {
    var tail := key + " " + comment;
    FirstLineTrimmed(kind, gap, tail, rest);
    SpacesCollapse(kind, gap, tail);
    ThreeFields(kind, key, comment);
    LabelOfLine(fileName, kind + gap + tail + "\n" + rest, kind + gap + tail);
  }

  /** The label is the third token of the trimmed first line. */
  lemma LabelOfLine(fileName: string, content: string, line: string)
    requires Trim(ReadLine(content)) == line
    requires |Tokens(line, {' '})| >= 3
    ensures KeyLabel(fileName, content) == Tokens(line, {' '})[2]
  {
  }

  /** The trimmed first line of such a key file is the key line itself. */
  lemma {:induction false} FirstLineTrimmed(kind: string, gap: string, tail: string, rest: string)
    requires kind != "" && tail != ""
    requires FreeOf(kind, Whitespace) && tail[|tail| - 1] !in Whitespace && FreeOf(tail, {'\n'})
    requires forall k :: 0 <= k < |gap| ==> gap[k] == ' '
    ensures Trim(ReadLine(kind + gap + tail + "\n" + rest)) == kind + gap + tail
  {
    var line := kind + gap + tail;
    assert forall k :: 0 <= k < |line| ==> line[k] != '\n' by {
      assert forall k :: 0 <= k < |kind| ==> kind[k] !in Whitespace;
    }
    ReadLineStopsAtBreak(line, rest);
    assert line[0] == kind[0] && kind[0] !in Whitespace;
    assert line[|line| - 1] == tail[|tail| - 1];
    TrimDropsLineBreak(line);
  }

  /** Three non-empty fields free of white space joined by single spaces split
      back into those fields. */
  lemma {:induction false} ThreeFields(kind: string, key: string, comment: string)
    requires kind != "" && key != "" && comment != ""
    requires FreeOf(kind, Whitespace) && FreeOf(key, Whitespace) && FreeOf(comment, Whitespace)
    ensures Tokens(kind + " " + (key + " " + comment), {' '}) == [kind, key, comment]
    ensures FreeOf(key + " " + comment, {'\n'})
    ensures (key + " " + comment)[|key + " " + comment| - 1] !in Whitespace
  {
    assert FreeOf(kind, {' '}) && FreeOf(key, {' '}) && FreeOf(comment, {' '});
    var parts := [kind, key, comment];
    SplitJoin(parts, ' ');
    JoinUnfold(parts, " ");
    JoinUnfold(parts[1..], " ");
    assert parts[1..] == [key, comment] && parts[1..][1..] == [comment];
    assert Join(parts, " ") == kind + " " + (key + " " + comment);
    assert NonEmpty([comment]) == [comment] by {
      assert [comment][1..] == [];
    }
    assert NonEmpty([key, comment]) == [key, comment] by {
      assert [key, comment][1..] == [comment];
    }
    assert NonEmpty(parts) == parts;
    var tail := key + " " + comment;
    assert forall k :: 0 <= k < |tail| ==> tail[k] != '\n' by {
      assert forall k :: 0 <= k < |key| ==> key[k] !in Whitespace;
      assert forall k :: 0 <= k < |comment| ==> comment[k] !in Whitespace;
    }
    assert tail[|tail| - 1] == comment[|comment| - 1];
  }

  /** A run of spaces between two fields tokenizes like a single space. */
  lemma {:induction false} SpacesCollapse(a: string, gap: string, b: string)
    requires |gap| >= 1 && forall k :: 0 <= k < |gap| ==> gap[k] == ' '
    ensures Tokens(a + gap + b, {' '}) == Tokens(a + " " + b, {' '})
    decreases |gap|
  {
    if |gap| > 1 {
      var g := gap[1..];
      assert gap == [' ', ' '] + g[1..] by {
        assert gap[0] == ' ' && g[0] == ' ';
      }
      assert a + gap + b == a + [' ', ' '] + (g[1..] + b);
      SeparatorRun(a, ' ', g[1..] + b, {' '});
      assert a + [' '] + (g[1..] + b) == a + g + b;
      SpacesCollapse(a, g, b);
    } else {
      assert gap == " ";
    }
  }

  /** Reading a line of a text that has one stops after its line feed. */
  lemma {:induction false} ReadLineStopsAtBreak(line: string, rest: string)
    requires forall k :: 0 <= k < |line| ==> line[k] != '\n'
    ensures ReadLine(line + "\n" + rest) == line + "\n"
    decreases |line|
  {
    if |line| == 0 {
      assert (line + "\n" + rest)[0] == '\n';
    } else {
      assert (line + "\n" + rest)[1..] == line[1..] + "\n" + rest;
      ReadLineStopsAtBreak(line[1..], rest);
    }
  }

  /** One row of the key list. */
  datatype KeyItem = KeyItem(caption: string, path: string, checked: bool)

  /** scanAvailableKeys: one unchecked row per readable "*.pub" file, in
      listing order, labelled by KeyLabel and carrying the file's path. */
  function ScanAvailableKeys(files: seq<KeyFile>): (items: seq<KeyItem>)
    ensures |items| <= |files|
    ensures forall k :: 0 <= k < |items| ==> !items[k].checked && StartsWith(items[k].path, KeyDir + "/")
  {
    if |files| == 0 then []
    else
      var f := files[0];
      (if IsPublicKeyFile(f.fileName) && f.content.Some?
       then [KeyItem(KeyLabel(f.fileName, f.content.value), KeyDir + "/" + f.fileName, false)]
       else [])
      + ScanAvailableKeys(files[1..])
  }

  /** Exactly the readable public-key files are listed: a file is listed
      (under its own path) if and only if it passes the filter and opens. */
  lemma {:induction false} ScanListsReadableKeys(files: seq<KeyFile>, f: KeyFile)
    requires f in files
    requires forall i, j :: 0 <= i < j < |files| ==> files[i].fileName != files[j].fileName
    ensures (exists it :: it in ScanAvailableKeys(files) && it.path == KeyDir + "/" + f.fileName)
            <==> IsPublicKeyFile(f.fileName) && f.content.Some?
    decreases |files|
  {
    var head := files[0];
    var tail := files[1..];
    var path := KeyDir + "/" + f.fileName;
    var rows := ScanAvailableKeys(files);
    if f == head {
      PathsDiffer(tail, f.fileName);
      if IsPublicKeyFile(f.fileName) && f.content.Some? {
        assert rows[0].path == path;
      }
    } else {
      assert f in tail;
      ScanListsReadableKeys(tail, f);
      var k :| 0 <= k < |files| && files[k] == f;
      assert head.fileName != f.fileName by {
        assert k != 0;
      }
      assert KeyDir + "/" + head.fileName != path by {
        assert (KeyDir + "/" + head.fileName)[|KeyDir + "/"|..] == head.fileName;
        assert path[|KeyDir + "/"|..] == f.fileName;
      }
      if exists it :: it in rows && it.path == path {
        var it :| it in rows && it.path == path;
        assert it in ScanAvailableKeys(tail);
      }
      if exists it :: it in ScanAvailableKeys(tail) && it.path == path {
        var it :| it in ScanAvailableKeys(tail) && it.path == path;
        assert it in rows;
      }
    }
  }

  /** No row for other files carries the path of a file that is not among them. */
  lemma {:induction false} PathsDiffer(files: seq<KeyFile>, name: string)
    requires forall i :: 0 <= i < |files| ==> files[i].fileName != name
    ensures forall it :: it in ScanAvailableKeys(files) ==> it.path != KeyDir + "/" + name
    decreases |files|
  {
    if |files| > 0 {
      PathsDiffer(files[1..], name);
      var other := KeyDir + "/" + files[0].fileName;
      assert other[|KeyDir + "/"|..] == files[0].fileName;
      assert (KeyDir + "/" + name)[|KeyDir + "/"|..] == name;
    }
  }

  /** SshKeySelectionPage::hasSelection */
  function HasSelection(items: seq<KeyItem>): (r: bool)
    ensures r <==> exists i :: 0 <= i < |items| && items[i].checked
  {
    if |items| == 0 then false else items[0].checked || HasSelection(items[1..])
  }

  /** The paths of the checked rows, in list order. */
  function CheckedPaths(items: seq<KeyItem>): (paths: seq<string>)
    ensures |paths| == 0 <==> !HasSelection(items)
    ensures forall p :: p in paths <==> exists i :: 0 <= i < |items| && items[i].checked && items[i].path == p
  {
    if |items| == 0 then []
    else
      var rest := CheckedPaths(items[1..]);
      assert forall p :: p in rest <==> exists i :: 1 <= i < |items| && items[i].checked && items[i].path == p by {
        forall p | p in rest ensures exists i :: 1 <= i < |items| && items[i].checked && items[i].path == p {
          var j :| 0 <= j < |items[1..]| && items[1..][j].checked && items[1..][j].path == p;
          assert items[j + 1] == items[1..][j];
        }
        forall p | exists i :: 1 <= i < |items| && items[i].checked && items[i].path == p ensures p in rest {
          var i :| 1 <= i < |items| && items[i].checked && items[i].path == p;
          assert items[1..][i - 1] == items[i];
        }
      }
      (if items[0].checked then [items[0].path] else []) + rest
  }

  /** The effect of one itemChanged notification. */
  datatype KeyChange = KeyChange(gs: GlobalStorage, selectionChanged: Option<bool>)

  /** The itemChanged handler: outside column 0 nothing happens; otherwise the
      page announces whether any key is checked and stores the checked paths,
      also when there are none. */
  function OnItemChanged(items: seq<KeyItem>, column: int, gs: GlobalStorage): (r: KeyChange)
    ensures column != 0 ==> r == KeyChange(gs, None)
    ensures column == 0 ==> r.selectionChanged == Some(HasSelection(items))
    ensures column == 0 ==> r.gs.Keys == gs.Keys + {SelectedKeysKey}
    ensures column == 0 ==> r.gs[SelectedKeysKey].StrList?
    ensures column == 0 ==> forall p :: p in r.gs[SelectedKeysKey].items <==>
              exists i :: 0 <= i < |items| && items[i].checked && items[i].path == p
    ensures forall k :: k in gs && k != SelectedKeysKey ==> r.gs[k] == gs[k]
  {
    if column != 0 then KeyChange(gs, None)
    else
      var paths := CheckedPaths(items);
      KeyChange(gs[SelectedKeysKey := StrList(paths)], Some(|paths| > 0))
  }
}

=== FILE: store.dfy ===
/** The installer's global storage: the process-wide key/value map through which
    the wizard pages and the Python job modules hand data to each other. */
module Store {

  import opened Wrappers
  import opened Text

  /** The value kinds the modelled modules store. */
  datatype Value =
    | Str(s: string)
    | Bool(b: bool)
    | Int(i: int)
    | StrList(items: seq<string>)

  type GlobalStorage = map<string, Value>

  /** GlobalStorage::value as the Python modules see it: None for an absent key. */
  function Lookup(gs: GlobalStorage, key: string): (v: Option<Value>)
    ensures v.Some? <==> key in gs
    ensures key in gs ==> v.value == gs[key]
  {
    if key in gs then Some(gs[key]) else None
  }

  /** True when `key` holds exactly the string `s` (Python's `gs.value(key) == s`). */
  predicate HoldsString(gs: GlobalStorage, key: string, s: string) {
    key in gs && gs[key] == Str(s)
  }

  /** QVariant::toString on a stored value, with an absent key read as an
      invalid variant: a string as is, a boolean as "true"/"false", an integer
      in decimal, and a string list only when it holds exactly one item (any
      other list converts to the empty string). */
  function ValueToString(v: Option<Value>): (s: string)
    ensures v.None? ==> s == ""
    ensures v.Some? && v.value.Str? ==> s == v.value.s
    ensures v.Some? && v.value.StrList? ==> s == (if |v.value.items| == 1 then v.value.items[0] else "")
  {
    match v
    case None => ""
    case Some(Str(t)) => t
    case Some(Bool(b)) => if b then "true" else "false"
    case Some(Int(i)) => IntToString(i)
    case Some(StrList(items)) => if |items| == 1 then items[0] else ""
  }
}

=== FILE: text.dfy ===
/** String helpers shared by the installer modules: splitting at separator
    characters and joining back, dropping empty parts, trimming white space,
    prefix/suffix/infix tests and decimal numerals. Strings are sequences of
    characters; only ASCII white space and ASCII case are modelled. */
module Text {

  /** The six ASCII white-space characters, which Qt's QChar::isSpace and
      Python's str.isspace both accept. Python also accepts \x1c-\x1f, and both
      accept U+0085, U+00A0 and the Unicode space separators; those are not
      white space here. */
  const Whitespace: set<char> := {' ', '\t', '\n', '\r', '\U{B}', '\U{C}'}

  /** The characters at which Python's str.splitlines breaks a line (ASCII subset). */
  const LineBreaks: set<char> := {'\n', '\r', '\U{B}', '\U{C}', '\U{1C}', '\U{1D}', '\U{1E}'}

  // ---------------------------------------------------------------------------
  // Splitting and joining

  /** True when no character of `t` is one of `seps`. */
  predicate FreeOf(t: string, seps: set<char>) {
    forall k :: 0 <= k < |t| ==> t[k] !in seps
  }

  /** Splits `s` at every character in `seps`, keeping empty parts: the behaviour
      of QString::split(sep) and of Python's str.split(sep). An empty string
      yields one empty part. */
  function SplitOn(s: string, seps: set<char>): (parts: seq<string>)
    ensures |parts| >= 1
    ensures forall i :: 0 <= i < |parts| ==> FreeOf(parts[i], seps)
    decreases |s|
  {
    if |s| == 0 then [""]
    else
      var rest := SplitOn(s[1..], seps);
      if s[0] in seps then [""] + rest
      else [[s[0]] + rest[0]] + rest[1..]
  }

  /** Concatenates `parts` with `sep` between consecutive parts
      (QStringList::join, Python's str.join). */
  function Join(parts: seq<string>, sep: string): string {
    if |parts| == 0 then ""
    else if |parts| == 1 then parts[0]
    else parts[0] + sep + Join(parts[1..], sep)
  }

  /** The non-empty parts of `parts`, in order (Qt's SkipEmptyParts). */
  function NonEmpty(parts: seq<string>): (r: seq<string>)
    ensures |r| <= |parts|
    ensures forall i :: 0 <= i < |r| ==> r[i] != ""
    ensures forall t :: t in r <==> t in parts && t != ""
  {
    if |parts| == 0 then []
    else if parts[0] == "" then NonEmpty(parts[1..])
    else [parts[0]] + NonEmpty(parts[1..])
  }

  /** Splitting with empty parts dropped: QString::split(sep, Qt::SkipEmptyParts),
      and with `seps == Whitespace` Python's argument-less str.split(). */
  function Tokens(s: string, seps: set<char>): seq<string> {
    NonEmpty(SplitOn(s, seps))
  }

  /** Joining the parts of a single-character split gives the string back. */
  lemma {:induction false} JoinSplit(s: string, c: char)
    ensures Join(SplitOn(s, {c}), [c]) == s
    decreases |s|
  {
    if |s| > 0 {
      var rest := SplitOn(s[1..], {c});
      JoinSplit(s[1..], c);
      if s[0] == c {
        assert SplitOn(s, {c}) == [""] + rest;
        assert Join([""] + rest, [c]) == "" + [c] + Join(rest, [c]) by {
          JoinUnfold([""] + rest, [c]);
          assert ([""] + rest)[1..] == rest;
        }
        assert s == [c] + s[1..];
      } else {
        assert SplitOn(s, {c}) == [[s[0]] + rest[0]] + rest[1..];
        if |rest| == 1 {
          assert Join(rest, [c]) == rest[0];
        } else {
          JoinUnfold(rest, [c]);
          var p := [[s[0]] + rest[0]] + rest[1..];
          assert p[1..] == rest[1..];
          assert Join(p, [c]) == ([s[0]] + rest[0]) + [c] + Join(rest[1..], [c]);
        }
        assert s == [s[0]] + s[1..];
      }
    }
  }

  /** One step of Join on a sequence of at least two parts. */
  lemma JoinUnfold(parts: seq<string>, sep: string)
    requires |parts| >= 2
    ensures Join(parts, sep) == parts[0] + sep + Join(parts[1..], sep)
  {
  }

  /** Splitting at a separator character distributes over concatenation. */
  lemma {:induction false} SplitConcat(a: string, c: char, b: string, seps: set<char>)
    requires c in seps
    ensures SplitOn(a + [c] + b, seps) == SplitOn(a, seps) + SplitOn(b, seps)
    decreases |a|
  {
    if |a| == 0 {
      assert a + [c] + b == [c] + b;
      assert ([c] + b)[1..] == b;
    } else {
      var s := a + [c] + b;
      assert s[0] == a[0];
      assert s[1..] == a[1..] + [c] + b;
      SplitConcat(a[1..], c, b, seps);
      var ra := SplitOn(a[1..], seps);
      var rb := SplitOn(b, seps);
      assert SplitOn(s[1..], seps) == ra + rb;
      if a[0] in seps {
        assert SplitOn(s, seps) == [""] + (ra + rb);
        assert SplitOn(a, seps) == [""] + ra;
      } else {
        assert SplitOn(s, seps) == [[a[0]] + (ra + rb)[0]] + (ra + rb)[1..];
        assert SplitOn(a, seps) == [[a[0]] + ra[0]] + ra[1..];
        assert (ra + rb)[0] == ra[0];
        assert (ra + rb)[1..] == ra[1..] + rb;
      }
    }
  }

  /** A string with no separator splits into itself alone. */
  lemma {:induction false} SplitFree(a: string, seps: set<char>)
    requires FreeOf(a, seps)
    ensures SplitOn(a, seps) == [a]
    decreases |a|
  {
    if |a| > 0 {
      SplitFree(a[1..], seps);
      assert a == [a[0]] + a[1..];
    }
  }

  /** Splitting a join recovers the parts when no part holds the separator. */
  lemma {:induction false} SplitJoin(parts: seq<string>, c: char)
    requires |parts| >= 1
    requires forall i :: 0 <= i < |parts| ==> FreeOf(parts[i], {c})
    ensures SplitOn(Join(parts, [c]), {c}) == parts
    decreases |parts|
  {
    if |parts| == 1 {
      SplitFree(parts[0], {c});
    } else {
      SplitJoin(parts[1..], c);
      SplitConcat(parts[0], c, Join(parts[1..], [c]), {c});
      SplitFree(parts[0], {c});
      assert parts == [parts[0]] + parts[1..];
    }
  }

  /** Dropping empty parts distributes over concatenation. */
  lemma {:induction false} NonEmptyConcat(a: seq<string>, b: seq<string>)
    ensures NonEmpty(a + b) == NonEmpty(a) + NonEmpty(b)
    decreases |a|
  {
    if |a| > 0 {
      assert (a + b)[0] == a[0];
      assert (a + b)[1..] == a[1..] + b;
      NonEmptyConcat(a[1..], b);
      if a[0] != "" {
        assert NonEmpty(a + b) == [a[0]] + NonEmpty(a[1..] + b);
      } else {
        assert NonEmpty(a + b) == NonEmpty(a[1..] + b);
      }
    } else {
      assert a + b == b;
    }
  }

  /** A run of two separators yields the same tokens as a single one: runs of
      separators never create empty tokens. */
  lemma SeparatorRun(a: string, c: char, b: string, seps: set<char>)
    requires c in seps
    ensures Tokens(a + [c, c] + b, seps) == Tokens(a + [c] + b, seps)
  {
    assert a + [c, c] + b == a + [c] + ([c] + b);
    SplitConcat(a, c, [c] + b, seps);
    SplitConcat(a, c, b, seps);
    assert SplitOn([c] + b, seps) == [""] + SplitOn(b, seps) by {
      assert ([c] + b)[1..] == b;
    }
    NonEmptyConcat(SplitOn(a, seps), [""] + SplitOn(b, seps));
    NonEmptyConcat(SplitOn(a, seps), SplitOn(b, seps));
    assert NonEmpty([""] + SplitOn(b, seps)) == NonEmpty(SplitOn(b, seps)) by {
      assert ([""] + SplitOn(b, seps))[1..] == SplitOn(b, seps);
    }
  }

  /** A part of the split holds every character that is not a separator. */
  lemma {:induction false} SomeNonEmptyPart(s: string, seps: set<char>, k: nat)
    requires k < |s| && s[k] !in seps
    ensures exists t :: t in SplitOn(s, seps) && t != ""
    decreases |s|
  {
    var rest := SplitOn(s[1..], seps);
    if k == 0 {
      var first := [s[0]] + rest[0];
      assert SplitOn(s, seps)[0] == first && first != "";
      assert first in SplitOn(s, seps);
    } else {
      SomeNonEmptyPart(s[1..], seps, k - 1);
      var t :| t in rest && t != "";
      if s[0] in seps {
        assert t in SplitOn(s, seps);
      } else if t == rest[0] {
        var first := [s[0]] + rest[0];
        assert SplitOn(s, seps)[0] == first && first != "";
        assert first in SplitOn(s, seps);
      } else {
        assert t in rest[1..];
        assert SplitOn(s, seps) == [[s[0]] + rest[0]] + rest[1..];
        assert t in SplitOn(s, seps);
      }
    }
  }

  /** A string holding a non-separator character has at least one token. */
  lemma SomeToken(s: string, seps: set<char>, k: nat)
    requires k < |s| && s[k] !in seps
    ensures |Tokens(s, seps)| >= 1
  {
    SomeNonEmptyPart(s, seps, k);
    var t :| t in SplitOn(s, seps) && t != "";
    assert t in Tokens(s, seps);
  }

  /** A string in which some string with a non-separator character occurs has
      at least one token. */
  lemma TokensOfContaining(s: string, sub: string, j: nat, seps: set<char>)
    requires Contains(s, sub) && j < |sub| && sub[j] !in seps
    ensures |Tokens(s, seps)| >= 1
  {
    ContainsChar(s, sub, j);
    var k :| 0 <= k < |s| && s[k] == sub[j];
    SomeToken(s, seps, k);
  }

  /** A field followed by a separator is the first token. */
  lemma FirstToken(a: string, c: char, b: string, seps: set<char>)
    requires a != "" && FreeOf(a, seps) && c in seps
    ensures |Tokens(a + [c] + b, seps)| >= 1 && Tokens(a + [c] + b, seps)[0] == a
  {
    SplitConcat(a, c, b, seps);
    SplitFree(a, seps);
    NonEmptyConcat([a], SplitOn(b, seps));
    assert NonEmpty([a]) == [a] by {
      assert [a][1..] == [];
    }
  }

  // ---------------------------------------------------------------------------
  // Prefixes, suffixes, infixes

  predicate StartsWith(s: string, prefix: string) {
    |prefix| <= |s| && s[..|prefix|] == prefix
  }

  predicate EndsWith(s: string, suffix: string) {
    |suffix| <= |s| && s[|s| - |suffix|..] == suffix
  }

  /** A hidden file name on Unix: one starting with a dot. A QDir listing made
      with QDir::Files and without QDir::Hidden leaves such names out. */
  predicate IsDotFile(fileName: string) {
    fileName != "" && fileName[0] == '.'
  }

  /** True when `sub` occurs somewhere in `s` (QString::contains, Python's `in`). */
  predicate Contains(s: string, sub: string)
    decreases |s|
  {
    StartsWith(s, sub) || (|s| > 0 && Contains(s[1..], sub))
  }

  /** Every character of an occurring string is a character of the string it
      occurs in. */
  lemma {:induction false} ContainsChar(s: string, sub: string, j: nat)
    requires Contains(s, sub) && j < |sub|
    ensures exists k :: 0 <= k < |s| && s[k] == sub[j]
    decreases |s|
  {
    if StartsWith(s, sub) {
      assert s[j] == sub[j];
    } else {
      ContainsChar(s[1..], sub, j);
      var k :| 0 <= k < |s[1..]| && s[1..][k] == sub[j];
      assert s[k + 1] == sub[j];
    }
  }

  /** A string occurs in any string that has it after some prefix. */
  lemma {:induction false} ContainsAfter(a: string, sub: string, b: string)
    ensures Contains(a + sub + b, sub)
    decreases |a|
  {
    if |a| == 0 {
      assert (a + sub + b)[..|sub|] == sub;
    } else {
      assert (a + sub + b)[1..] == a[1..] + sub + b;
      ContainsAfter(a[1..], sub, b);
    }
  }

  /** `s` with every non-overlapping occurrence of `sub` removed, scanning from
      the left: Python's `s.replace(sub, "")`. */
  function RemoveAll(s: string, sub: string): (r: string)
    requires |sub| > 0
    ensures |r| <= |s|
    decreases |s|
  {
    if |s| == 0 then ""
    else if StartsWith(s, sub) then RemoveAll(s[|sub|..], sub)
    else [s[0]] + RemoveAll(s[1..], sub)
  }

  /** Removing every occurrence of a single character leaves none of it. */
  lemma {:induction false} RemoveAllChar(s: string, c: char)
    ensures c !in RemoveAll(s, [c])
    decreases |s|
  {
    if |s| > 0 {
      if StartsWith(s, [c]) {
        RemoveAllChar(s[1..], c);
      } else {
        assert s[..1] == [s[0]];
        RemoveAllChar(s[1..], c);
      }
    }
  }

  /** A string that holds something other than the first characters of `sub`
      has no occurrence to remove. */
  lemma {:induction false} RemoveAllAbsent(s: string, sub: string)
    requires |sub| >= 2 && sub[1] !in s
    ensures RemoveAll(s, sub) == s
    decreases |s|
  {
    if |s| > 0 {
      assert !StartsWith(s, sub) by {
        if |sub| <= |s| {
          assert s[1] in s;
        }
      }
      assert forall k :: 0 <= k < |s[1..]| ==> s[1..][k] in s;
      RemoveAllAbsent(s[1..], sub);
      assert s == [s[0]] + s[1..];
    }
  }

  /** Removing a character from a concatenation whose first part lacks it only
      touches the second part. */
  lemma {:induction false} RemoveCharAfter(a: string, b: string, c: char)
    requires c !in a
    ensures RemoveAll(a + b, [c]) == a + RemoveAll(b, [c])
    decreases |a|
  {
    if |a| == 0 {
      assert a + b == b;
    } else {
      assert (a + b)[0] == a[0] && (a + b)[1..] == a[1..] + b;
      assert !StartsWith(a + b, [c]) by {
        assert (a + b)[..1] == [a[0]];
      }
      assert c !in a[1..] by {
        assert forall k :: 0 <= k < |a[1..]| ==> a[1..][k] == a[k + 1];
      }
      RemoveCharAfter(a[1..], b, c);
    }
  }

  // ---------------------------------------------------------------------------
  // White space and case

  /** `s` without its leading white space. */
  function TrimStart(s: string): (r: string)
    ensures |r| <= |s| && r == s[|s| - |r|..]
    ensures r == "" || r[0] !in Whitespace
    decreases |s|
  {
    if |s| > 0 && s[0] in Whitespace then TrimStart(s[1..]) else s
  }

  /** `s` without its trailing white space. */
  function TrimEnd(s: string): (r: string)
    ensures |r| <= |s| && r == s[..|r|]
    ensures r == "" || r[|r| - 1] !in Whitespace
    decreases |s|
  {
    if |s| > 0 && s[|s| - 1] in Whitespace then TrimEnd(s[..|s| - 1]) else s
  }

  /** QString::trimmed and Python's str.strip(): white space removed at both ends. */
  function Trim(s: string): (r: string)
    ensures |r| <= |s|
    ensures r == "" || (r[0] !in Whitespace && r[|r| - 1] !in Whitespace)
  {
    TrimEnd(TrimStart(s))
  }

  /** Trimming a line read with its line break gives the line without it. */
  lemma {:induction false} TrimDropsLineBreak(x: string)
    requires |x| > 0 && x[0] !in Whitespace && x[|x| - 1] !in Whitespace
    ensures Trim(x + "\n") == x
  {
    var y := x + "\n";
    assert y[0] == x[0];
    assert TrimStart(y) == y;
    assert y[|y| - 1] == '\n' && y[..|y| - 1] == x;
    assert TrimEnd(y) == TrimEnd(x);
    assert TrimEnd(x) == x;
  }

  /** Trimming keeps a string free of any characters it was free of. */
  lemma TrimFreeOf(s: string, seps: set<char>)
    requires FreeOf(s, seps)
    ensures FreeOf(Trim(s), seps)
  {
    var t := TrimStart(s);
    assert forall k :: 0 <= k < |t| ==> t[k] == s[|s| - |t| + k];
    var r := TrimEnd(t);
    assert forall k :: 0 <= k < |r| ==> r[k] == t[k];
  }

  /** Trimming leaves a string that already starts and ends with non-space alone. */
  lemma {:induction false} TrimUnchanged(s: string)
    requires s == "" || (s[0] !in Whitespace && s[|s| - 1] !in Whitespace)
    ensures Trim(s) == s
  {
  }

  function LowerChar(c: char): char {
    if 'A' <= c <= 'Z' then (c as int + 32) as char else c
  }

  /** ASCII lower-casing (QString::toLower restricted to ASCII). */
  function ToLower(s: string): (r: string)
    ensures |r| == |s|
    ensures forall i :: 0 <= i < |s| ==> r[i] == LowerChar(s[i])
  {
    seq(|s|, i requires 0 <= i < |s| => LowerChar(s[i]))
  }

  /** A suffix stays a suffix when the same text is appended to both. */
  lemma EndsWithAppend(a: string, x: string, y: string)
    requires EndsWith(a, x)
    ensures EndsWith(a + y, x + y)
  {
    assert (a + y)[|a + y| - |x + y|..] == a[|a| - |x|..] + y;
  }

  /** Lower-casing leaves a text without capitals alone. */
  lemma LowerCaseUnchanged(name: string)
    requires forall k :: 0 <= k < |name| ==> !('A' <= name[k] <= 'Z')
    ensures ToLower(name) == name
  {
  }

  /** A suffix without capitals survives lower-casing. */
  lemma LowerKeepsSuffix(s: string, suffix: string)
    requires EndsWith(s, suffix) && ToLower(suffix) == suffix
    ensures EndsWith(ToLower(s), suffix)
  {
    var l := ToLower(s);
    var n := |s| - |suffix|;
    forall k | 0 <= k < |suffix| ensures l[n..][k] == suffix[k] {
      assert s[n..][k] == s[n + k];
      assert l[n + k] == LowerChar(s[n + k]) == LowerChar(suffix[k]) == ToLower(suffix)[k];
    }
  }

  // ---------------------------------------------------------------------------
  // Decimal numerals

  predicate IsDigit(c: char) {
    '0' <= c <= '9'
  }

  predicate AllDigits(s: string) {
    forall i :: 0 <= i < |s| ==> IsDigit(s[i])
  }

  function DigitValue(c: char): nat
    requires IsDigit(c)
  {
    c as int - '0' as int
  }

  function DigitChar(d: nat): (c: char)
    requires d < 10
    ensures IsDigit(c) && DigitValue(c) == d
  {
    ('0' as int + d) as char
  }

  /** The value of a string of decimal digits, leading zeros allowed. */
  function DecimalValue(s: string): nat
    requires AllDigits(s)
  {
    if |s| == 0 then 0 else 10 * DecimalValue(s[..|s| - 1]) + DigitValue(s[|s| - 1])
  }

  /** The canonical decimal numeral of `n`: Python's str(n), QString::number(n). */
  function NatToString(n: nat): (s: string)
    ensures 1 <= |s|
    ensures AllDigits(s)
    ensures DecimalValue(s) == n
    ensures |s| > 1 ==> s[0] != '0'
    ensures n < 10 <==> |s| == 1
  {
    if n < 10 then [DigitChar(n)]
    else
      var t := NatToString(n / 10);
      var s := t + [DigitChar(n % 10)];
      assert s[..|s| - 1] == t;
      s
  }

  /** A numeral as NatToString writes it: digits only, no leading zero. */
  predicate Canonical(s: string) {
    1 <= |s| && AllDigits(s) && (|s| > 1 ==> s[0] != '0')
  }

  /** A numeral whose first digit is not zero has a positive value. */
  lemma {:induction false} LeadingDigitPositive(t: string)
    requires 1 <= |t| && AllDigits(t) && t[0] != '0'
    ensures DecimalValue(t) >= 1
    decreases |t|
  {
    if |t| > 1 {
      LeadingDigitPositive(t[..|t| - 1]);
    }
  }

  /** Reading a canonical numeral and writing the value back gives the numeral:
      NatToString is the inverse of DecimalValue on canonical numerals. */
  lemma {:induction false} CanonicalRoundTrip(s: string)
    requires Canonical(s)
    ensures NatToString(DecimalValue(s)) == s
    decreases |s|
  {
    var v := DecimalValue(s);
    if |s| == 1 {
      assert s[..0] == "";
      assert v == DigitValue(s[0]) < 10;
      assert DigitChar(DigitValue(s[0])) == s[0];
    } else {
      var t := s[..|s| - 1];
      LeadingDigitPositive(t);
      assert t[0] == s[0];
      CanonicalRoundTrip(t);
      assert v / 10 == DecimalValue(t) && v % 10 == DigitValue(s[|s| - 1]);
      assert DigitChar(DigitValue(s[|s| - 1])) == s[|s| - 1];
      assert s == t + [s[|s| - 1]];
    }
  }

  /** Python's str(i) for a possibly negative integer. */
  function IntToString(i: int): (s: string)
    ensures 1 <= |s|
    ensures i < 0 <==> s[0] == '-'
  {
    if i < 0 then "-" + NatToString(-i) else NatToString(i)
  }
}

=== FILE: uefi_boot.dfy ===
/** The UEFI boot step: it finds the firmware boot entries of the two SEAPATH
    slots in the listing printed by efibootmgr, recreates them, and puts them
    first in the boot order. The listings efibootmgr prints and the outcome of
    each command are parameters; a command run with `check=True` that fails,
    or a listing that cannot be obtained, raises and ends the step. */
module UefiBoot {

  import opened Wrappers
  import opened Text

  // ---------------------------------------------------------------------------
  // Finding a slot's entry

  /** The label a slot's entry carries. */
  function SlotLabel(slot: nat): (name: string)
    ensures StartsWith(name, "SEAPATH slot ") && name[0] == 'S'
  {
    var name := "SEAPATH slot " + NatToString(slot);
    assert name[..|"SEAPATH slot "|] == "SEAPATH slot ";
    name
  }

  /** The index of the first line containing `marker`. */
  function FirstLineWith(lines: seq<string>, marker: string): (r: Option<nat>)
    ensures r.None? <==> forall i :: 0 <= i < |lines| ==> !Contains(lines[i], marker)
    ensures r.Some? ==> r.value < |lines| && Contains(lines[r.value], marker)
                        && forall j :: 0 <= j < r.value ==> !Contains(lines[j], marker)
  {
    if |lines| == 0 then None
    else if Contains(lines[0], marker) then Some(0)
    else
      var r := FirstLineWith(lines[1..], marker);
      assert forall i :: 1 <= i < |lines| ==> lines[i] == lines[1..][i - 1];
      if r.None? then None else Some(r.value + 1)
  }

  /** The entry number in a listing field such as "Boot0003*". */
  function EntryNumber(field: string): string {
    RemoveAll(RemoveAll(field, "Boot"), "*")
  }

  /** get_boot_entry over the listing's lines: the entry number in the first
      field of the first line that mentions the slot's label, or "" when no
      line does. */
  function BootEntryOfLines(lines: seq<string>, slot: nat): (entry: string)
    ensures FirstLineWith(lines, SlotLabel(slot)).None? ==> entry == ""
    ensures '*' !in entry
  {
    var marker := SlotLabel(slot);
    match FirstLineWith(lines, marker)
    case None => ""
    case Some(i) =>
      TokensOfContaining(lines[i], marker, 0, Whitespace);
      RemoveAllChar(RemoveAll(Tokens(lines[i], Whitespace)[0], "Boot"), '*');
      EntryNumber(Tokens(lines[i], Whitespace)[0])
  }

  /** get_boot_entry, given what `efibootmgr` printed. */
  function GetBootEntry(listing: string, slot: nat): (entry: string)
    ensures (forall l :: l in SplitOn(listing, LineBreaks) ==> !Contains(l, SlotLabel(slot))) ==> entry == ""
    ensures '*' !in entry
  {
    BootEntryOfLines(SplitOn(listing, LineBreaks), slot)
  }

  /** The digits efibootmgr numbers its entries with. */
  predicate IsBootNumber(num: string) {
    |num| >= 1 && forall k :: 0 <= k < |num| ==> IsDigit(num[k]) || 'A' <= num[k] <= 'F'
  }

  /** The number in a field "Boot" + number + "*" is read back exactly. */
  lemma {:induction false} EntryNumberOfField(num: string)
    requires IsBootNumber(num)
    ensures EntryNumber("Boot" + num + "*") == num
  {
    var field := "Boot" + num + "*";
    assert StartsWith(field, "Boot") && field[4..] == num + "*";
    assert 'o' !in num + "*" by {
      assert forall k :: 0 <= k < |num + "*"| ==> (num + "*")[k] != 'o';
    }
    RemoveAllAbsent(num + "*", "Boot");
    assert '*' !in num by {
      assert forall k :: 0 <= k < |num| ==> num[k] != '*';
    }
    RemoveCharAfter(num, "*", '*');
    assert RemoveAll("*", "*") == RemoveAll("", "*");
  }

  /** The line of the first entry labelled for the slot yields that entry's
      number, whatever the lines before it (none of which mentions the slot)
      and after it hold. */
  lemma {:induction false} SlotEntryIsFound(lines: seq<string>, i: nat, slot: nat, num: string,
                                            before: string, after: string)
    requires i < |lines| && IsBootNumber(num)
    requires lines[i] == "Boot" + num + "*" + " " + before + SlotLabel(slot) + after
    requires forall j :: 0 <= j < i ==> !Contains(lines[j], SlotLabel(slot))
    ensures BootEntryOfLines(lines, slot) == num
  {
    var marker := SlotLabel(slot);
    var field := "Boot" + num + "*";
    var rest := before + marker + after;
    ContainsAfter(field + " " + before, marker, after);
    assert lines[i] == field + [' '] + rest;
    BootFieldIsOneToken(num);
    SlotLineEntry(lines, i, slot, field, rest);
    EntryNumberOfField(num);
  }

  /** The first line mentioning the slot yields the number in its first field. */
  lemma SlotLineEntry(lines: seq<string>, i: nat, slot: nat, field: string, rest: string)
    requires i < |lines| && field != "" && FreeOf(field, Whitespace)
    requires lines[i] == field + [' '] + rest && Contains(lines[i], SlotLabel(slot))
    requires forall j :: 0 <= j < i ==> !Contains(lines[j], SlotLabel(slot))
    ensures BootEntryOfLines(lines, slot) == EntryNumber(field)
  {
    FirstLineIs(lines, i, SlotLabel(slot));
    FirstToken(field, ' ', rest, Whitespace);
  }

  /** The first line holding the marker is found. */
  lemma FirstLineIs(lines: seq<string>, i: nat, marker: string)
    requires i < |lines| && Contains(lines[i], marker)
    requires forall j :: 0 <= j < i ==> !Contains(lines[j], marker)
    ensures FirstLineWith(lines, marker) == Some(i)
  {
  }

  /** A listing field "BootNNNN*" holds no white space. */
  lemma BootFieldIsOneToken(num: string)
    requires IsBootNumber(num)
    ensures FreeOf("Boot" + num + "*", Whitespace)
  {
    var field := "Boot" + num + "*";
    assert forall k :: 0 <= k < |field| ==> field[k] == 'B' || field[k] == 'o' || field[k] == 't'
                                             || field[k] == '*' || field[k] in num;
  }

  // ---------------------------------------------------------------------------
  // Commands

  const Loader := "/EFI/BOOT/bootx64.efi"

  /** create_boot_entries: the entry for a slot boots the loader from partition
      slot + 1 of the target disk and is labelled for the slot. */
  function CreateArgs(target: string, slot: nat): (args: seq<string>)
    ensures |args| == 11 && args[..4] == ["efibootmgr", "-q", "-c", "-d"] && args[4] == target
    ensures args[5] == "-p" && AllDigits(args[6]) && DecimalValue(args[6]) == slot + 1
    ensures args[7] == "-L" && args[8] == SlotLabel(slot) && args[9..] == ["-l", Loader]
  {
    ["efibootmgr", "-q", "-c", "-d", target, "-p", NatToString(slot + 1), "-L", SlotLabel(slot), "-l", Loader]
  }

  /** An entry created for a slot is the one later found for it: once the
      firmware lists the new entry under any number, the lookup by slot returns
      that number. */
  lemma CreatedEntryIsFound(target: string, slot: nat, lines: seq<string>, i: nat, num: string, after: string)
    requires i < |lines| && IsBootNumber(num)
    requires lines[i] == "Boot" + num + "* " + CreateArgs(target, slot)[8] + after
    requires forall j :: 0 <= j < i ==> !Contains(lines[j], SlotLabel(slot))
    ensures BootEntryOfLines(lines, slot) == num
  {
    assert "Boot" + num + "* " + SlotLabel(slot) + after == "Boot" + num + "*" + " " + "" + SlotLabel(slot) + after;
    SlotEntryIsFound(lines, i, slot, num, "", after);
  }

  function DeleteArgs(entry: string): seq<string> {
    ["efibootmgr", "-q", "-b", entry, "-B"]
  }

  function DisableArgs(entry: string): seq<string> {
    ["efibootmgr", "-q", "-b", entry, "-A"]
  }

  function OrderArgs(order: string): seq<string> {
    ["efibootmgr", "-q", "-o", order]
  }

  function BootNextArgs(entry: string): seq<string> {
    ["efibootmgr", "--bootnext", entry]
  }

  const EfivarsPath := "/sys/firmware/efi/efivars"

  const MountArgs: seq<string> := ["mount", "-t", "efivarfs", "efivarfs", EfivarsPath]

  /** is_efivars_mounted, over the text of /proc/mounts. */
  predicate EfivarsMounted(mounts: string) {
    exists line :: line in SplitOn(mounts, {'\n'}) && Contains(line, EfivarsPath)
  }

  // ---------------------------------------------------------------------------
  // The new boot order

  /** The value of the first "BootOrder:" line: its second white-space separated
      field, stripped; None when there is no such line or it has no second
      field. Later "BootOrder:" lines are never read. */
  function BootOrderValue(lines: seq<string>): (v: Option<string>)
    ensures (forall i :: 0 <= i < |lines| ==> !StartsWith(lines[i], "BootOrder:")) ==> v.None?
    ensures forall k :: FirstBootOrderLine(lines, k) ==>
              var parts := Tokens(lines[k], Whitespace);
              v == if |parts| >= 2 then Some(Trim(parts[1])) else None
  {
    if |lines| == 0 then None
    else if StartsWith(lines[0], "BootOrder:") then
      var parts := Tokens(lines[0], Whitespace);
      if |parts| >= 2 then Some(Trim(parts[1])) else None
    else
      assert forall i :: 1 <= i < |lines| ==> lines[i] == lines[1..][i - 1];
      assert forall k :: FirstBootOrderLine(lines, k) ==> k > 0 && FirstBootOrderLine(lines[1..], k - 1);
      BootOrderValue(lines[1..])
  }

  /** Line `k` is the first line starting with "BootOrder:". */
  predicate FirstBootOrderLine(lines: seq<string>, k: int) {
    0 <= k < |lines| && StartsWith(lines[k], "BootOrder:")
    && forall j :: 0 <= j < k ==> !StartsWith(lines[j], "BootOrder:")
  }

  /** The stripped, non-blank entries of a comma-separated order. */
  function StrippedEntries(parts: seq<string>): (es: seq<string>)
    ensures |es| <= |parts|
    ensures forall e :: e in es ==> e != "" && Trim(e) == e
  {
    if |parts| == 0 then []
    else
      var e := Trim(parts[0]);
      var rest := StrippedEntries(parts[1..]);
      if e != "" then
        TrimUnchanged(e);
        [e] + rest
      else rest
  }

  /** Every kept entry is the stripped form of one of the parts. */
  lemma {:induction false} StrippedEntriesFrom(parts: seq<string>, e: string)
    requires e in StrippedEntries(parts)
    ensures exists i :: 0 <= i < |parts| && Trim(parts[i]) == e
  {
    if Trim(parts[0]) == e {
      assert 0 <= 0 < |parts| && Trim(parts[0]) == e;
    } else {
      StrippedEntriesFrom(parts[1..], e);
      var j :| 0 <= j < |parts[1..]| && Trim(parts[1..][j]) == e;
      assert parts[j + 1] == parts[1..][j];
    }
  }

  /** An entry as written in a BootOrder value: non-blank, stripped, without commas. */
  predicate CleanEntry(x: string) {
    x != "" && Trim(x) == x && FreeOf(x, {','})
  }

  /** The entries of an order value. */
  function OrderEntries(order: string): (es: seq<string>)
    ensures forall e :: e in es ==> CleanEntry(e)
  {
    var parts := SplitOn(order, {','});
    var es := StrippedEntries(parts);
    forall e | e in es ensures FreeOf(e, {','}) {
      StrippedEntriesFrom(parts, e);
      var i :| 0 <= i < |parts| && Trim(parts[i]) == e;
      TrimFreeOf(parts[i], {','});
    }
    es
  }

  /** The old entries other than the two slots', in their old order. */
  function Remaining(entries: seq<string>, active: string, passive: string): (r: seq<string>)
    ensures |r| <= |entries|
    ensures forall x :: x in r <==> x in entries && x != active && x != passive
  {
    if |entries| == 0 then []
    else
      assert forall x :: x in entries <==> x == entries[0] || x in entries[1..];
      (if entries[0] != active && entries[0] != passive then [entries[0]] else [])
      + Remaining(entries[1..], active, passive)
  }

  /** The filter works entry by entry, so the remaining entries keep their
      relative order. */
  lemma {:induction false} RemainingConcat(a: seq<string>, b: seq<string>, active: string, passive: string)
    ensures Remaining(a + b, active, passive) == Remaining(a, active, passive) + Remaining(b, active, passive)
    decreases |a|
  {
    if |a| == 0 {
      assert a + b == b;
    } else {
      assert (a + b)[0] == a[0] && (a + b)[1..] == a[1..] + b;
      RemainingConcat(a[1..], b, active, passive);
      var head := if a[0] != active && a[0] != passive then [a[0]] else [];
      assert Remaining(a + b, active, passive) == head + Remaining(a[1..] + b, active, passive);
      assert Remaining(a, active, passive) == head + Remaining(a[1..], active, passive);
    }
  }

  /** The slots' entries first (each only when found), then the rest. */
  function NewOrder(active: string, passive: string, remaining: seq<string>): seq<string> {
    (if active != "" then [active] else []) + (if passive != "" then [passive] else []) + remaining
  }

  /** reorder_boot_entries' list: no usable BootOrder value leaves nothing
      else to keep. */
  function ReorderedList(active: string, passive: string, bootOrder: Option<string>): (order: seq<string>)
    ensures active != "" ==> |order| >= 1 && order[0] == active
    ensures active == "" && passive != "" ==> |order| >= 1 && order[0] == passive
  {
    NewOrder(active, passive, KeptEntries(active, passive, bootOrder))
  }

  /** The argument given to `efibootmgr -o`. */
  function OrderArgument(active: string, passive: string, bootOrder: Option<string>): string {
    Join(ReorderedList(active, passive, bootOrder), ",")
  }

  /** Reordering loses and duplicates nothing: when both slots were found and
      each occurs exactly once in the old order, the new order is a
      permutation of the old entries. */
  lemma ReorderIsPermutation(entries: seq<string>, active: string, passive: string)
    requires active != "" && passive != "" && active != passive
    requires multiset(entries)[active] == 1 && multiset(entries)[passive] == 1
    ensures multiset(NewOrder(active, passive, Remaining(entries, active, passive))) == multiset(entries)
  {
    var r := Remaining(entries, active, passive);
    RemainingCounts(entries, active, passive);
    var lhs := multiset(NewOrder(active, passive, r));
    assert lhs == multiset([active]) + multiset([passive]) + multiset(r);
    forall x ensures lhs[x] == multiset(entries)[x] {
      if x == active {
        assert lhs[x] == 1 + (if passive == x then 1 else 0) + multiset(r)[x];
      } else if x == passive {
        assert lhs[x] == 1 + multiset(r)[x];
      } else {
        assert lhs[x] == multiset(r)[x];
      }
    }
  }

  /** The filter keeps every other entry as often as it occurred. */
  lemma {:induction false} RemainingCounts(entries: seq<string>, active: string, passive: string)
    ensures forall x :: multiset(Remaining(entries, active, passive))[x]
                        == if x == active || x == passive then 0 else multiset(entries)[x]
    decreases |entries|
  {
    if |entries| > 0 {
      RemainingCounts(entries[1..], active, passive);
      assert entries == [entries[0]] + entries[1..];
      assert multiset(entries) == multiset([entries[0]]) + multiset(entries[1..]);
    }
  }

  /** Entries without commas or surrounding blanks survive a join and a parse. */
  lemma {:induction false} EntriesOfJoin(xs: seq<string>)
    requires forall x :: x in xs ==> CleanEntry(x)
    ensures OrderEntries(Join(xs, ",")) == xs
  {
    if |xs| == 0 {
      assert SplitOn("", {','}) == [""];
      assert Trim("") == "";
    } else {
      forall i | 0 <= i < |xs| ensures FreeOf(xs[i], {','}) {
        assert xs[i] in xs;
      }
      SplitJoin(xs, ',');
      StrippedKeepsClean(xs);
    }
  }

  /** Stripping and dropping blanks leaves clean entries alone. */
  lemma {:induction false} StrippedKeepsClean(xs: seq<string>)
    requires forall x :: x in xs ==> x != "" && Trim(x) == x
    ensures StrippedEntries(xs) == xs
    decreases |xs|
  {
    if |xs| > 0 {
      assert xs[0] in xs;
      assert Trim(xs[0]) == xs[0] != "";
      assert forall x :: x in xs[1..] ==> x in xs;
      StrippedKeepsClean(xs[1..]);
      assert StrippedEntries(xs) == [xs[0]] + StrippedEntries(xs[1..]);
      assert xs == [xs[0]] + xs[1..];
    }
  }

  /** Reordering an order that has already been reordered changes nothing:
      running the step again on the order it wrote writes the same order,
      provided the slot entries themselves hold no comma or surrounding blank. */
  lemma ReorderIsIdempotent(active: string, passive: string, bootOrder: Option<string>)
    requires active == "" || (Trim(active) == active && FreeOf(active, {','}))
    requires passive == "" || (Trim(passive) == passive && FreeOf(passive, {','}))
    ensures var written := OrderArgument(active, passive, bootOrder);
            ReorderedList(active, passive, Some(written)) == ReorderedList(active, passive, bootOrder)
  {
    var rem := KeptEntries(active, passive, bootOrder);
    var written := Join(NewOrder(active, passive, rem), ",");
    assert written == OrderArgument(active, passive, bootOrder);
    CleanRemaining(active, passive, bootOrder);
    WrittenOrderReadsBack(active, passive, rem);
    assert KeptEntries(active, passive, Some(written)) == rem;
  }

  /** The entries reorder_boot_entries keeps from the old order. */
  function KeptEntries(active: string, passive: string, bootOrder: Option<string>): seq<string> {
    if bootOrder.None? || bootOrder.value == "" then []
    else Remaining(OrderEntries(bootOrder.value), active, passive)
  }

  /** The entries kept from an old order are clean and are not the slots'. */
  lemma CleanRemaining(active: string, passive: string, bootOrder: Option<string>)
    ensures forall x :: x in KeptEntries(active, passive, bootOrder) ==>
              CleanEntry(x) && x != active && x != passive
  {
  }

  /** Parsing the written order and dropping the slots again gives back the
      entries that followed them. */
  lemma WrittenOrderReadsBack(active: string, passive: string, rem: seq<string>)
    requires active == "" || CleanEntry(active)
    requires passive == "" || CleanEntry(passive)
    requires forall x :: x in rem ==> CleanEntry(x) && x != active && x != passive
    ensures KeptEntries(active, passive, Some(Join(NewOrder(active, passive, rem), ","))) == rem
  {
    var first := NewOrder(active, passive, rem);
    var written := Join(first, ",");
    if |first| >= 1 {
      CleanNewOrder(active, passive, rem);
      EntriesOfJoin(first);
      JoinOfFilled(first);
      RemainingOfNewOrder(active, passive, rem);
    } else {
      assert rem == [];
    }
  }

  /** The new order holds only clean entries when its parts do. */
  lemma CleanNewOrder(active: string, passive: string, rem: seq<string>)
    requires active == "" || CleanEntry(active)
    requires passive == "" || CleanEntry(passive)
    requires forall x :: x in rem ==> CleanEntry(x)
    ensures forall x :: x in NewOrder(active, passive, rem) ==> CleanEntry(x)
  {
    var a := if active != "" then [active] else [];
    var p := if passive != "" then [passive] else [];
    assert NewOrder(active, passive, rem) == a + p + rem;
    forall x | x in a + p + rem ensures CleanEntry(x) {
      assert x in a || x in p || x in rem;
    }
  }

  /** Joining a non-empty list of non-empty entries gives a non-empty text. */
  lemma JoinOfFilled(xs: seq<string>)
    requires |xs| >= 1 && forall x :: x in xs ==> x != ""
    ensures Join(xs, ",") != ""
  {
    if |xs| == 1 {
      assert xs[0] in xs;
    } else {
      JoinUnfold(xs, ",");
    }
  }

  /** A list of slot entries only is filtered away entirely. */
  lemma {:induction false} NoneKept(xs: seq<string>, active: string, passive: string)
    requires forall x :: x in xs ==> x == active || x == passive
    ensures Remaining(xs, active, passive) == []
    decreases |xs|
  {
    if |xs| > 0 {
      assert xs[0] in xs;
      assert forall x :: x in xs[1..] ==> x in xs;
      NoneKept(xs[1..], active, passive);
    }
  }

  /** Filtering the new order gives back the entries that followed the slots. */
  lemma RemainingOfNewOrder(active: string, passive: string, rem: seq<string>)
    requires forall x :: x in rem ==> x != active && x != passive
    ensures Remaining(NewOrder(active, passive, rem), active, passive) == rem
  {
    var head := (if active != "" then [active] else []) + (if passive != "" then [passive] else []);
    assert NewOrder(active, passive, rem) == head + rem;
    RemainingConcat(head, rem, active, passive);
    NoneKept(head, active, passive);
    NoSlotsLeft(rem, active, passive);
  }

  /** Filtering a list that already lacks both slots changes nothing. */
  lemma {:induction false} NoSlotsLeft(xs: seq<string>, active: string, passive: string)
    requires forall x :: x in xs ==> x != active && x != passive
    ensures Remaining(xs, active, passive) == xs
    decreases |xs|
  {
    if |xs| > 0 {
      assert xs[0] in xs;
      assert forall x :: x in xs[1..] ==> x in xs;
      NoSlotsLeft(xs[1..], active, passive);
      assert xs == [xs[0]] + xs[1..];
    }
  }

  // ---------------------------------------------------------------------------
  // The step as a whole

  /** What the step did so far: the commands it ran, in order, and whether it
      has raised. */
  datatype Outcome = Outcome(commands: seq<seq<string>>, raised: bool)

  /** Running a command after `o`: nothing happens once the step has raised; a
      checked command that fails raises. */
  function Then(o: Outcome, args: seq<string>, checked: bool, failing: set<seq<string>>): (r: Outcome)
    ensures o.raised ==> r == o
    ensures !o.raised ==> r.commands == o.commands + [args] && (r.raised <==> checked && args in failing)
  {
    if o.raised then o else Outcome(o.commands + [args], checked && args in failing)
  }

  /** Reading a listing after `o`: a listing that cannot be obtained raises. */
  function ThenRead(o: Outcome, listing: Option<string>): (r: Outcome)
    ensures o.raised ==> r == o
    ensures !o.raised ==> r.commands == o.commands && (r.raised <==> listing.None?)
  {
    if o.raised then o else Outcome(o.commands, listing.None?)
  }

  /** The machine the step runs on: /proc/mounts, the target disk, what each
      `efibootmgr` listing prints (None when it fails), and the commands that
      fail. The two lookups of reorder_boot_entries read the same listing. */
  datatype Env = Env(mounts: string, target: string,
                     beforeDelete0: Option<string>, beforeDelete1: Option<string>,
                     beforeReorder: Option<string>, afterDisable: Option<string>,
                     failing: set<seq<string>>)

  /** The order the step writes, given the listings it reads. */
  function NewOrderArgument(beforeReorder: string, afterDisable: string): (order: string)
    ensures var active := GetBootEntry(beforeReorder, 0);
            active != "" ==> StartsWith(order, active)
    ensures (forall l :: l in SplitOn(afterDisable, LineBreaks) ==> !StartsWith(l, "BootOrder:")) ==>
              order == Join(NewOrder(GetBootEntry(beforeReorder, 0), GetBootEntry(beforeReorder, 1), []), ",")
  {
    OrderArgument(GetBootEntry(beforeReorder, 0), GetBootEntry(beforeReorder, 1),
                  BootOrderValue(SplitOn(afterDisable, LineBreaks)))
  }

  /** run: mount efivarfs when needed, delete both slots' entries, create both,
      then reorder. */
  function Run(env: Env): (r: Outcome)
    ensures !r.raised ==> env.beforeDelete0.Some? && env.beforeDelete1.Some?
                          && env.beforeReorder.Some? && env.afterDisable.Some?
                          && CreateArgs(env.target, 0) !in env.failing && CreateArgs(env.target, 1) !in env.failing
  {
    var f := env.failing;
    var start := Outcome([], false);
    var mounted := if EfivarsMounted(env.mounts) then start else Then(start, MountArgs, true, f);
    var deleted0 := Then(ThenRead(mounted, env.beforeDelete0),
                         DeleteArgs(GetBootEntry(env.beforeDelete0.GetOr(""), 0)), false, f);
    var deleted1 := Then(ThenRead(deleted0, env.beforeDelete1),
                         DeleteArgs(GetBootEntry(env.beforeDelete1.GetOr(""), 1)), false, f);
    var created0 := Then(deleted1, CreateArgs(env.target, 0), true, f);
    var created1 := Then(created0, CreateArgs(env.target, 1), true, f);
    var listed := ThenRead(ThenRead(created1, env.beforeReorder), env.beforeReorder);
    var l := env.beforeReorder.GetOr("");
    var disabled := Then(listed, DisableArgs(GetBootEntry(l, 1)), false, f);
    var ordered := Then(ThenRead(disabled, env.afterDisable),
                        OrderArgs(NewOrderArgument(l, env.afterDisable.GetOr(""))), true, f);
    Then(ordered, BootNextArgs(GetBootEntry(l, 0)), true, f)
  }

  /** When every listing is read and no checked command fails, the step runs,
      in this order: the efivarfs mount if needed, the deletion of both slots'
      old entries, the creation of both, the deactivation of the passive
      entry, the new order with the slots first, and the active entry as next
      boot; and it does not raise. */
  lemma RunSequence(env: Env, old0: string, old1: string, l: string, after: string)
    requires env.beforeDelete0 == Some(old0) && env.beforeDelete1 == Some(old1)
    requires env.beforeReorder == Some(l) && env.afterDisable == Some(after)
    requires MountArgs !in env.failing
    requires CreateArgs(env.target, 0) !in env.failing && CreateArgs(env.target, 1) !in env.failing
    requires OrderArgs(NewOrderArgument(l, after)) !in env.failing
    requires BootNextArgs(GetBootEntry(l, 0)) !in env.failing
    ensures !Run(env).raised
    ensures Run(env).commands ==
            (if EfivarsMounted(env.mounts) then [] else [MountArgs])
            + [DeleteArgs(GetBootEntry(old0, 0))] + [DeleteArgs(GetBootEntry(old1, 1))]
            + [CreateArgs(env.target, 0)] + [CreateArgs(env.target, 1)]
            + [DisableArgs(GetBootEntry(l, 1))] + [OrderArgs(NewOrderArgument(l, after))]
            + [BootNextArgs(GetBootEntry(l, 0))]
  {
    var f := env.failing;
    var start := Outcome([], false);
    var mounted := if EfivarsMounted(env.mounts) then start else Then(start, MountArgs, true, f);
    var c0 := if EfivarsMounted(env.mounts) then [] else [MountArgs];
    assert !mounted.raised && mounted.commands == c0;
    var deleted0 := Then(ThenRead(mounted, env.beforeDelete0), DeleteArgs(GetBootEntry(old0, 0)), false, f);
    var c1 := c0 + [DeleteArgs(GetBootEntry(old0, 0))];
    assert !deleted0.raised && deleted0.commands == c1;
    var deleted1 := Then(ThenRead(deleted0, env.beforeDelete1), DeleteArgs(GetBootEntry(old1, 1)), false, f);
    var c2 := c1 + [DeleteArgs(GetBootEntry(old1, 1))];
    assert !deleted1.raised && deleted1.commands == c2;
    var created0 := Then(deleted1, CreateArgs(env.target, 0), true, f);
    var created1 := Then(created0, CreateArgs(env.target, 1), true, f);
    var c4 := c2 + [CreateArgs(env.target, 0)] + [CreateArgs(env.target, 1)];
    assert !created1.raised && created1.commands == c4;
    var listed := ThenRead(ThenRead(created1, env.beforeReorder), env.beforeReorder);
    var disabled := Then(listed, DisableArgs(GetBootEntry(l, 1)), false, f);
    var c5 := c4 + [DisableArgs(GetBootEntry(l, 1))];
    assert !disabled.raised && disabled.commands == c5;
    var ordered := Then(ThenRead(disabled, env.afterDisable), OrderArgs(NewOrderArgument(l, after)), true, f);
    var c6 := c5 + [OrderArgs(NewOrderArgument(l, after))];
    assert !ordered.raised && ordered.commands == c6;
    assert Run(env) == Then(ordered, BootNextArgs(GetBootEntry(l, 0)), true, f);
  }

  /** A failing creation ends the step: the slots are never reordered. */
  lemma CreateFailureStopsReorder(env: Env, old0: string, old1: string)
    requires env.beforeDelete0 == Some(old0) && env.beforeDelete1 == Some(old1)
    requires MountArgs !in env.failing && CreateArgs(env.target, 0) in env.failing
    ensures Run(env).raised
    ensures Run(env).commands ==
            (if EfivarsMounted(env.mounts) then [] else [MountArgs])
            + [DeleteArgs(GetBootEntry(old0, 0))] + [DeleteArgs(GetBootEntry(old1, 1))]
            + [CreateArgs(env.target, 0)]
  {
    var f := env.failing;
    var start := Outcome([], false);
    var mounted := if EfivarsMounted(env.mounts) then start else Then(start, MountArgs, true, f);
    assert !mounted.raised && mounted.commands == if EfivarsMounted(env.mounts) then [] else [MountArgs];
    var deleted0 := Then(ThenRead(mounted, env.beforeDelete0), DeleteArgs(GetBootEntry(old0, 0)), false, f);
    var deleted1 := Then(ThenRead(deleted0, env.beforeDelete1), DeleteArgs(GetBootEntry(old1, 1)), false, f);
    assert !deleted1.raised;
    var created0 := Then(deleted1, CreateArgs(env.target, 0), true, f);
    assert created0.raised;
    assert Run(env) == created0;
  }

  /** A listing that cannot be obtained raises before any later command, so a
      failing first listing leaves the old entries in place. */
  lemma FailedListingStopsDeletion(env: Env)
    requires MountArgs !in env.failing && env.beforeDelete0.None?
    ensures Run(env).raised
    ensures Run(env).commands == if EfivarsMounted(env.mounts) then [] else [MountArgs]
  {
  }
}

=== FILE: wrappers.dfy ===
/** Option and Result datatypes used for the installer's optional values
    (absent global-storage keys, Python's None) and for its error returns. */
module Wrappers {

  /** A value that may be absent: a missing global-storage key, Python's None,
      a null pointer in the C++ code. */
  datatype Option<+T> = None | Some(value: T) {

    /** Returns the value, or `default` when there is none. */
    function GetOr(default: T): T {
      match this
      case Some(v) => v
      case None => default
    }
  }

  /** The outcome of an operation that can fail with an error value. */
  datatype Result<+R, +E> = Success(value: R) | Failure(error: E) {

    predicate IsFailure() {
      Failure?
    }

    function PropagateFailure<U>(): Result<U, E>
      requires Failure?
    {
      Failure(error)
    }

    function Extract(): R
      requires Success?
    {
      value
    }
  }
}
